=== FILE: README.md ===
# Column ordering, authentication and access in choreograph-collab

This project models the core of a collaborative kanban application in Dafny
and proves properties of that model.

**The column-ordering subsystem** is the centre of the model. Every column of
a project has an integer `order`, and a unique index on `(project, order)`
keeps those orders distinct within a project. The database is a finite map
from column ids to `Column(project, name, order)`. Every write goes through
`ColumnModel`, which returns `DuplicateKey` when the unique index would
refuse the write. The handlers' `catch` branches for error code 11000 are
therefore real code paths in the model. The proofs show that those branches
are unreachable while the store respects the index. The subsystem covers:

- the order allocator and the availability check (`ColumnUtils`);
- the densifying repair and the insert-with-shift (`ColumnUtils`);
- the column routes, including the two-phase bulk reorder with negative
  sentinels (`ColumnRoutes`);
- the stand-alone repair script (`FixColumnOrdering`);
- the board's column drag, title-to-status mapping, task partition and task
  drop (`KanbanBoard`).

**Around the core:**

- Duration parsing and bearer-token extraction in the auth middleware
  (`AuthMiddleware`). Bearer tokens follow the header form of section 2.1
  of RFC 6750.
- Refresh-token issue, validation and revocation (`AuthRoutes`).
- The error-to-status classifier (`ErrorHandler`).
- The owner-or-member access ladders of the task routes and the user routes
  (`Access`, `TaskRoutes`, `UserRoutes`).
- The frontend's in-memory task store (`TaskStore`).
- The current-user query with its retry and back-off policy (`UseAuth`).
- The column dialog (`ColumnModal`).
- The sign-up form (`SignupForm`).
- The header's initials (`Header`).

Handlers are pure functions from a state and a request to a response and a
new state. Where the route code loops over database writes, the model is a
method with loop invariants:

- `ColumnUtils.ReorderColumns`
- `FixColumnOrdering.FindDuplicates`, `Renumber`, `FixProject` and `FixAll`
- `ColumnRoutes.FixOrder`
- `ColumnUtils.InsertColumnAtOrderParked`
- `KanbanBoard.PartitionTasks`

**Parameters stand in for things outside the model.** The following become
parameters:

- database query results, such as a project's columns sorted by order;
- fresh ids;
- the clock;
- the JWT signing and verification functions;
- bcrypt's compare;
- `JSON.parse`;
- the date parser.

Each such parameter has a precondition that says what the real query
returns.

Supporting modules:

- `Wrappers`: `Option` and `Result`.
- `Strings`: JavaScript's `trim`, ASCII case mapping, digit strings,
  `includes`, and `Utf16Length`, JavaScript's `.length`. Every length bound
  of the routes and forms (`.length`, and zod's `min`, `max` and `length`)
  is measured with it, in UTF-16 code units, so a character outside the
  Basic Multilingual Plane counts twice.
- `Sets`: the maximum of a finite set.
- `FrontendTypes`: the frontend's task and project records.

## Model

| member | source | states |
|---|---|---|
| ColumnModel.NewColumn | backend/src/models/Column.ts:11-20 | A column is refused with a validation error exactly when its name trims to nothing. Otherwise it stores the trimmed name, with order 0 when none is given. |
| ColumnModel.InsertColumn | backend/src/models/Column.ts:20 | An insert fails with `DuplicateKey(project, order)` exactly when another column of the same project holds that order. Otherwise it adds the one column, and per-project uniqueness is preserved. |
| ColumnModel.Replace | backend/src/models/Column.ts:20 | Overwriting a column fails exactly when a different column of its project holds the new order. A successful write preserves uniqueness. |
| ColumnModel.SetOrder | backend/src/models/Column.ts:20 | Setting one column's order collides exactly when another column of its project holds it. Success changes only that column's order and preserves uniqueness. |
| ColumnUtils.NextOrder | backend/dist/utils/columnUtils.js:5-8 | The result is above every order in the project. It is 0 for a project without columns, and otherwise one more than an order actually held. |
| ColumnUtils.IsOrderAvailable | backend/dist/utils/columnUtils.js:12-19 | True exactly when no column of the project, other than the excluded one, holds the order. Other projects play no part. |
| ColumnUtils.NextOrderIsAvailable | backend/dist/utils/columnUtils.js:5-19 | The allocated next order always passes the availability check, whatever column is excluded. |
| ColumnUtils.AvailabilityIgnoresOtherProjects | backend/dist/utils/columnUtils.js:12-19 | Adding or changing a column of another project never changes the answer for this project. |
| ColumnUtils.OwnOrderAvailable | backend/dist/utils/columnUtils.js:12-19 | With unique orders, a column's own order is available when that column is excluded. |
| ColumnUtils.AvailableOrderIsWritable | backend/dist/utils/columnUtils.js:12-19 | An order the check reports available can be written without a duplicate-key error. |
| ColumnUtils.ReorderColumns | backend/dist/utils/columnUtils.js:24-32 | Each column at sorted position i ends with order i, and nothing else changes. Only columns whose order differed from their index are written. If orders start distinct and non-negative, no intermediate write collides and uniqueness holds afterwards. |
| ColumnUtils.RepairIdempotent | backend/dist/utils/columnUtils.js:24-32 | After the repair the same listing is still the sorted listing and a second repair writes nothing. It is the only sorted listing of the project. |
| ColumnUtils.OrdersAtLeastIndex | backend/dist/utils/columnUtils.js:27-31 | With distinct non-negative orders, the column at sorted position k holds an order of at least k. This is why each repair write lowers an order into a free slot. |
| ColumnUtils.RepairSlotFree | backend/dist/utils/columnUtils.js:27-31 | At every step of the repair loop, order i is free for the column at position i. |
| ColumnUtils.SortedListingOfDenseIsUnique | backend/dist/utils/columnUtils.js:24-32 | Once the orders are 0..n-1, any listing sorted by order is the repaired one. |
| ColumnUtils.InsertOutcomeUnique | backend/dist/utils/columnUtils.js:36-49 | The intended result of the insert preserves uniqueness: the column at the target, orders at or above it moved up by one, the rest kept. |
| ColumnUtils.InsertColumnAtOrder | backend/dist/utils/columnUtils.js:36-49 | Written as the source does it, with an ascending shift. Any successful run ends in the intended outcome. |
| ColumnUtils.AscendingShiftCollides | backend/dist/utils/columnUtils.js:42-46 | For a three-column project with orders 0, 1, 2 and column `c` inserted at 0, the ascending shift fails with `DuplicateKey(Board, 1)`. The intended outcome is still unique. |
| ColumnUtils.InsertColumnAtOrderParked | backend/dist/utils/columnUtils.js:36-49 | The corrected insert parks the moving column past the maximum and shifts in descending order. With unique orders it always succeeds and yields exactly the intended outcome, which is unique. |
| ColumnUtils.ShiftDown | backend/dist/utils/columnUtils.js:44-46 | Once the inserted column is parked above every order, a successful shift has moved each listed column (those at or above the target) up by one and changed nothing else. With unique orders it never fails. |
| ColumnUtils.ParkedShiftFree | backend/dist/utils/columnUtils.js:44-46 | During the descending shift, each column's new order is free when it is written. |
| ColumnUtils.ParkedTargetFree | backend/dist/utils/columnUtils.js:47-48 | After the shift the target order is free for the inserted column, and writing it gives the intended outcome. |
| ColumnUtils.ParkedShiftOnExample | backend/dist/utils/columnUtils.js:36-49 | Running the corrected insert on that example, every write is accepted and the board ends at `c`=0, `a`=1, `b`=2. |
| ColumnRoutes.Create | backend/dist/routes/column.routes.js:19-90 | The checks run in order and each failure writes nothing: empty project id 400, an id that does not cast to an ObjectId 500 INTERNAL_ERROR (the `catch`), missing project 404, invalid body 400, case-insensitive duplicate name 409, order taken 409 with the next order suggested. A 201 adds exactly one column: the trimmed name at the given or next order. Duplicate-key errors never reach the caller, and uniqueness is preserved. |
| ColumnRoutes.CreateAppends | backend/dist/routes/column.routes.js:58-63 | A fresh name without an order gets 201, and the stored column sits at `NextOrder`. |
| ColumnRoutes.CreateFailure | backend/dist/routes/column.routes.js:64-89 | The `catch` maps a duplicate key to 409 with `suggestedOrder` when the project is known, and to a generic 409 otherwise. Any other error gives 500. |
| ColumnRoutes.Update | backend/dist/routes/column.routes.js:145-198 | After both schemas pass, an id that does not cast to an ObjectId gives 500 INTERNAL_ERROR (the `catch`). The column's own name and order are excluded from both checks. An order conflict carries no suggestion. A 200 changes only the name and order of a column matching both id and project. A missing column gives 404. Failures write nothing, and uniqueness is preserved. |
| ColumnRoutes.UpdateToOwnOrderSucceeds | backend/dist/routes/column.routes.js:154-178 | Setting a column's order to its current value is accepted. |
| ColumnRoutes.Delete | backend/dist/routes/column.routes.js:224-241 | Empty ids give 400 and ids that do not cast to an ObjectId give 500 INTERNAL_ERROR. Otherwise it removes exactly the column matching id and project, or answers 404; no failure writes. |
| ColumnRoutes.DeleteUndoesCreate | backend/dist/routes/column.routes.js:19-241 | Deleting a column right after it was created gives back the original store, and a second delete of it is a 404. |
| ColumnRoutes.FixOrder | backend/dist/routes/column.routes.js:200-223 | Returns 400 (empty id), 500 (an id that does not cast) or 404 before any write. A 200 leaves the project's orders at 0..n-1 in the previous order. With distinct non-negative orders it always succeeds. |
| ColumnRoutes.InvalidIdsOf | backend/dist/routes/column.routes.js:111-121 | The reported ids are exactly the requested ids that are not columns of the project. |
| ColumnRoutes.Sentinel | backend/dist/routes/column.routes.js:95 | Every non-negative order maps to a value of at most -1000, so sentinels never meet a valid target. |
| ColumnRoutes.SentinelInjective | backend/dist/routes/column.routes.js:95 | Distinct orders get distinct sentinels. |
| ColumnRoutes.Reorder | backend/dist/routes/column.routes.js:98-143 | Checks, in order: project id (400 when empty, 500 when it does not cast to an ObjectId), project, schema, ids outside the project (400 listing them, nothing written). The set of columns is kept. Phase-1 and phase-2 writes that collide are reported as errors, and uniqueness is preserved. |
| ColumnRoutes.Phase1Clean | backend/dist/routes/column.routes.js:124-125 | With distinct non-negative orders, no sentinel write of phase 1 collides. |
| ColumnRoutes.Phase2Clean | backend/dist/routes/column.routes.js:126-128 | When every current order is negative and the requested orders are distinct, no phase-2 write collides. |
| ColumnRoutes.ReorderSucceeds | backend/dist/routes/column.routes.js:98-143 | A well-formed request for the project's own columns, with distinct orders, is answered 200. |
| ColumnRoutes.ReorderFinalOrders | backend/dist/routes/column.routes.js:124-128 | After a 200, a column named in the request holds the order of the last item naming it, which is its requested order when ids are distinct. Unlisted columns of the project hold their sentinel, and other projects are untouched. |
| ColumnRoutes.FinalOrderAt | backend/dist/routes/column.routes.js:124-128 | After a 200, a listed column keeps its project and name and holds the order of the last item naming it. With distinct ids that is exactly the order its item requested. |
| ColumnRoutes.ReorderNeedsDistinctOrders | backend/dist/routes/column.routes.js:124-128 | After a 200 from a unique store, two different columns named in the request end with different orders. For a request with distinct ids this means the requested orders were distinct, which gives the if-and-only-if with `ReorderSucceeds` for such requests. |
| ColumnRoutes.LastWriteIsLast | backend/dist/routes/column.routes.js:126-128 | A column gets no phase-2 write exactly when no item names it. Otherwise its final order comes from an item naming it that no later item overrides. |
| ColumnRoutes.RepeatedIdAccepted | backend/dist/routes/column.routes.js:98-143 | The schema lets an id repeat, so `[a:3, a:5, b:3]` on columns `a`=0, `b`=1 is answered 200 with `a`=5 and `b`=3, although two items ask for order 3. Distinct orders are sufficient but not necessary once ids repeat. |
| ColumnRoutes.ReorderExample | backend/dist/routes/column.routes.js:98-143 | A three-column project reordered to (2, 0, 1) ends with exactly those orders. |
| FixColumnOrdering.RepeatsCount | backend/scripts/fixColumnOrdering.ts:28-38 | The number of repeated positions plus the number of distinct orders equals the number of columns. |
| FixColumnOrdering.RepeatsComplete | backend/scripts/fixColumnOrdering.ts:28-38 | Every position whose order was already seen earlier is reported. |
| FixColumnOrdering.FindDuplicates | backend/scripts/fixColumnOrdering.ts:28-38 | The duplicates are the columns at exactly the repeated positions, in sorted order. |
| FixColumnOrdering.Renumber | backend/scripts/fixColumnOrdering.ts:48-54 | The column at sorted position i ends with order i. Only columns whose order differed are written. |
| FixColumnOrdering.FixProject | backend/scripts/fixColumnOrdering.ts:15-57 | An empty project is skipped. A project without repeats is left untouched. A project with repeats is renumbered to 0..n-1. |
| FixColumnOrdering.GapsAreLeftAlone | backend/scripts/fixColumnOrdering.ts:40-43 | Orders 0 and 5 have no duplicate, so the script leaves them while the route repair would not. |
| FixColumnOrdering.FixKeepsOtherProjects | backend/scripts/fixColumnOrdering.ts:48-54 | Renumbering one project changes no column of another project and keeps its listing sorted. |
| FixColumnOrdering.FixAll | backend/scripts/fixColumnOrdering.ts:5-65 | Every project gets the outcome `FixProject` would give it alone. Columns of unlisted projects are unchanged. |
| KanbanBoard.ColumnStatus | frontend/src/components/kanban/KanbanBoard.tsx:56-83 | The status is always one of todo, in-progress, review and done. |
| KanbanBoard.StatusIgnoresCaseAndPadding | frontend/src/components/kanban/KanbanBoard.tsx:57 | Surrounding spaces and letter case never change the status. |
| KanbanBoard.ExactTitlesFirst | frontend/src/components/kanban/KanbanBoard.tsx:61-70 | An exact title wins over every substring rule. |
| KanbanBoard.ColumnColorFollowsRules | frontend/src/components/kanban/KanbanBoard.tsx:38-53 | The colour is that of the first keyword group in the fixed priority list that matches, and grey when none does. |
| KanbanBoard.Moved | frontend/src/components/kanban/KanbanBoard.tsx:186-189 | Moving one element is a permutation. The moved element lands at the splice index, and removing it gives back the others in their old order. |
| KanbanBoard.MovedDistinct | frontend/src/components/kanban/KanbanBoard.tsx:186-189 | Moving an element of a duplicate-free list keeps it duplicate-free. |
| KanbanBoard.ColumnMovePayload | frontend/src/components/kanban/KanbanBoard.tsx:172-196 | Written as the source does it: no request when the two indexes agree, otherwise orders 0..n-1 over the moved list. A drop over something that is not a column puts the column second to last. |
| KanbanBoard.DropOnTaskMovesColumn | frontend/src/components/kanban/KanbanBoard.tsx:176-194 | On any three-column board `[a, b, c]`, dropping `a` on anything that is not a column (a task card) still sends a reorder, to `[b, a, c]`, whereas the checked version sends nothing. |
| KanbanBoard.ColumnMovePayloadChecked | frontend/src/components/kanban/KanbanBoard.tsx:172-196 | There is no request exactly when the target is not a column or is the column itself. Otherwise the moved column sits at the target's index, the others keep their relative order, and the orders are 0..n-1. |
| KanbanBoard.MovePayloadReorders | frontend/src/components/kanban/KanbanBoard.tsx:172-196 | The server accepts every checked payload. Each column ends at its new index, and uniqueness holds. |
| KanbanBoard.PermutationReorders | backend/dist/routes/column.routes.js:98-143 | Any ordering that lists each of the project's columns once is accepted, and every column ends at its index in that ordering. |
| KanbanBoard.PartitionTasks | frontend/src/components/kanban/KanbanBoard.tsx:326-357 | A task appears in at most one column, the first whose status matches its own. Shown and unassigned tasks together are all the tasks, and the unassigned ones are exactly those without a matching column. |
| KanbanBoard.DropUpdate | frontend/src/components/kanban/KanbanBoard.tsx:223-258 | An update is requested exactly when the task and the column are known and the column's status differs from the task's. The request is that status. |
| KanbanBoard.DropIsIdempotent | frontend/src/components/kanban/KanbanBoard.tsx:241-258 | Once the status is applied, dropping on the same column again requests nothing. |
| TaskStore.MergeIdempotent | frontend/src/store/taskStore.ts:103-111 | Applying the same patch twice is the same as applying it once. |
| TaskStore.AddTask | frontend/src/store/taskStore.ts:93-101 | Exactly one task is appended, carrying the draft's fields and the given id and time. Existing tasks and projects are unchanged. |
| TaskStore.UpdateTask | frontend/src/store/taskStore.ts:103-111 | Only tasks with the id change, and they get the merged patch. Length and order are kept. |
| TaskStore.UpdateUnknownId | frontend/src/store/taskStore.ts:103-111 | An unknown id leaves the state unchanged. |
| TaskStore.UpdateIdempotent | frontend/src/store/taskStore.ts:103-111 | Repeating an update changes nothing more. |
| TaskStore.DeleteTask | frontend/src/store/taskStore.ts:113-117 | Exactly the tasks with that id are removed. |
| TaskStore.WithoutSplits | frontend/src/store/taskStore.ts:113-117 | The filter acts piecewise, so the remaining tasks stay in their order. |
| TaskStore.DeleteIdempotent | frontend/src/store/taskStore.ts:113-117 | A second delete of the same id changes nothing. |
| TaskStore.MoveTask | frontend/src/store/taskStore.ts:119-121 | A move is an update of the status alone. |
| TaskStore.AddProject | frontend/src/store/taskStore.ts:123-131 | Exactly one project is appended, and tasks and selection are kept. |
| TaskStore.SelectProject | frontend/src/store/taskStore.ts:133-138 | An unknown id leaves the state unchanged. A known id selects the first project with it. |
| TaskStore.SelectAdded | frontend/src/store/taskStore.ts:123-138 | Selecting a freshly added project selects that project. |
| AuthMiddleware.MatchDuration | backend/src/middleware/auth.ts:6-9 | The regular expression `^\d+[mhd]$` matches exactly the durations, split into their digits and their unit. |
| AuthMiddleware.ParseTimeString | backend/src/middleware/auth.ts:5-28 | Only durations are accepted, with the error message otherwise. The output is the decimal value followed by the same unit. |
| AuthMiddleware.ParseStripsZeros | backend/src/middleware/auth.ts:16-24 | Parsing removes the leading zeros of the number, so "007d" becomes "7d". |
| AuthMiddleware.ParseIdempotent | backend/src/middleware/auth.ts:11-27 | Parsing the parsed string again gives the same string. |
| AuthMiddleware.TokenExpiry | backend/src/middleware/auth.ts:31-42 | The result is always a duration. An unset, empty or malformed variable gives the default. |
| AuthMiddleware.DefaultIsCanonical | backend/src/middleware/auth.ts:31-42 | "15m" and "7d" are durations that parse to themselves. |
| AuthMiddleware.BearerToken | backend/src/middleware/auth.ts:82-88 | A token exists exactly when the header starts with "Bearer " and has more after it. The header is then the prefix followed by the token. |
| AuthMiddleware.BearerRoundTrip | backend/src/middleware/auth.ts:82-88 | Every non-empty token placed after the prefix is extracted unchanged. |
| AuthMiddleware.BearerIsCaseSensitive | backend/src/middleware/auth.ts:82-88 | "bearer ", a bare "Bearer" and a prefix with nothing after it give no token. |
| AuthMiddleware.RequireAuth | backend/src/middleware/auth.ts:81-98 | "Missing token" exactly when no bearer token is found. The request proceeds exactly when a token, a secret and a successful verification are present, and it carries the verified user. |
| AuthRoutes.RefreshExpiryMs | backend/src/routes/auth.routes.ts:9-35 | The result is n·60000 ms for m, n·3600000 ms for h, n·86400000 ms for d, and seven days for anything else. |
| AuthRoutes.ExpiryIsWholeMinutes | backend/src/routes/auth.routes.ts:22-30 | Every lifetime is a multiple of a minute. |
| AuthRoutes.InvalidMeansSevenDays | backend/src/routes/auth.routes.ts:10-20 | A non-matching string gives the same lifetime as "7d". |
| AuthRoutes.ExpiryIgnoresLeadingZeros | backend/src/routes/auth.routes.ts:9-35 | The canonical form from the middleware gives the same lifetime. |
| AuthRoutes.ExpiryMonotone | backend/src/routes/auth.routes.ts:22-30 | For a fixed unit, a larger number never gives a shorter lifetime. |
| AuthRoutes.StoreToken | backend/src/routes/auth.routes.ts:61-65 | Exactly one unrevoked token record is appended, expiring at now plus the lifetime. A reused token string is refused. |
| AuthRoutes.Signup | backend/src/routes/auth.routes.ts:45-67 | Invalid input gives 400; the password's `min(6)` counts UTF-16 units. An existing email gives 409 and creates neither a user nor a token. A 201 adds the user and one token record. When the token insert throws after `User.create`, the new user stays in the store. |
| AuthRoutes.Login | backend/src/routes/auth.routes.ts:74-98 | A password under six UTF-16 units gives 400. An unknown email and a wrong password both give 401 with nothing written. A 200 appends exactly one token record. |
| AuthRoutes.LoginFailuresLookAlike | backend/src/routes/auth.routes.ts:80-87 | The reply for an unknown email is identical to the reply for a wrong password. |
| AuthRoutes.Refresh | backend/src/routes/auth.routes.ts:102-112 | A new access token is issued exactly when a record with that token is unrevoked and unexpired and the token verifies. The store never changes. |
| AuthRoutes.RevokeAll | backend/src/routes/auth.routes.ts:115 | Every record of the user is marked revoked. None is deleted, and other users' records are unchanged. |
| AuthRoutes.Logout | backend/src/routes/auth.routes.ts:114-117 | Without authentication the request is rejected and nothing changes. Otherwise every token of the caller is revoked. |
| AuthRoutes.LogoutEndsSessions | backend/src/routes/auth.routes.ts:102-117 | After logout, no token of that user refreshes. |
| AuthRoutes.IssuedTokenRefreshes | backend/src/routes/auth.routes.ts:74-112 | A token issued by login refreshes within its lifetime, and a token with no record does not. |
| ErrorHandler.DuplicateKeyResponse | backend/src/middleware/errorHandler.ts:18-50 | Always 409. `project` with a defined `order` (0 included) gives DUPLICATE_ORDER with the order, `email` gives DUPLICATE_EMAIL, other keys give DUPLICATE_KEY listing the fields, and no keys give no code. |
| ErrorHandler.ValidationDetails | backend/src/middleware/errorHandler.ts:55-61 | The details hold the first path the required-field pattern finds, and nothing when none is found. |
| ErrorHandler.FirstMatch | backend/src/middleware/errorHandler.ts:55-61 | The match found is the leftmost one. |
| ErrorHandler.GuardImplied | backend/src/middleware/errorHandler.ts:55-61 | A message without "Path" never matches, so the `includes` guard adds nothing. |
| ErrorHandler.RequiredIsGreedyRun | backend/src/middleware/errorHandler.ts:55-61 | A captured field name is the whole run of word characters after the opening quote, and the closing quote follows it directly. |
| ErrorHandler.WordsMatchOnce | backend/src/middleware/errorHandler.ts:55-61 | At a given position the pattern captures one field name at most. |
| ErrorHandler.MessageNamesPath | backend/src/middleware/errorHandler.ts:53-68 | A mongoose "required" message yields its own path. |
| ErrorHandler.NamedResponse | backend/src/middleware/errorHandler.ts:53-109 | ValidationError and CastError give 400, the two JWT errors 401, a `statusCode` is passed through as CUSTOM_ERROR, and otherwise 500 INTERNAL_ERROR. Each code is an if-and-only-if. |
| ErrorHandler.HandleError | backend/src/middleware/errorHandler.ts:9-110 | An error with code 11000 gets the duplicate-key 409 whatever its name or `statusCode`. Every other error goes to the name-based classification. |
| ErrorHandler.DuplicateKeyWins | backend/src/middleware/errorHandler.ts:18-50 | A ValidationError with code 11000 still gives 409. The string "11000" is not the code. |
| ErrorHandler.OrderZeroIsDuplicateOrder | backend/src/middleware/errorHandler.ts:24-31 | Order 0 counts as a defined order. |
| ErrorHandler.ColumnErrorsClassified | backend/src/middleware/errorHandler.ts:9-110 | The column store's duplicate key gives DUPLICATE_ORDER with the order. Its validation failure gives VALIDATION_ERROR on the path. |
| ErrorHandler.NotFound | backend/src/middleware/errorHandler.ts:112-118 | Always 404 NOT_FOUND, naming the route. |
| ErrorHandler.NotFoundIsDistinct | backend/src/middleware/errorHandler.ts:9-118 | No handled error ever carries NOT_FOUND. |
| TaskRoutes.Admit | backend/dist/routes/task.routes.js:13-25 | A missing project gives 404 before access is checked. A caller who is neither owner nor member gets 403. Only owners and members pass. |
| TaskRoutes.AssigneeProblem | backend/dist/routes/task.routes.js:125-135 | An assignee is accepted exactly when it exists and is the owner or a member, and refused with 400 otherwise. |
| TaskRoutes.Deadline | backend/dist/routes/task.routes.js:136-143 | An unparsable deadline is an error. None stays none. |
| TaskRoutes.ListTasks | backend/dist/routes/task.routes.js:11-48 | A 200 exactly when the id is 24 UTF-16 units long and the caller is admitted. It lists exactly the project's tasks. |
| TaskRoutes.GetTask | backend/dist/routes/task.routes.js:50-96 | The intended read. Ids that are not 24 UTF-16 units long give 400; ids of that length that do not cast give 500. Comparing the populated project's id, a task of another project is refused with 400, and a 200 shows the task. |
| TaskRoutes.GetTaskAsWritten | backend/dist/routes/task.routes.js:69-77 | Ids that are not 24 UTF-16 units long give 400. As written, the populated project's string form is compared with the id, so no found task is ever shown. Its project existing gives 400, and a missing project gives 500. A 404 still comes exactly from a missing project or a missing task. |
| TaskRoutes.CreateDocument | backend/dist/routes/task.routes.js:144-150 | An omitted status defaults to "todo" and an omitted priority to "medium". |
| TaskRoutes.PersistAsWritten | backend/dist/routes/task.routes.js:144-150 | Written as the source does it, the stored task keeps neither priority nor assignee. |
| TaskRoutes.CreateDropsAssignee | backend/dist/routes/task.routes.js:107-169 | A requested assignee is lost on create as written and kept by the corrected model. |
| TaskRoutes.Persist | backend/dist/routes/task.routes.js:144-150 | The corrected store keeps the assignee, the priority and the trimmed title. |
| TaskRoutes.AstralIdIsCastFailure | backend/dist/routes/task.routes.js:50-96 | Twelve characters outside the Basic Multilingual Plane pass `length(24)` but do not cast, so listing and reading answer 500, not 400. |
| TaskRoutes.AstralTitleTooLong | backend/dist/routes/task.routes.js:97-105 | A title of more than 100 characters outside the Basic Multilingual Plane exceeds `max(200)` and is refused. |
| TaskRoutes.CreateTask | backend/dist/routes/task.routes.js:107-169 | The checks run in order, each with nothing written: id length in UTF-16 units, project (500 when the id does not cast), access, body (title and description bounds in UTF-16 units), assignee. A 201 stores the new task. |
| TaskRoutes.ApplyUpdate | backend/dist/routes/task.routes.js:213-231 | The corrected `$set`: each given field replaces the stored one (title and description trimmed), every absent field and the project are kept. Strict mode's loss of `assigneeId` and `priority` is under Left out. |
| TaskRoutes.UpdateIdempotent | backend/dist/routes/task.routes.js:213-231 | Applying an update twice equals applying it once. |
| TaskRoutes.UpdateTask | backend/dist/routes/task.routes.js:180-250 | Ids and the body's bounds are measured in UTF-16 units. Only a task of that project is updated, and 404 otherwise. Failures write nothing. |
| TaskRoutes.DeleteTask | backend/dist/routes/task.routes.js:252-280 | Ids must be 24 UTF-16 units long (400) and cast (500). Exactly that task is removed, or 404 with nothing written. |
| TaskRoutes.AssignTask | backend/dist/routes/task.routes.js:282-329 | Ids must be 24 UTF-16 units long (400) and cast (500). A missing assignee gives 400 before any lookup. A stored blank title fails the save's validation with 500. A 200 sets exactly that task's assignee to a member. |
| TaskRoutes.UnassignTask | backend/dist/routes/task.routes.js:331-365 | Ids must be 24 UTF-16 units long (400) and cast (500). A stored blank title fails the save's validation with 500. A 200 clears exactly that task's assignee. |
| TaskRoutes.OutsidersAreTurnedAway | backend/dist/routes/task.routes.js:13-25 | A caller without access gets 403, or 404 when the project is missing, on every task route. |
| TaskRoutes.CreateKeepsAssignees | backend/dist/routes/task.routes.js:107-169 | Create keeps every assignee a member of the task's project. |
| TaskRoutes.UpdateKeepsAssignees | backend/dist/routes/task.routes.js:180-250 | Update keeps every assignee a member. |
| TaskRoutes.AssignKeepsAssignees | backend/dist/routes/task.routes.js:282-329 | Assign keeps every assignee a member. |
| TaskRoutes.UnassignKeepsAssignees | backend/dist/routes/task.routes.js:252-365 | Unassign and delete keep every assignee a member. |
| TaskRoutes.CreatedTaskIsReadable | backend/dist/routes/task.routes.js:50-169 | A created task can be read back by its creator. |
| TaskRoutes.CreatedTaskIsRefusedAsWritten | backend/dist/routes/task.routes.js:50-169 | A task just created is refused with 400 "Task does not belong to this project" by the read as written, while the intended read shows it. |
| TaskRoutes.DeletedTaskIsGone | backend/dist/routes/task.routes.js:50-96 | A deleted task can no longer be read. |
| TaskRoutes.AssignThenUnassign | backend/dist/routes/task.routes.js:282-365 | Unassigning after an assign leaves the task with no assignee. |
| TaskRoutes.BlankedTitleBlocksAssign | backend/dist/routes/task.routes.js:180-365 | An update whose title is only spaces is accepted and stores an empty title. After it, unassign fails with 500 and assign never succeeds. |
| TaskRoutes.SpacesPassAndTrimAway | backend/dist/routes/task.routes.js:180-231 | A title of three spaces passes the update's validation and trims to nothing. |
| UserRoutes.ViewUserAsWritten | backend/dist/routes/user.routes.js:63-96 | Written as the source does it: a profile is visible to oneself, to anyone sharing a project with it as owner and member, or whenever the target owns any project. |
| UserRoutes.OwnerVisibleToEveryone | backend/dist/routes/user.routes.js:69-78 | A project owner is visible, as written, to a stranger who shares nothing with them, while the corrected rule refuses. The relation is also not symmetric. |
| UserRoutes.ViewUser | backend/dist/routes/user.routes.js:63-96 | A caller who is not the target and shares no project with them gets 403. A 200 shows the target's profile. |
| UserRoutes.ViewIsMutual | backend/dist/routes/user.routes.js:69-78 | Under the corrected rule, a may view b exactly when b may view a. |
| UserRoutes.AstralCharIsSearched | backend/dist/routes/user.routes.js:100-104 | A single character outside the Basic Multilingual Plane has length 2 and is searched for. |
| UserRoutes.SearchUsers | backend/dist/routes/user.routes.js:98-129 | A query shorter than 2 UTF-16 units gives 400. A longer query that is not a valid pattern gives 500. Otherwise results exclude the caller, match the query and number at most 10, and every match is listed when fewer than 10 are. |
| UserRoutes.ListProjectUsers | backend/dist/routes/user.routes.js:131-159 | The users are the owner plus the members, and `isOwner` is true only for the owner. |
| UserRoutes.ProfileProjects | backend/dist/routes/user.routes.js:161-186 | The intended summary, with `owner` among the selected fields. Owned plus member equals total. Every project involving the user is listed, with `isOwner` exactly for the owned ones. |
| UserRoutes.ProfileProjectsAsWritten | backend/dist/routes/user.routes.js:161-186 | As written, the selected fields leave out `owner`, so the summary fails with 500 exactly when some project involves the user. A user with no project gets 200 with zeros and an empty list. |
| UserRoutes.ProfileFailsWithAnyProject | backend/dist/routes/user.routes.js:161-186 | A user with one project gets 500 as written, while the intended summary lists that project with the right `isOwner`. |
| UserRoutes.ProfileAgreesWhenEmpty | backend/dist/routes/user.routes.js:161-186 | For a user with no project, the summary as written and the intended one agree. |
| UserRoutes.FilterPartition | backend/dist/routes/user.routes.js:164-179 | A filter and its complement split the list. |
| UserRoutes.PullMember | backend/dist/routes/user.routes.js:200-202 | The user leaves a project's members and nothing else changes. |
| UserRoutes.DeleteAccount | backend/dist/routes/user.routes.js:188-209 | Deletion succeeds exactly when the user owns no project. Otherwise it is a 400 with the count and nothing changes. On success the user is gone from every member list, then from the users. |
| UserRoutes.DeletedUserIsGone | backend/dist/routes/user.routes.js:161-209 | After deletion the user has no projects and cannot be found, and the summary as written answers 200 for them. |
| UseAuth.CurrentUser | frontend/src/hooks/useAuth.ts:135-167 | No request is made exactly when a non-empty cached user parses, and that user is answered. An unauthorized failure clears all three stored entries. Other failures keep them. |
| UseAuth.RetryDelay | frontend/src/hooks/useAuth.ts:184 | The delay lies between 1 and 30 seconds and is 1000·2^n until it reaches the cap. |
| UseAuth.DelayMonotone | frontend/src/hooks/useAuth.ts:184 | The back-off never shrinks. |
| UseAuth.DelayCappedFromFive | frontend/src/hooks/useAuth.ts:184 | From index 5 on, the delay is the 30-second cap. |
| UseAuth.AttemptsBounded | frontend/src/hooks/useAuth.ts:170-184 | A failing query is tried at most three times and waits at most three seconds in all. |
| UseAuth.AuthErrorIsFinal | frontend/src/hooks/useAuth.ts:174-180 | An error mentioning "401", "Unauthorized" or "No token found" is never retried. |
| UseAuth.PersistentFailureTriedThrice | frontend/src/hooks/useAuth.ts:182-184 | Any other persistent failure is tried exactly three times with 1 s and 2 s waits. |
| UseAuth.UnauthorizedDisablesQuery | frontend/src/hooks/useAuth.ts:156-168 | After an unauthorized answer no token is left, so the query is disabled. |
| ColumnModal.HandleCreate | frontend/src/components/dashboard/ColumnModal.tsx:23-50 | The create call is made exactly when the trimmed name is non-blank and no existing name equals it after lowercasing and trimming, and it sends the trimmed name. A blank name shows the required toast. A duplicate sets the name error. |
| ColumnModal.HandleNameChange | frontend/src/components/dashboard/ColumnModal.tsx:91-97 | Typing stores the text and clears the name error. |
| ColumnModal.FailureToast | frontend/src/components/dashboard/ColumnModal.tsx:63-81 | DUPLICATE_NAME and ORDER_CONFLICT get their own titles and anything else gets "Error". The description is never empty. |
| ColumnModal.Settle | frontend/src/components/dashboard/ColumnModal.tsx:52-81 | As written: a 201 resets the dialog. Any other status keeps it and shows the toast for an error that carries no response, because the API client throws a plain `Error`. |
| ColumnModal.SettleWithBody | frontend/src/components/dashboard/ColumnModal.tsx:52-81 | The intended settle: on a 201 it agrees with `Settle`, and on any other status the toast is chosen from the route's error body. |
| ColumnModal.RefusalsLookAlike | frontend/src/components/dashboard/ColumnModal.tsx:59-81 | As written every refusal shows the same generic "Error" toast, whatever the route answered. A duplicate name gets its own title only from `SettleWithBody`. |
| ColumnModal.ClientCheckMatchesServer | frontend/src/components/dashboard/ColumnModal.tsx:34-42 | When the cached names are the project's stored names, the dialog's duplicate test agrees exactly with the server's. |
| ColumnModal.SentRequestIsCreated | frontend/src/components/dashboard/ColumnModal.tsx:48-58 | Every request the dialog sends is answered 201. The server stores the trimmed name at the next order. |
| ColumnModal.RefusalsAreExplained | frontend/src/components/dashboard/ColumnModal.tsx:63-81 | With the route's body reaching the dialog, every refusal shows a toast with a description. A duplicate name and an order conflict get their own titles and the server's message. |
| ColumnModal.RefusedPressDisablesSubmit | frontend/src/components/dashboard/ColumnModal.tsx:119-138 | After a refused press the submit button is disabled. |
| ColumnModal.EnabledPressSends | frontend/src/components/dashboard/ColumnModal.tsx:119-138 | A press on an enabled button with a fresh name sends it. |
| SignupForm.HandleSubmit | frontend/src/components/auth/SignupForm.tsx:30-62 | Signup is called exactly when the passwords match and are at least 6 long. A mismatch is reported, otherwise a short password. The old error is cleared first. |
| SignupForm.SentSignupPassesSchema | backend/src/routes/auth.routes.ts:38-43 | Every password the form sends, with a name and a valid e-mail, passes the signup schema and the login schema, which measure it the same way. |
| SignupForm.SentPasswordIsConfirmed | frontend/src/components/auth/SignupForm.tsx:37-51 | A password sent to the server equals its confirmation and is at least six UTF-16 code units long, the length `password.length` measures (hence at least three code points). |
| SignupForm.ErrorDependsOnPasswordsOnly | frontend/src/components/auth/SignupForm.tsx:34-46 | The outcome depends only on the two passwords, so a stale error never survives. |
| SignupForm.ResubmitIsStable | frontend/src/components/auth/SignupForm.tsx:30-62 | Resubmitting an unchanged form gives the same result. |
| SignupForm.MismatchReportedFirst | frontend/src/components/auth/SignupForm.tsx:37-46 | A short, mismatched password is reported as a mismatch. |
| Header.Split | frontend/src/components/layout/Header.tsx:32 | There is at least one part and no part contains the separator. |
| Header.JoinSplit | frontend/src/components/layout/Header.tsx:32 | Joining the parts gives back the name. |
| Header.FirstsAreWordStarts | frontend/src/components/layout/Header.tsx:32-34 | The first characters of the parts are exactly the characters that begin words. Empty parts contribute nothing. |
| Header.GetInitials | frontend/src/components/layout/Header.tsx:30-37 | At most two characters. |
| Header.InitialsOfWords | frontend/src/components/layout/Header.tsx:30-37 | The initials are the upper-cased starts of the first two words, in order, and as many as there are words up to two. |
| Header.WordStartsAreLetters | frontend/src/components/layout/Header.tsx:33-34 | No initial is a space. |
| Header.BlankNameHasNoInitials | frontend/src/components/layout/Header.tsx:33-34 | A name of spaces has no initials. |

## Left out

- The database and web framework are not modelled: mongoose, MongoDB and Express are left out.
  - Queries are map operations, and schemas are predicates.
  - A query's sorted result is a method parameter. A precondition says what the query returns.
- bcrypt, JWT signing and verification, `JSON.parse`, the date parser, the clock and fresh ids are parameters.
- Concurrency is not modelled. The `Promise.all` writes of the bulk reorder are applied one after another. Races that make the 11000 fallback reachable are outside the model.
- JavaScript `parseInt` precision on very long digit strings is not modelled. Numbers are unbounded.
- The create and update routes test names with a case-insensitive regular expression that has the name spliced in unescaped. The model uses case-insensitive equality of names. A name containing regular-expression metacharacters therefore behaves differently in the source.
- Case mapping is ASCII only in `Strings.Lower`, `Strings.Upper` and `Header.GetInitials`. JavaScript's Unicode case mapping is not modelled.
- Header.GetInitials: the function's own contract only bounds the length. What the initials are is stated by `Header.InitialsOfWords`. `n[0]` is a UTF-16 code unit, while the model takes a whole character.
- Column routes have no owner or member check in the code, only `requireAuth`. The model follows the code, so any authenticated caller may change any project's columns.
- The column list route (GET), the profile read and update routes, and the project routes are left out. They have no ordering or access logic of interest.
- The compiled `backend/dist/routes/auth.routes.js` is an older build that hard-codes seven days. The TypeScript route is modelled instead.
- UseAuth.Attempts: the retry loop is the query library's documented behaviour, not code of this repository. Caching and `staleTime` are left out.
- UseAuth.UnauthorizedDisablesQuery: requires that no user is cached. A cached user that parses never reaches the API.
- SignupForm: the redirect after a successful signup is a React effect and is left out. So are the form's own field updates.
- ColumnModal: the Enter key applies the same test as the button and is not a separate member. `handleClose` is `ColumnModal.Reset`.
- KanbanBoard: rendering, dnd-kit sensors, the optimistic query-cache update and toasts are left out.
- TaskRoutes.ApplyUpdate: the update route spreads the body into `$set` the same way create does. The task schema has neither an `assigneeId` nor a `priority` path, so as written strict mode drops both. The model stores both, as in the corrected create; the Findings row exhibits the loss on create.
- Ids are compared as the strings the request carries. MongoDB casts a 24-digit hex id case-insensitively, so an upper-case spelling of a stored id matches in the source and not in the model; the model assumes ids arrive in the canonical lower-case form. `ProjectAccess.Castable` decides only whether the cast succeeds: 24 hex digits, or twelve characters whose UTF-8 encoding is twelve bytes, the raw form older ObjectId versions accept.
- FixColumnOrdering: the script's `updateOne` writes are applied without the unique `(project, order)` index check. Its renumbering of a project with duplicates can pass through colliding orders, which the index would refuse; the model does not model that failure.
- ColumnRoutes.Reorder: the 200 body lists the project's columns sorted by order. The model returns a fixed body and states the final store instead; in it, columns the request did not name keep their negative sentinels, so they would be listed first.
- TaskRoutes.ListTasks: returns the set of the project's task ids. The source's sort by order then creation time is not modelled; tasks carry no creation time here.
- TaskRoutes.CreateTask: composes the corrected `Persist`, so it stores the assignee and the priority. As written, strict mode drops both; see the Findings row for `task.routes.js:144-150`.
- UserRoutes.SearchUsers: the query is matched as a case-insensitive literal substring, not as a regular expression. Whether the pattern compiles is the `compiles` parameter.
- TaskStore: the zustand `set` plumbing is left out. The store is a value, and each action is a function on it.

## Findings

| source | as written | input that shows it | evidently intended | confidence | as-written member | corrected member |
|---|---|---|---|---|---|---|
| frontend/src/components/kanban/KanbanBoard.tsx:172-196 | the target index is the position of `over.id` among the columns, and a reorder is sent whenever it differs from the source index | column `a` of `[a, b, c]` dropped on a task card: the index is -1, `splice(-1, 0, a)` gives `[b, a, c]`, and that reorder is sent | only a drop on another column reorders | not executed | KanbanBoard.ColumnMovePayload, KanbanBoard.DropOnTaskMovesColumn | KanbanBoard.ColumnMovePayloadChecked, KanbanBoard.MovePayloadReorders |
| backend/dist/routes/user.routes.js:63-96 | the third `$or` branch repeats the `owner` key, so only `owner: userId` survives | user B owns a project with no members, and stranger A asks to view B: the answer is 200 | visible when the two users share a project (one owns it and the other is a member) | not executed | UserRoutes.ViewUserAsWritten, UserRoutes.OwnerVisibleToEveryone | UserRoutes.ViewUser, UserRoutes.ViewIsMutual |
| backend/dist/routes/task.routes.js:144-150 | the created document spreads `assigneeId` and `priority` under names the task schema does not define, so strict mode drops them | create with `assigneeId` set to a member: the stored task has no assignee | the assignee and priority are stored | not executed | TaskRoutes.PersistAsWritten, TaskRoutes.CreateDropsAssignee | TaskRoutes.Persist, TaskRoutes.CreateKeepsAssignees |
| backend/dist/utils/columnUtils.js:36-49 | the columns at or above the target are shifted up in ascending order, one write at a time, under the `(project, order)` unique index | orders `a`=0, `b`=1, `c`=2 and `c` inserted at 0: moving `a` to 1 hits `b` | shift in descending order with the moving column parked out of the way, which gives the same final state without a collision | not executed | ColumnUtils.InsertColumnAtOrder, ColumnUtils.AscendingShiftCollides | ColumnUtils.InsertColumnAtOrderParked, ColumnUtils.ParkedShiftOnExample |
| backend/dist/routes/task.routes.js:69-77 | the task's `project` is populated and then compared with `toString()` to the project id; a populated document's string form is not its id | any existing task of an accessible project, read by id: 400 "Task does not belong to this project"; a task whose project was deleted gives 500 | compare the populated project's `_id` | not executed | TaskRoutes.GetTaskAsWritten, TaskRoutes.CreatedTaskIsRefusedAsWritten | TaskRoutes.GetTask, TaskRoutes.CreatedTaskIsReadable |
| backend/dist/routes/user.routes.js:161-186 | `.select('name description createdAt')` leaves out `owner`, which the filters then read | any user with at least one project: `p.owner` is undefined and the handler answers 500 | select `owner` too | not executed | UserRoutes.ProfileProjectsAsWritten, UserRoutes.ProfileFailsWithAnyProject | UserRoutes.ProfileProjects, UserRoutes.ProfileAgreesWhenEmpty |
| frontend/src/components/dashboard/ColumnModal.tsx:59-81 | the handler reads `error?.response?.data?.error`, but the API client (`frontend/src/services/api.ts:113`) throws a plain `Error` with no `response` | creating a column whose name the server already has: the dialog shows the generic "Error" toast | the route's code and message reach the dialog | not executed | ColumnModal.Settle, ColumnModal.RefusalsLookAlike | ColumnModal.SettleWithBody, ColumnModal.RefusalsAreExplained |

=== FILE: access.dfy ===
/** The `Project` records the access checks read, and the id syntax the
    routes accept. */
module ProjectAccess {
  type UserId = string
  type ProjectId = string

  /** A project's owner and its member list (the `Project` schema). */
  datatype ProjectRec = ProjectRec(name: string, owner: UserId, members: seq<UserId>)

  /** `project.owner.toString() === userId || project.members.includes(userId)`
      (a Mongoose array casts the argument before comparing). */
  predicate CanAccess(p: ProjectRec, user: UserId)
  {
    p.owner == user || user in p.members
  }

  predicate IsHexDigit(c: char)
  {
    ('0' <= c <= '9') || ('a' <= c <= 'f') || ('A' <= c <= 'F')
  }

  /** A string `findById` can cast to an ObjectId: 24 hex digits, or a
      string whose UTF-8 encoding is exactly 12 bytes, which for a string
      of 12 characters means 12 ASCII characters. Anything else, such as
      twelve emoji (24 UTF-16 units, 48 bytes), makes the query throw a
      cast error. */
  predicate Castable(s: string)
  {
    || (|s| == 24 && forall i :: 0 <= i < |s| ==> IsHexDigit(s[i]))
    || (|s| == 12 && forall i :: 0 <= i < |s| ==> s[i] as int < 0x80)
  }
}

=== FILE: auth_middleware.dfy ===
/** Token lifetimes and the bearer check of the API: the duration strings
    `<digits><m|h|d>` read from the environment, their canonical form, and
    `requireAuth`, which admits a request whose `Authorization` header
    carries a token the verifier accepts. JWT verification is a parameter. */
module AuthMiddleware {
  import opened Wrappers
  import opened Strings

  /** A unit letter of the duration pattern. */
  predicate IsUnit(c: char)
  {
    c == 'm' || c == 'h' || c == 'd'
  }

  /** `^(\d+)([mhd])$`: one or more digits, then one unit letter. */
  predicate IsDuration(s: string)
  {
    |s| >= 2 && AllDigits(s[..|s| - 1]) && IsUnit(s[|s| - 1])
  }

  /** The two capture groups of the pattern, when it matches. */
  function MatchDuration(s: string): (r: Option<(string, char)>)
    ensures r.Some? <==> IsDuration(s)
    ensures r.Some? ==> |r.value.0| >= 1 && AllDigits(r.value.0) && IsUnit(r.value.1)
    ensures r.Some? ==> s == r.value.0 + [r.value.1]
  {
    if IsDuration(s) then
      assert s == s[..|s| - 1] + [s[|s| - 1]];
      Some((s[..|s| - 1], s[|s| - 1]))
    else None
  }

  function FormatError(s: string): string
  {
    "Invalid time format: " + s + ". Expected format: 15m, 15h, 15d"
  }

  /** `parseTimeString`: a matching string comes back as the parsed number
      followed by its unit; anything else is an error. The empty-group
      guard and the `default` of the unit switch cannot be reached. */
  function ParseTimeString(s: string): (r: Result<string, string>)
    ensures r.Ok? <==> IsDuration(s)
    ensures r.Err? ==> r.error == FormatError(s)
    ensures r.Ok? ==> IsDuration(r.value) && r.value[|r.value| - 1] == s[|s| - 1]
    ensures r.Ok? ==> r.value == NatToString(DigitsValue(s[..|s| - 1])) + [s[|s| - 1]]
  {
    match MatchDuration(s)
    case None => Err(FormatError(s))
    case Some((value, unit)) =>
      if value == [] || !IsUnit(unit) then
        assert false;
        Err(FormatError(s))
      else
        var n := DigitsValue(value);
        var text := NatToString(n);
        assert (text + [unit])[..|text|] == text;
        if unit == 'm' then Ok(text + "m")
        else if unit == 'h' then Ok(text + "h")
        else if unit == 'd' then Ok(text + "d")
        else
          assert false;
          Err("Invalid time unit: " + [unit] + ". Expected: m, h, d")
  }

  /** Parsing strips leading zeros from the number and nothing else:
      "007d" becomes "7d", "000m" becomes "0m". */
  lemma ParseStripsZeros(s: string)
    requires IsDuration(s)
    ensures ParseTimeString(s) == Ok(StripLeadingZeros(s[..|s| - 1]) + [s[|s| - 1]])
  {
    RenderParsedStripsZeros(s[..|s| - 1]);
  }

  /** The output is already canonical: parsing it again gives it back. */
  lemma ParseIdempotent(s: string)
    requires IsDuration(s)
    ensures ParseTimeString(ParseTimeString(s).value) == ParseTimeString(s)
  {
    var t := ParseTimeString(s).value;
    var text := NatToString(DigitsValue(s[..|s| - 1]));
    assert t[..|t| - 1] == text;
    CanonicalRoundTrip(text);
  }

  datatype TokenKind = Access | Refresh

  /** The lifetime used when the variable is unset, empty or invalid. */
  function DefaultExpiry(kind: TokenKind): string
  {
    match kind
    case Access => "15m"
    case Refresh => "7d"
  }

  /** `getTokenExpiry`: the canonical form of `ACCESS_TOKEN_EXPIRY` or
      `REFRESH_TOKEN_EXPIRY` (`env`), falling back to the default for an
      unset, empty or invalid value. */
  function TokenExpiry(kind: TokenKind, env: Option<string>): (r: string)
    ensures IsDuration(r)
    ensures env.None? || env == Some("") ==> r == DefaultExpiry(kind)
    ensures env.Some? && env.value != "" && !IsDuration(env.value) ==> r == DefaultExpiry(kind)
    ensures env.Some? && IsDuration(env.value) ==> r == ParseTimeString(env.value).value
  {
    var timeString := if env.None? || env.value == "" then DefaultExpiry(kind) else env.value;
    DefaultIsCanonical(kind);
    match ParseTimeString(timeString)
    case Ok(v) => v
    case Err(_) => DefaultExpiry(kind)
  }

  /** Both defaults are valid and already canonical. */
  lemma DefaultIsCanonical(kind: TokenKind)
    ensures IsDuration(DefaultExpiry(kind))
    ensures ParseTimeString(DefaultExpiry(kind)) == Ok(DefaultExpiry(kind))
  {
    var d := DefaultExpiry(kind);
    var digits := if kind == Access then "15" else "7";
    assert d[..|d| - 1] == digits;
    CanonicalRoundTrip(digits);
  }

  const BearerPrefix: string := "Bearer "

  /** The token of an `Authorization` header (an absent header reads as
      ""): what follows an exact, case-sensitive "Bearer " prefix, when
      that is not empty. */
  function BearerToken(header: Option<string>): (r: Option<string>)
    ensures r.Some? <==> header.Some? && StartsWith(header.value, BearerPrefix) && |header.value| > |BearerPrefix|
    ensures r.Some? ==> header.value == BearerPrefix + r.value && r.value != ""
  {
    var h := header.GetOr("");
    if StartsWith(h, BearerPrefix) && |h| > |BearerPrefix| then
      assert h == h[..|BearerPrefix|] + h[|BearerPrefix|..];
      Some(h[|BearerPrefix|..])
    else None
  }

  /** A header built from a non-empty token gives that token back. */
  lemma BearerRoundTrip(token: string)
    requires token != ""
    ensures BearerToken(Some(BearerPrefix + token)) == Some(token)
  {
    assert (BearerPrefix + token)[..|BearerPrefix|] == BearerPrefix;
    assert (BearerPrefix + token)[|BearerPrefix|..] == token;
  }

  /** The prefix is case-sensitive and needs its space. */
  lemma BearerIsCaseSensitive(token: string)
    ensures BearerToken(Some("bearer " + token)).None?
    ensures BearerToken(Some("Bearer")).None?
    ensures BearerToken(Some(BearerPrefix)).None?
  {
    assert ("bearer " + token)[0] == 'b';
  }

  /** What `requireAuth` decides. */
  datatype AuthOutcome = Proceed(userId: string) | Reject(message: string)

  /** `requireAuth`: no usable bearer token gives 401 "Missing token"; a
      missing secret or a token `verify` refuses gives 401 "Invalid token";
      otherwise the request proceeds as the token's user. */
  function RequireAuth(header: Option<string>, secret: Option<string>, verify: (string, string) -> Option<string>): (r: AuthOutcome)
    ensures r == Reject("Missing token") <==> BearerToken(header).None?
    ensures r.Proceed? <==> BearerToken(header).Some? && secret.Some? && secret.value != ""
                            && verify(BearerToken(header).value, secret.value).Some?
    ensures r.Proceed? ==> Some(r.userId) == verify(BearerToken(header).value, secret.value)
    ensures r.Reject? ==> r.message == "Missing token" || r.message == "Invalid token"
  {
    match BearerToken(header)
    case None => Reject("Missing token")
    case Some(token) =>
      if secret.None? || secret.value == "" then Reject("Invalid token")
      else
        match verify(token, secret.value)
        case None => Reject("Invalid token")
        case Some(user) => Proceed(user)
  }
}

=== FILE: auth_routes.dfy ===
/** The account routes and the refresh-token records they keep: signup and
    login each issue one refresh token and store it, refresh accepts a
    stored, unrevoked, unexpired token, logout revokes the caller's tokens.
    Hashing, signing, verification and the clock are parameters. */
module AuthRoutes {
  import opened Wrappers
  import opened Strings
  import opened AuthMiddleware

  type UserId = string

  /** The `User` schema: `email` is stored lower-cased and trimmed, `name`
      trimmed; both are required. */
  datatype UserRecord = UserRecord(id: UserId, name: string, email: string, passwordHash: string)

  /** The `RefreshToken` schema; `token` has a unique index. */
  datatype TokenRecord = TokenRecord(user: UserId, token: string, expiresAt: int, revoked: bool)

  /** Users keyed by their stored email (the unique index), and the token
      records in insertion order. */
  datatype AuthDb = AuthDb(users: map<string, UserRecord>, tokens: seq<TokenRecord>)

  datatype UserView = UserView(id: UserId, name: string, email: string)

  datatype AuthBody =
    | Session(accessToken: string, refreshToken: string, user: UserView)
    | AccessToken(accessToken: string)
    | Message(message: string)
    | NoContent

  /** A handler's outcome: a response and the new state, or an error the
      handler throws (a schema validation or a duplicate token) with the
      state its earlier writes left behind, which a throw does not undo. */
  datatype AuthReply =
    | Reply(status: int, body: AuthBody, db: AuthDb)
    | Thrown(error: string, db: AuthDb)

  /** What the foreign calls of one request produce: the clock, the
      `REFRESH_TOKEN_EXPIRY` variable, the id the store gives a new user,
      the signed tokens, `bcrypt.hash` / `bcrypt.compare`, and the e-mail
      syntax check of the request schema. */
  datatype Env = Env(
    now: int,
    refreshExpiry: Option<string>,
    newUserId: UserId,
    accessToken: string,
    refreshToken: string,
    hash: string -> string,
    compare: (string, string) -> bool,
    isEmail: string -> bool)

  /** `parseRefreshTokenExpiry`: milliseconds for a matching string, a week
      for anything else. Its empty-group guard and the `default` of its
      unit switch cannot be reached, so they are not written out. */
  function RefreshExpiryMs(s: string): (r: nat)
    ensures !IsDuration(s) ==> r == 604800000
    ensures IsDuration(s) && s[|s| - 1] == 'm' ==> r == DigitsValue(s[..|s| - 1]) * 60000
    ensures IsDuration(s) && s[|s| - 1] == 'h' ==> r == DigitsValue(s[..|s| - 1]) * 3600000
    ensures IsDuration(s) && s[|s| - 1] == 'd' ==> r == DigitsValue(s[..|s| - 1]) * 86400000
  {
    if !IsDuration(s) then 604800000
    else
      var n := DigitsValue(s[..|s| - 1]);
      var unit := s[|s| - 1];
      if unit == 'm' then n * 60000
      else if unit == 'h' then n * 3600000
      else n * 86400000
  }

  /** Every result is a whole number of minutes. */
  lemma ExpiryIsWholeMinutes(s: string)
    ensures RefreshExpiryMs(s) % 60000 == 0
  {
    if IsDuration(s) {
      var n := DigitsValue(s[..|s| - 1]);
      assert n * 3600000 == (n * 60) * 60000;
      assert n * 86400000 == (n * 1440) * 60000;
    }
  }

  /** An unparsable value means a week, the same as "7d". */
  lemma InvalidMeansSevenDays(s: string)
    requires !IsDuration(s)
    ensures RefreshExpiryMs(s) == RefreshExpiryMs("7d") == 604800000
  {
    assert "7d"[..1] == "7";
    assert DigitsValue("7") == 7 by {
      assert "7"[..0] == [];
    }
  }

  /** Agreement with the canonical form: a value and its parsed rendering
      give the same lifetime. */
  lemma ExpiryIgnoresLeadingZeros(s: string)
    requires IsDuration(s)
    ensures RefreshExpiryMs(ParseTimeString(s).value) == RefreshExpiryMs(s)
  {
    var t := ParseTimeString(s).value;
    var text := NatToString(DigitsValue(s[..|s| - 1]));
    assert t[..|t| - 1] == text;
  }

  /** For a fixed unit, more units never mean less time. */
  lemma ExpiryMonotone(a: string, b: string)
    requires IsDuration(a) && IsDuration(b) && a[|a| - 1] == b[|b| - 1]
    requires DigitsValue(a[..|a| - 1]) <= DigitsValue(b[..|b| - 1])
    ensures RefreshExpiryMs(a) <= RefreshExpiryMs(b)
  {
    var x := DigitsValue(a[..|a| - 1]);
    var y := DigitsValue(b[..|b| - 1]);
    MulMonotone(x, y, 60000);
    MulMonotone(x, y, 3600000);
    MulMonotone(x, y, 86400000);
  }

  lemma MulMonotone(x: nat, y: nat, k: nat)
    requires x <= y
    ensures x * k <= y * k
  {
  }

  /** `REFRESH_TOKEN_EXPIRY || '7d'` read as milliseconds. */
  function RefreshLifetime(env: Env): nat
  {
    RefreshExpiryMs(if env.refreshExpiry.None? || env.refreshExpiry.value == "" then "7d" else env.refreshExpiry.value)
  }

  /** The record a signup or login stores for `user`: the new refresh
      token, unrevoked, expiring one lifetime after the request. */
  function Issued(user: UserId, env: Env): TokenRecord
  {
    TokenRecord(user, env.refreshToken, env.now + RefreshLifetime(env), false)
  }

  /** The e-mail the store compares and keeps: lower-cased and trimmed. */
  function StoredEmail(email: string): string
  {
    Lower(Trim(email))
  }

  predicate TokenTaken(db: AuthDb, token: string)
  {
    exists i :: 0 <= i < |db.tokens| && db.tokens[i].token == token
  }

  /** `RefreshToken.create`: the unique index rejects a token already
      stored. */
  function StoreToken(db: AuthDb, user: UserId, env: Env): (r: Result<AuthDb, string>)
    ensures r.Err? <==> TokenTaken(db, env.refreshToken)
    ensures r.Ok? ==> r.value == db.(tokens := db.tokens + [Issued(user, env)])
  {
    if TokenTaken(db, env.refreshToken) then Err("E11000 duplicate key error")
    else Ok(db.(tokens := db.tokens + [Issued(user, env)]))
  }

  /** The reply of a successful signup or login: one more refresh record
      for `user`, expiring one lifetime from now, and the session body; a
      token already stored makes the insert throw. */
  function IssueSession(db: AuthDb, user: UserRecord, status: int, env: Env): (r: AuthReply)
    ensures r.Thrown? <==> TokenTaken(db, env.refreshToken)
    ensures r.Thrown? ==> r.db == db
    ensures r.Reply? ==>
              && r.status == status
              && r.db == db.(tokens := db.tokens + [Issued(user.id, env)])
              && r.body == Session(env.accessToken, env.refreshToken, UserView(user.id, user.name, user.email))
  {
    match StoreToken(db, user.id, env)
    case Err(e) => Thrown(e, db)
    case Ok(db') => Reply(status, Session(env.accessToken, env.refreshToken, UserView(user.id, user.name, user.email)), db')
  }

  datatype SignupRequest = SignupRequest(name: string, email: string, password: string)

  /** `signupSchema`: a name of at least one character, an e-mail, and a
      password of at least six. */
  predicate ValidSignup(req: SignupRequest, env: Env)
  {
    |req.name| >= 1 && env.isEmail(req.email) && Utf16Length(req.password) >= 6
  }

  /** The user `User.create` stores for a signup. */
  function NewUser(req: SignupRequest, env: Env): UserRecord
  {
    UserRecord(env.newUserId, Trim(req.name), StoredEmail(req.email), env.hash(req.password))
  }

  /** Signup once the request passed the schema and the e-mail is free. */
  function CreateAccount(db: AuthDb, req: SignupRequest, env: Env): (r: AuthReply)
    requires StoredEmail(req.email) !in db.users
    ensures r.Reply? <==> Trim(req.name) != [] && StoredEmail(req.email) != [] && !TokenTaken(db, env.refreshToken)
    ensures r.Reply? ==>
              && r.status == 201
              && r.db.users == db.users[StoredEmail(req.email) := NewUser(req, env)]
              && r.db.tokens == db.tokens + [Issued(env.newUserId, env)]
    ensures Trim(req.name) == [] || StoredEmail(req.email) == [] ==> r == Thrown("ValidationError", db)
    ensures Trim(req.name) != [] && StoredEmail(req.email) != [] && TokenTaken(db, env.refreshToken) ==>
              r.Thrown? && r.db == db.(users := db.users[StoredEmail(req.email) := NewUser(req, env)])
  {
    var email := StoredEmail(req.email);
    if Trim(req.name) == [] || email == [] then Thrown("ValidationError", db)
    else
      var user := NewUser(req, env);
      IssueSession(db.(users := db.users[email := user]), user, 201, env)
  }

  /** `POST /signup`: an existing e-mail gets 409 and changes nothing; a
      success adds the user and one refresh record. A name or e-mail that
      is only white space passes the request schema but fails the model's
      `required`, and the create throws. A refresh token already stored
      makes the token insert throw after the user was created, and the
      user stays. */
  function Signup(db: AuthDb, req: SignupRequest, env: Env): (r: AuthReply)
    ensures !ValidSignup(req, env) ==> r == Reply(400, Message("Invalid input"), db)
    ensures ValidSignup(req, env) && StoredEmail(req.email) in db.users ==>
              r == Reply(409, Message("Email already in use"), db)
    ensures r.Reply? && r.status == 201 <==>
              ValidSignup(req, env) && StoredEmail(req.email) !in db.users
              && Trim(req.name) != [] && StoredEmail(req.email) != [] && !TokenTaken(db, env.refreshToken)
    ensures r.Reply? && r.status == 201 ==>
              && r.db.users == db.users[StoredEmail(req.email) := NewUser(req, env)]
              && r.db.tokens == db.tokens + [Issued(env.newUserId, env)]
    ensures r.Reply? && r.status != 201 ==> r.db == db
    ensures ValidSignup(req, env) && StoredEmail(req.email) !in db.users
            && Trim(req.name) != [] && StoredEmail(req.email) != [] && TokenTaken(db, env.refreshToken) ==>
              r.Thrown? && r.db == db.(users := db.users[StoredEmail(req.email) := NewUser(req, env)])
  {
    if !ValidSignup(req, env) then Reply(400, Message("Invalid input"), db)
    else if StoredEmail(req.email) in db.users then Reply(409, Message("Email already in use"), db)
    else CreateAccount(db, req, env)
  }

  datatype LoginRequest = LoginRequest(email: string, password: string)

  predicate ValidLogin(req: LoginRequest, env: Env)
  {
    env.isEmail(req.email) && Utf16Length(req.password) >= 6
  }

  /** `POST /login`: an unknown e-mail and a wrong password get the same
      401; a success stores one new refresh token. */
  function Login(db: AuthDb, req: LoginRequest, env: Env): (r: AuthReply)
    ensures !ValidLogin(req, env) ==> r == Reply(400, Message("Invalid input"), db)
    ensures ValidLogin(req, env) && StoredEmail(req.email) !in db.users ==>
              r == Reply(401, Message("Invalid credentials"), db)
    ensures ValidLogin(req, env) && StoredEmail(req.email) in db.users
            && !env.compare(req.password, db.users[StoredEmail(req.email)].passwordHash) ==>
              r == Reply(401, Message("Invalid credentials"), db)
    ensures r.Reply? && r.status == 200 ==>
              && StoredEmail(req.email) in db.users
              && env.compare(req.password, db.users[StoredEmail(req.email)].passwordHash)
              && r.db == db.(tokens := db.tokens + [Issued(db.users[StoredEmail(req.email)].id, env)])
    ensures r.Reply? && r.status != 200 ==> r.db == db
  {
    if !ValidLogin(req, env) then Reply(400, Message("Invalid input"), db)
    else
      var email := StoredEmail(req.email);
      if email !in db.users then Reply(401, Message("Invalid credentials"), db)
      else
        var user := db.users[email];
        if !env.compare(req.password, user.passwordHash) then Reply(401, Message("Invalid credentials"), db)
        else IssueSession(db, user, 200, env)
  }

  /** A caller cannot tell an unknown e-mail from a wrong password. */
  lemma LoginFailuresLookAlike(db: AuthDb, unknown: LoginRequest, wrong: LoginRequest, env: Env)
    requires ValidLogin(unknown, env) && StoredEmail(unknown.email) !in db.users
    requires ValidLogin(wrong, env) && StoredEmail(wrong.email) in db.users
    requires !env.compare(wrong.password, db.users[StoredEmail(wrong.email)].passwordHash)
    ensures Login(db, unknown, env) == Login(db, wrong, env)
  {
  }

  /** A record `refresh` accepts: this token, not revoked, not expired. */
  predicate LiveRecord(db: AuthDb, token: string, now: int)
  {
    exists i :: 0 <= i < |db.tokens| && db.tokens[i].token == token && !db.tokens[i].revoked && db.tokens[i].expiresAt > now
  }

  /** `POST /refresh`: a new access token for a live stored token that the
      verifier also accepts; the records are never changed. `verify`
      returns the token's user. */
  function Refresh(db: AuthDb, token: string, now: int, verify: string -> Option<UserId>, sign: UserId -> string): (r: AuthReply)
    ensures r.Reply? && r.db == db
    ensures r.status == 200 <==> token != "" && LiveRecord(db, token, now) && verify(token).Some?
    ensures r.status == 200 ==> r.body == AccessToken(sign(verify(token).value))
    ensures token == "" ==> r.status == 400
    ensures token != "" && !LiveRecord(db, token, now) ==> r == Reply(401, Message("Invalid refresh token"), db)
  {
    if token == "" then Reply(400, Message("Invalid input"), db)
    else if !LiveRecord(db, token, now) then Reply(401, Message("Invalid refresh token"), db)
    else
      match verify(token)
      case None => Reply(401, Message("Invalid refresh token"), db)
      case Some(user) => Reply(200, AccessToken(sign(user)), db)
  }

  /** Every unrevoked record of `user` revoked, nothing else touched. */
  function RevokeAll(tokens: seq<TokenRecord>, user: UserId): (r: seq<TokenRecord>)
    ensures |r| == |tokens|
    ensures forall i :: 0 <= i < |tokens| ==> r[i] == if tokens[i].user == user then tokens[i].(revoked := true) else tokens[i]
  {
    seq(|tokens|, i requires 0 <= i < |tokens| => if tokens[i].user == user && !tokens[i].revoked then tokens[i].(revoked := true) else tokens[i])
  }

  /** `POST /logout` behind `requireAuth`: revokes every token of the
      caller and deletes none; other users' records stay as they were. */
  function Logout(db: AuthDb, header: Option<string>, secret: Option<string>, verify: (string, string) -> Option<string>): (r: AuthReply)
    ensures RequireAuth(header, secret, verify).Reject? ==>
              r == Reply(401, Message(RequireAuth(header, secret, verify).message), db)
    ensures RequireAuth(header, secret, verify).Proceed? ==>
              var user := RequireAuth(header, secret, verify).userId;
              && r.Reply? && r.status == 204 && r.body == NoContent && r.db.users == db.users
              && |r.db.tokens| == |db.tokens|
              && (forall i :: 0 <= i < |db.tokens| && db.tokens[i].user == user ==>
                    r.db.tokens[i] == db.tokens[i].(revoked := true))
              && (forall i :: 0 <= i < |db.tokens| && db.tokens[i].user != user ==> r.db.tokens[i] == db.tokens[i])
  {
    match RequireAuth(header, secret, verify)
    case Reject(message) => Reply(401, Message(message), db)
    case Proceed(user) => Reply(204, NoContent, db.(tokens := RevokeAll(db.tokens, user)))
  }

  /** After logout no token of the caller refreshes any more; other users'
      tokens refresh exactly as before. */
  lemma LogoutEndsSessions(db: AuthDb, header: Option<string>, secret: Option<string>, verify: (string, string) -> Option<string>,
                           token: string, now: int, check: string -> Option<UserId>, sign: UserId -> string)
    requires RequireAuth(header, secret, verify).Proceed?
    requires forall i :: 0 <= i < |db.tokens| && db.tokens[i].token == token ==>
               db.tokens[i].user == RequireAuth(header, secret, verify).userId
    ensures Refresh(Logout(db, header, secret, verify).db, token, now, check, sign).status != 200
  {
  }

  /** A token refreshes only once it has been issued by signup or login:
      a fresh store refreshes nothing, and a login makes its own token
      live until it expires, unless it is revoked. */
  lemma IssuedTokenRefreshes(db: AuthDb, req: LoginRequest, env: Env, now: int, check: string -> Option<UserId>, sign: UserId -> string)
    requires Login(db, req, env).Reply? && Login(db, req, env).status == 200
    requires env.now <= now < env.now + RefreshLifetime(env) && env.refreshToken != ""
    requires check(env.refreshToken).Some?
    ensures Refresh(Login(db, req, env).db, env.refreshToken, now, check, sign).status == 200
    ensures Refresh(AuthDb(map[], []), env.refreshToken, now, check, sign).status == 401
  {
    var after := Login(db, req, env).db;
    assert after.tokens[|db.tokens|].token == env.refreshToken;
  }
}

=== FILE: column_modal.dfy ===
/** The "add column" dialog of the dashboard: its client-side checks
    before the create request, the toasts it shows for the answer, and
    the state of its submit button. */
module ColumnModal {
  import opened Wrappers
  import opened Strings
  import opened ColumnModel
  import ColumnUtils
  import ColumnRoutes

  datatype Toast = Toast(title: string, description: string)

  /** The dialog's state: the text field and the inline error under it. */
  datatype Dialog = Dialog(newColumnName: string, nameError: string)

  /** What pressing "create" does before the request settles: a toast, the
      new dialog state, and the name sent to the server, if a request is
      sent at all (the request never carries an order). */
  datatype Press = Press(toast: Option<Toast>, dialog: Dialog, call: Option<string>)

  const RequiredToast := Toast("Column Name Required", "Please enter a column name")

  function DuplicateMessage(name: string): string
  {
    "A column with the name \"" + name + "\" already exists in this project."
  }

  /** The client's duplicate test against the cached column names:
      `col.name.toLowerCase().trim() === newColumnName.toLowerCase().trim()`. */
  predicate ClientDuplicate(existing: seq<string>, name: string)
  {
    exists i :: 0 <= i < |existing| && Trim(Lower(existing[i])) == Trim(Lower(name))
  }

  /** `handleCreateColumn` up to the request: a blank name only toasts, a
      name the cache already holds only sets the inline error, anything
      else clears the error and sends the trimmed name. */
  function HandleCreate(d: Dialog, existing: seq<string>): (r: Press)
    ensures r.call.Some? <==> Trim(d.newColumnName) != [] && !ClientDuplicate(existing, d.newColumnName)
    ensures r.call.Some? ==> r.call.value == Trim(d.newColumnName) && r.toast == None && r.dialog.nameError == ""
    ensures Trim(d.newColumnName) == [] ==> r.toast == Some(RequiredToast) && r.dialog == d
    ensures Trim(d.newColumnName) != [] && ClientDuplicate(existing, d.newColumnName) ==>
              r.toast == None && r.dialog.nameError == DuplicateMessage(d.newColumnName) && r.dialog.nameError != ""
    ensures r.dialog.newColumnName == d.newColumnName
  {
    if Trim(d.newColumnName) == [] then Press(Some(RequiredToast), d, None)
    else if ClientDuplicate(existing, d.newColumnName) then
      Press(None, d.(nameError := DuplicateMessage(d.newColumnName)), None)
    else Press(None, d.(nameError := ""), Some(Trim(d.newColumnName)))
  }

  /** `handleNameChange`: typing replaces the text and clears the error. */
  function HandleNameChange(d: Dialog, typed: string): (r: Dialog)
    ensures r.newColumnName == typed && r.nameError == ""
  {
    Dialog(typed, "")
  }

  /** `handleClose` and the reset after a successful create. */
  function Reset(): (r: Dialog)
    ensures r.newColumnName == [] && r.nameError == []
  {
    Dialog("", "")
  }

  /** The submit button's `disabled`: a pending request, a blank name or a
      standing inline error. The Enter key uses the same test without the
      pending part. */
  predicate SubmitDisabled(pending: bool, d: Dialog)
  {
    pending || Trim(d.newColumnName) == [] || d.nameError != ""
  }

  // ----- the answer -----

  /** The parts of a failed response the dialog reads:
      `error.response.data.error` and `.message`. */
  datatype ErrorData = ErrorData(error: Option<string>, message: Option<string>)

  /** `data.message || fallback`: a missing or empty message falls back. */
  function MessageOr(data: ErrorData, fallback: string): (r: string)
    ensures data.message.Some? && data.message.value != "" ==> r == data.message.value
    ensures data.message.None? || data.message.value == "" ==> r == fallback
  {
    if data.message.Some? && data.message.value != "" then data.message.value else fallback
  }

  /** The catch of `handleCreateColumn`: DUPLICATE_NAME and ORDER_CONFLICT
      have their own titles; every other failure is a generic "Error". The
      server's message wins over each fallback. */
  function FailureToast(name: string, data: ErrorData): (r: Toast)
    ensures data.error == Some("DUPLICATE_NAME") ==>
              r == Toast("Column Name Already Exists", MessageOr(data, DuplicateMessage(name)))
    ensures data.error == Some("ORDER_CONFLICT") ==>
              r == Toast("Order Conflict", MessageOr(data, "The specified order is already taken."))
    ensures data.error != Some("DUPLICATE_NAME") && data.error != Some("ORDER_CONFLICT") ==>
              r == Toast("Error", MessageOr(data, "Failed to create column. Please try again."))
    ensures r.description != ""
  {
    if data.error == Some("DUPLICATE_NAME") then
      Toast("Column Name Already Exists", MessageOr(data, DuplicateMessage(name)))
    else if data.error == Some("ORDER_CONFLICT") then
      Toast("Order Conflict", MessageOr(data, "The specified order is already taken."))
    else Toast("Error", MessageOr(data, "Failed to create column. Please try again."))
  }

  /** The `error` code the column create route sends with each refusal. */
  function WireCode(b: ColumnRoutes.Body): Option<string>
  {
    match b
    case DuplicateName(_) => Some("DUPLICATE_NAME")
    case OrderConflict(_, _) => Some("ORDER_CONFLICT")
    case DuplicateOrder(_, _) => Some("DUPLICATE_ORDER")
    case DuplicateKeyError => Some("DUPLICATE_KEY")
    case InternalError => Some("INTERNAL_ERROR")
    case _ => None
  }

  /** The `message` the column create route sends with each refusal. */
  function WireMessage(b: ColumnRoutes.Body): string
  {
    match b
    case DuplicateName(n) =>
      "A column with the name \"" + n + "\" already exists in this project. Please choose a different name."
    case OrderConflict(o, _) =>
      "Column with order " + IntToString(o) + " already exists in this project. Please choose a different order or let the system assign one automatically."
    case DuplicateOrder(o, _) =>
      "A column with order " + IntToString(o) + " already exists in this project. Please choose a different order."
    case DuplicateKeyError => "Column with these properties already exists. Please check for duplicates."
    case InternalError => "Failed to create column. Please try again."
    case InvalidInput => "Invalid input"
    case Message(text) => text
    case _ => ""
  }

  /** The JSON body of a refusal, as the route sends it. */
  function WireError(b: ColumnRoutes.Body): (r: ErrorData)
    ensures b.DuplicateName? <==> r.error == Some("DUPLICATE_NAME")
    ensures b.OrderConflict? <==> r.error == Some("ORDER_CONFLICT")
    ensures r.message == Some(WireMessage(b))
  {
    ErrorData(WireCode(b), Some(WireMessage(b)))
  }

  /** What the dialog's `catch` can read of a refusal as the client is
      written: the API service turns every non-2xx answer into a plain
      `Error` carrying only the message, so `error.response` is undefined
      and neither field is present, whatever the server sent. */
  function CaughtError(b: ColumnRoutes.Body): (r: ErrorData)
    ensures r.error.None? && r.message.None?
  {
    ErrorData(None, None)
  }

  const GenericFailure := Toast("Error", "Failed to create column. Please try again.")

  /** The dialog after the request settles, as written: success toasts,
      closes and resets; failure toasts what the `catch` reads and keeps
      the dialog as it was. */
  function Settle(d: Dialog, resp: ColumnRoutes.Response): (r: (Toast, Dialog, bool))
    ensures resp.status == 201 ==> r.1 == Reset() && !r.2
    ensures resp.status != 201 ==> r == (FailureToast(d.newColumnName, CaughtError(resp.body)), d, true)
  {
    if resp.status == 201 then (Toast("Column Created", "Column \"" + d.newColumnName + "\" created successfully"), Reset(), false)
    else (FailureToast(d.newColumnName, CaughtError(resp.body)), d, true)
  }

  /** The settling the `catch` is written for: the thrown error carries
      the server's body as `response.data`. */
  function SettleWithBody(d: Dialog, resp: ColumnRoutes.Response): (r: (Toast, Dialog, bool))
    ensures resp.status == 201 ==> r == Settle(d, resp)
    ensures resp.status != 201 ==> r == (FailureToast(d.newColumnName, WireError(resp.body)), d, true)
  {
    if resp.status == 201 then Settle(d, resp)
    else (FailureToast(d.newColumnName, WireError(resp.body)), d, true)
  }

  /** As written, every refusal shows the same generic toast: the
      DUPLICATE_NAME and ORDER_CONFLICT branches never run, and a refused
      duplicate name is shown differently once the body reaches the
      `catch`. */
  lemma RefusalsLookAlike(d: Dialog, resp: ColumnRoutes.Response, other: ColumnRoutes.Response)
    requires resp.status != 201 && other.status != 201
    ensures Settle(d, resp).0 == GenericFailure
    ensures Settle(d, resp) == Settle(d, other)
    ensures resp.body.DuplicateName? ==> SettleWithBody(d, resp).0.title == "Column Name Already Exists"
  {
  }

  // ----- the dialog against the server -----

  /** Every stored column name is trimmed: the schema's setter trims on
      create and on update. */
  predicate NamesTrimmed(s: Store)
  {
    forall c :: c in s ==> IsTrimmed(s[c].name)
  }

  /** `existing` is exactly the names of project `p`'s columns, as the
      dialog's column query returns them. */
  ghost predicate CachedNames(s: Store, p: ProjectId, existing: seq<string>)
  {
    && (forall i :: 0 <= i < |existing| ==> exists c :: c in s && s[c].project == p && s[c].name == existing[i])
    && (forall c :: c in s && s[c].project == p ==> s[c].name in existing)
  }

  lemma TrimOfTrimmed(s: string)
    requires IsTrimmed(s)
    ensures Trim(s) == s
  {
    TrimStartOfTrimmed(s);
    TrimEndOfTrimmed(s);
  }

  /** The two ways of comparing names agree on stored (trimmed) names:
      lower-then-trim on the client, trim-then-lower on the server. */
  lemma SameComparison(stored: string, name: string)
    requires IsTrimmed(stored)
    ensures Trim(Lower(stored)) == Trim(Lower(name)) <==> Lower(stored) == Lower(Trim(name))
  {
    var client := Trim(Lower(stored));
    var server := Lower(Trim(name));
    assert client == Lower(stored) by {
      LowerTrimCommute(stored);
      TrimOfTrimmed(stored);
    }
    assert Trim(Lower(name)) == server by {
      LowerTrimCommute(name);
    }
    if client == Trim(Lower(name)) {
      assert Lower(stored) == server;
    }
    if Lower(stored) == server {
      assert client == Trim(Lower(name));
    }
  }

  lemma ClientDuplicateIsTaken(s: Store, p: ProjectId, existing: seq<string>, name: string)
    requires NamesTrimmed(s) && CachedNames(s, p, existing)
    requires ClientDuplicate(existing, name)
    ensures ColumnRoutes.NameTaken(s, p, name, None)
  {
    var i :| 0 <= i < |existing| && Trim(Lower(existing[i])) == Trim(Lower(name));
    var c :| c in s && s[c].project == p && s[c].name == existing[i];
    SameComparison(s[c].name, name);
  }

  lemma TakenIsClientDuplicate(s: Store, p: ProjectId, existing: seq<string>, name: string)
    requires NamesTrimmed(s) && CachedNames(s, p, existing)
    requires ColumnRoutes.NameTaken(s, p, name, None)
    ensures ClientDuplicate(existing, name)
  {
    var c :| c in s && s[c].project == p && Lower(s[c].name) == Lower(Trim(name));
    assert s[c].name in existing;
    var i :| 0 <= i < |existing| && existing[i] == s[c].name;
    SameComparison(s[c].name, name);
  }

  /** With an up-to-date cache, the client's duplicate test and the
      server's name query give the same answer, in both directions. */
  lemma ClientCheckMatchesServer(s: Store, p: ProjectId, existing: seq<string>, name: string)
    requires NamesTrimmed(s) && CachedNames(s, p, existing)
    ensures ClientDuplicate(existing, name) <==> ColumnRoutes.NameTaken(s, p, name, None)
  {
    if ClientDuplicate(existing, name) {
      ClientDuplicateIsTaken(s, p, existing, name);
    }
    if ColumnRoutes.NameTaken(s, p, name, None) {
      TakenIsClientDuplicate(s, p, existing, name);
    }
  }

  /** A request the dialog sends to an existing project with an up-to-date
      cache is created (201), under the name the user typed, trimmed, and
      at the end of the project's order. */
  lemma SentRequestIsCreated(db: ColumnRoutes.Db, p: ProjectId, d: Dialog, existing: seq<string>, freshId: ColumnId)
    requires freshId !in db.columns && ColumnRoutes.Castable(p) && p in db.projects
    requires NamesTrimmed(db.columns) && CachedNames(db.columns, p, existing)
    requires HandleCreate(d, existing).call.Some?
    ensures var sent := HandleCreate(d, existing).call.value;
            var r := ColumnRoutes.Create(db, p, ColumnRoutes.CreateRequest(sent, None), freshId);
            && r.response.status == 201
            && r.db.columns[freshId] == Column(p, Trim(d.newColumnName), ColumnUtils.NextOrder(db.columns, p))
  {
    var sent := Trim(d.newColumnName);
    SentNameIsFree(db.columns, p, existing, d.newColumnName);
    assert ColumnRoutes.ValidCreate(ColumnRoutes.CreateRequest(sent, None));
  }

  /** A name the dialog lets through is, once trimmed, free on the server
      and unchanged by the server's own trimming. */
  lemma SentNameIsFree(s: Store, p: ProjectId, existing: seq<string>, name: string)
    requires NamesTrimmed(s) && CachedNames(s, p, existing)
    requires !ClientDuplicate(existing, name)
    ensures !ColumnRoutes.NameTaken(s, p, Trim(name), None)
    ensures Trim(Trim(name)) == Trim(name)
  {
    ClientCheckMatchesServer(s, p, existing, name);
    TrimIdempotent(name);
  }

  /** Once the body reaches the `catch`, a request refused with
      DUPLICATE_NAME (a column added elsewhere since the cache was read) is
      shown with its own title and the server's message, and every refusal
      explains itself. */
  lemma RefusalsAreExplained(d: Dialog, resp: ColumnRoutes.Response)
    requires resp.status != 201
    ensures SettleWithBody(d, resp).0.description != ""
    ensures resp.body.DuplicateName? ==>
              SettleWithBody(d, resp).0 == Toast("Column Name Already Exists", WireMessage(resp.body))
    ensures resp.body.OrderConflict? ==>
              SettleWithBody(d, resp).0 == Toast("Order Conflict", WireMessage(resp.body))
  {
  }

  /** After a duplicate the button stays disabled until the user types;
      after a blank press it stays disabled as well. */
  lemma RefusedPressDisablesSubmit(d: Dialog, existing: seq<string>)
    requires HandleCreate(d, existing).call.None?
    ensures SubmitDisabled(false, HandleCreate(d, existing).dialog)
  {
  }

  /** A press on an enabled button with no duplicate in the cache always
      sends a request. */
  lemma EnabledPressSends(d: Dialog, existing: seq<string>)
    requires !SubmitDisabled(false, d) && !ClientDuplicate(existing, d.newColumnName)
    ensures HandleCreate(d, existing).call == Some(Trim(d.newColumnName))
  {
  }
}

=== FILE: column_model.dfy ===
/** The `Column` collection: records `{project, name, order}` and the
    unique compound index on `(project, order)` that the database enforces
    on every write. */
module ColumnModel {
  import opened Wrappers
  import opened Strings

  type ColumnId = string
  type ProjectId = string

  datatype Column = Column(project: ProjectId, name: string, order: int)

  /** The collection, keyed by the store-generated column id. */
  type Store = map<ColumnId, Column>

  /** Errors the database raises on a write. */
  datatype DbError =
    | DuplicateKey(project: ProjectId, order: int)   // code 11000 on `project_order_unique`
    | ValidationFailed(path: string)                 // mongoose "Path `...` is required"

  /** The `project_order_unique` index: within one project no two columns
      share an order; columns of different projects may. */
  predicate UniqueOrders(s: Store)
  {
    forall a, b :: a in s && b in s && a != b && s[a].project == s[b].project ==> s[a].order != s[b].order
  }

  /** Some column of project `p`, other than `exclude`, holds order `o`. */
  predicate OrderHeld(s: Store, p: ProjectId, o: int, exclude: Option<ColumnId>)
  {
    exists c :: c in s && s[c].project == p && s[c].order == o && exclude != Some(c)
  }

  predicate InProject(s: Store, p: ProjectId, c: ColumnId)
  {
    c in s && s[c].project == p
  }

  /** A new document after the schema's setters and defaults: the name is
      trimmed and required (an empty trimmed name fails validation), an
      omitted order defaults to 0. */
  function NewColumn(project: ProjectId, name: string, order: Option<int>): (r: Result<Column, DbError>)
    ensures r.Err? <==> Trim(name) == []
    ensures r.Err? ==> r.error == ValidationFailed("name")
    ensures r.Ok? ==> r.value == Column(project, Trim(name), order.GetOr(0))
    ensures r.Ok? ==> |r.value.name| > 0 && IsTrimmed(r.value.name) && Trim(r.value.name) == r.value.name
  {
    var n := Trim(name);
    if n == [] then Err(ValidationFailed("name"))
    else
      TrimIdempotent(name);
      Ok(Column(project, n, order.GetOr(0)))
  }

  /** `Column.create`: the index rejects a document whose order is already
      held in its project. */
  function InsertColumn(s: Store, id: ColumnId, c: Column): (r: Result<Store, DbError>)
    requires id !in s
    ensures r.Err? <==> OrderHeld(s, c.project, c.order, None)
    ensures r.Err? ==> r.error == DuplicateKey(c.project, c.order)
    ensures r.Ok? ==> r.value == s[id := c]
    ensures r.Ok? && UniqueOrders(s) ==> UniqueOrders(r.value)
  {
    if OrderHeld(s, c.project, c.order, None) then Err(DuplicateKey(c.project, c.order))
    else Ok(s[id := c])
  }

  /** Replace the document `id` (same project) by `c`: the index rejects
      the write when another column of the project holds `c.order`. */
  function Replace(s: Store, id: ColumnId, c: Column): (r: Result<Store, DbError>)
    requires id in s && c.project == s[id].project
    ensures r.Err? <==> OrderHeld(s, c.project, c.order, Some(id))
    ensures r.Err? ==> r.error == DuplicateKey(c.project, c.order)
    ensures r.Ok? ==> r.value == s[id := c]
    ensures r.Ok? && UniqueOrders(s) ==> UniqueOrders(r.value)
  {
    if OrderHeld(s, c.project, c.order, Some(id)) then Err(DuplicateKey(c.project, c.order))
    else Ok(s[id := c])
  }

  /** `Column.findByIdAndUpdate(id, { order: o })`: an unknown id matches
      nothing and changes nothing. */
  function SetOrder(s: Store, id: ColumnId, o: int): (r: Result<Store, DbError>)
    ensures id !in s ==> r == Ok(s)
    ensures id in s ==> (r.Err? <==> OrderHeld(s, s[id].project, o, Some(id)))
    ensures r.Ok? && id in s ==> r.value == s[id := s[id].(order := o)]
    ensures r.Ok? && UniqueOrders(s) ==> UniqueOrders(r.value)
  {
    if id !in s then Ok(s) else Replace(s, id, s[id].(order := o))
  }
}

=== FILE: column_routes.dfy ===
/** The column routes under `/:projectId/columns`: create, update, delete,
    fix-order and the two-phase bulk reorder. Each handler maps a database
    state and a request to a response and a new state. */
module ColumnRoutes {
  import opened Wrappers
  import opened Strings
  import opened ColumnModel
  import opened ColumnUtils
  import ProjectAccess

  /** The projects that exist and the column collection. */
  datatype Db = Db(projects: set<ProjectId>, columns: Store)

  datatype Body =
    | ColumnView(id: ColumnId, name: string, order: int)
    | Message(text: string)
    | InvalidInput
    | DuplicateName(conflictingName: string)                         // DUPLICATE_NAME
    | OrderConflict(conflictingOrder: int, suggestedOrder: Option<int>) // ORDER_CONFLICT
    | DuplicateOrder(takenOrder: int, nextOrder: int)               // DUPLICATE_ORDER
    | DuplicateKeyError                                              // DUPLICATE_KEY
    | InvalidIds(invalidIds: seq<ColumnId>)
    | Columns(listing: seq<ColumnId>)
    | Reordered
    | InternalError                                                  // INTERNAL_ERROR
    | NoBody

  datatype Response = Response(status: int, body: Body)

  datatype Reply = Reply(response: Response, db: Db)

  // ----- request schemas -----

  /** The create body after JSON parsing: `name` is a string, `order` an
      optional integer. */
  datatype CreateRequest = CreateRequest(name: string, order: Option<int>)

  /** `createSchema`: a name of at least one character (before trimming),
      an optional non-negative order. */
  predicate ValidCreate(req: CreateRequest)
  {
    |req.name| >= 1 && (req.order.Some? ==> req.order.value >= 0)
  }

  datatype UpdateRequest = UpdateRequest(name: Option<string>, order: Option<int>)

  /** `updateSchema`: both fields optional, with the create rules. */
  predicate ValidUpdate(req: UpdateRequest)
  {
    (req.name.Some? ==> |req.name.value| >= 1) && (req.order.Some? ==> req.order.value >= 0)
  }

  /** The anchored case-insensitive name query: some column of `p` other
      than `exclude` has a name equal, ignoring case, to the trimmed
      request name. */
  predicate NameTaken(s: Store, p: ProjectId, name: string, exclude: Option<ColumnId>)
  {
    exists c :: c in s && s[c].project == p && exclude != Some(c) && Lower(s[c].name) == Lower(Trim(name))
  }

  /** The catch of the create handler: a duplicate-key error whose key
      value names a project and an order becomes DUPLICATE_ORDER with a
      fresh suggestion; any other error is INTERNAL_ERROR. */
  function CreateFailure(s: Store, p: ProjectId, e: DbError): (r: Response)
    ensures e.DuplicateKey? && e.project != "" ==> r == Response(409, DuplicateOrder(e.order, NextOrder(s, p)))
    ensures e.DuplicateKey? && e.project == "" ==> r == Response(409, DuplicateKeyError)
    ensures e.ValidationFailed? ==> r == Response(500, InternalError)
  {
    match e
    case DuplicateKey(kp, ko) =>
      if kp != "" then Response(409, DuplicateOrder(ko, NextOrder(s, p)))
      else Response(409, DuplicateKeyError)
    case ValidationFailed(_) => Response(500, InternalError)
  }

  // ----- POST /:projectId/columns -----

  /** The write at the end of create: build the document (trimmed name)
      and insert it through the unique index. With the order free, the
      index never objects; only a whitespace-only name fails, in the
      schema's required-validator, which the handler reports as 500. */
  function CreateWrite(db: Db, p: ProjectId, name: string, o: int, freshId: ColumnId): (r: Reply)
    requires freshId !in db.columns && p != ""
    requires IsOrderAvailable(db.columns, p, o, None)
    ensures Trim(name) == [] ==> r == Reply(Response(500, InternalError), db)
    ensures Trim(name) != [] ==>
              && r.response == Response(201, ColumnView(freshId, Trim(name), o))
              && r.db == db.(columns := db.columns[freshId := Column(p, Trim(name), o)])
    ensures UniqueOrders(db.columns) ==> UniqueOrders(r.db.columns)
  {
    var made := NewColumn(p, name, Some(o));
    if made.Err? then
      var failure := CreateFailure(db.columns, p, made.error);
      assert failure == Response(500, InternalError);
      Reply(failure, db)
    else
      assert made.value == Column(p, Trim(name), o);
      assert !OrderHeld(db.columns, p, o, None);
      var ins := InsertColumn(db.columns, freshId, made.value);
      match ins
      case Err(e) => Reply(CreateFailure(db.columns, p, e), db)
      case Ok(s') => Reply(Response(201, ColumnView(freshId, made.value.name, made.value.order)), db.(columns := s'))
  }

  /** An id the database can cast to an ObjectId. Any query with another
      id throws a cast error, which the route's `catch` answers with 500. */
  predicate Castable(id: string)
  {
    ProjectAccess.Castable(id)
  }

  /** The example project's id is twelve ASCII characters, so it casts. */
  lemma BoardCastable()
    ensures Castable(Board)
  {
    assert forall i :: 0 <= i < |Board| ==> Board[i] as int < 0x80;
  }

  /** Create. The checks run in this order, each one final: project id,
      project existence (a project id that does not cast throws and is
      answered 500), body schema, name, order; an omitted order is
      auto-assigned. `freshId` is the id the database assigns. */
  function Create(db: Db, p: ProjectId, req: CreateRequest, freshId: ColumnId): (r: Reply)
    requires freshId !in db.columns
    // the ladder, in its order
    ensures p == "" ==> r == Reply(Response(400, Message("Invalid projectId")), db)
    ensures p != "" && !Castable(p) ==> r == Reply(Response(500, InternalError), db)
    ensures p != "" && Castable(p) && p !in db.projects ==> r == Reply(Response(404, Message("Project not found")), db)
    ensures Castable(p) && p in db.projects && !ValidCreate(req) ==> r == Reply(Response(400, InvalidInput), db)
    ensures Castable(p) && p in db.projects && ValidCreate(req) && NameTaken(db.columns, p, req.name, None) ==>
              r == Reply(Response(409, DuplicateName(req.name)), db)
    ensures Castable(p) && p in db.projects && ValidCreate(req) && !NameTaken(db.columns, p, req.name, None)
              && req.order.Some? && !IsOrderAvailable(db.columns, p, req.order.value, None) ==>
              r == Reply(Response(409, OrderConflict(req.order.value, Some(NextOrder(db.columns, p)))), db)
    // past the ladder only the whitespace-only name fails
    ensures r.response.status == 201 <==>
              Castable(p) && p in db.projects && ValidCreate(req) && !NameTaken(db.columns, p, req.name, None)
              && (req.order.Some? ==> IsOrderAvailable(db.columns, p, req.order.value, None))
              && Trim(req.name) != []
    ensures r.response.status == 201 ==>
              var o := if req.order.Some? then req.order.value else NextOrder(db.columns, p);
              && r.response.body == ColumnView(freshId, Trim(req.name), o)
              && r.db == db.(columns := db.columns[freshId := Column(p, Trim(req.name), o)])
    ensures r.response.status != 201 ==> r.db == db
    // the duplicate-key catch is never taken
    ensures !r.response.body.DuplicateOrder? && !r.response.body.DuplicateKeyError?
    ensures UniqueOrders(db.columns) ==> UniqueOrders(r.db.columns)
  {
    var s := db.columns;
    if p == "" then Reply(Response(400, Message("Invalid projectId")), db)
    else if !Castable(p) then Reply(Response(500, InternalError), db)
    else if p !in db.projects then Reply(Response(404, Message("Project not found")), db)
    else if !ValidCreate(req) then Reply(Response(400, InvalidInput), db)
    else if NameTaken(s, p, req.name, None) then Reply(Response(409, DuplicateName(req.name)), db)
    else if req.order.Some? then
      if !IsOrderAvailable(s, p, req.order.value, None) then
        Reply(Response(409, OrderConflict(req.order.value, Some(NextOrder(s, p)))), db)
      else CreateWrite(db, p, req.name, req.order.value, freshId)
    else
      NextOrderIsAvailable(s, p, None);
      CreateWrite(db, p, req.name, NextOrder(s, p), freshId)
  }

  /** Auto-assignment: with no order given, a successful create places the
      column one above the project's highest order, so it becomes the
      project's last column. */
  lemma CreateAppends(db: Db, p: ProjectId, name: string, freshId: ColumnId)
    requires freshId !in db.columns
    requires Castable(p) && p in db.projects && |name| >= 1 && Trim(name) != []
    requires !NameTaken(db.columns, p, name, None)
    ensures var r := Create(db, p, CreateRequest(name, None), freshId);
            && r.response.status == 201
            && forall c :: InProject(db.columns, p, c) ==> db.columns[c].order < r.db.columns[freshId].order
  {
  }

  // ----- PATCH /:projectId/columns/:columnId -----

  /** The document after `$set` with the schema's setter: a given name is
      stored trimmed (the required-validator does not run on updates, so
      a whitespace-only name is stored empty), a given order replaces the
      old one. */
  function Patched(c: Column, req: UpdateRequest): (r: Column)
    ensures r.project == c.project
    ensures r.name == (if req.name.Some? then Trim(req.name.value) else c.name)
    ensures r.order == req.order.GetOr(c.order)
  {
    var c1 := if req.name.Some? then c.(name := Trim(req.name.value)) else c;
    if req.order.Some? then c1.(order := req.order.value) else c1
  }

  /** Update. After the two schemas every path runs a query, so an id
      that does not cast is answered 500. The name and order checks both
      exclude the column itself; an order conflict carries no suggestion;
      the write matches the id AND the project, else 404. */
  function Update(db: Db, p: ProjectId, cid: ColumnId, req: UpdateRequest): (r: Reply)
    ensures p == "" || cid == "" ==> r == Reply(Response(400, Message("Invalid ids")), db)
    ensures p != "" && cid != "" && !ValidUpdate(req) ==> r == Reply(Response(400, InvalidInput), db)
    ensures p != "" && cid != "" && ValidUpdate(req) && (!Castable(p) || !Castable(cid)) ==>
              r == Reply(Response(500, InternalError), db)
    ensures Castable(p) && Castable(cid) && ValidUpdate(req) && req.name.Some? && NameTaken(db.columns, p, req.name.value, Some(cid)) ==>
              r == Reply(Response(409, DuplicateName(req.name.value)), db)
    ensures r.response.body.OrderConflict? ==>
              && req.order.Some? && !IsOrderAvailable(db.columns, p, req.order.value, Some(cid))
              && r.response == Response(409, OrderConflict(req.order.value, None)) && r.db == db
    ensures r.response.status == 200 <==>
              && Castable(p) && Castable(cid) && ValidUpdate(req)
              && (req.name.Some? ==> !NameTaken(db.columns, p, req.name.value, Some(cid)))
              && (req.order.Some? ==> IsOrderAvailable(db.columns, p, req.order.value, Some(cid)))
              && InProject(db.columns, p, cid)
              && !OrderHeld(db.columns, p, Patched(db.columns[cid], req).order, Some(cid))
    ensures r.response.status == 200 ==>
              var c := Patched(db.columns[cid], req);
              r.response.body == ColumnView(cid, c.name, c.order) && r.db == db.(columns := db.columns[cid := c])
    ensures r.response.status == 404 ==> r.response.body == Message("Column not found") && !InProject(db.columns, p, cid)
    ensures r.response.status != 200 ==> r.db == db
    // the duplicate-key catch is only reachable from a state that already breaks the index
    ensures UniqueOrders(db.columns) ==> !r.response.body.DuplicateKeyError? && UniqueOrders(r.db.columns)
  {
    var s := db.columns;
    if p == "" || cid == "" then Reply(Response(400, Message("Invalid ids")), db)
    else if !ValidUpdate(req) then Reply(Response(400, InvalidInput), db)
    else if !Castable(p) || !Castable(cid) then Reply(Response(500, InternalError), db)
    else if req.name.Some? && NameTaken(s, p, req.name.value, Some(cid)) then
      Reply(Response(409, DuplicateName(req.name.value)), db)
    else if req.order.Some? && !IsOrderAvailable(s, p, req.order.value, Some(cid)) then
      Reply(Response(409, OrderConflict(req.order.value, None)), db)
    else if !InProject(s, p, cid) then Reply(Response(404, Message("Column not found")), db)
    else
      var c := Patched(s[cid], req);
      match Replace(s, cid, c)
      case Err(_) => Reply(Response(409, DuplicateKeyError), db)
      case Ok(s') => Reply(Response(200, ColumnView(cid, c.name, c.order)), db.(columns := s'))
  }

  /** Re-setting a column's own order (and its own name) succeeds: the
      column never conflicts with itself. */
  lemma UpdateToOwnOrderSucceeds(db: Db, p: ProjectId, cid: ColumnId)
    requires Castable(p) && Castable(cid) && InProject(db.columns, p, cid) && UniqueOrders(db.columns)
    requires db.columns[cid].order >= 0
    ensures Update(db, p, cid, UpdateRequest(None, Some(db.columns[cid].order))).response.status == 200
  {
    OwnOrderAvailable(db.columns, p, cid);
  }

  // ----- DELETE /:projectId/columns/:columnId -----

  /** Delete removes exactly the column matching id and project, else 404;
      an id that does not cast makes the query throw, answered 500. */
  function Delete(db: Db, p: ProjectId, cid: ColumnId): (r: Reply)
    ensures p == "" || cid == "" ==> r == Reply(Response(400, Message("Invalid ids")), db)
    ensures p != "" && cid != "" && (!Castable(p) || !Castable(cid)) ==> r == Reply(Response(500, InternalError), db)
    ensures Castable(p) && Castable(cid) && InProject(db.columns, p, cid) ==>
              r == Reply(Response(204, NoBody), db.(columns := db.columns - {cid}))
    ensures Castable(p) && Castable(cid) && !InProject(db.columns, p, cid) ==>
              r == Reply(Response(404, Message("Column not found")), db)
    ensures UniqueOrders(db.columns) ==> UniqueOrders(r.db.columns)
  {
    if p == "" || cid == "" then Reply(Response(400, Message("Invalid ids")), db)
    else if !Castable(p) || !Castable(cid) then Reply(Response(500, InternalError), db)
    else if InProject(db.columns, p, cid) then
      Reply(Response(204, NoBody), db.(columns := db.columns - {cid}))
    else Reply(Response(404, Message("Column not found")), db)
  }

  // ----- POST /:projectId/columns/fix-order -----

  /** Deleting a column just created restores the store it was created
      in, and the column is then gone for good: a second delete is 404. */
  lemma DeleteUndoesCreate(db: Db, p: ProjectId, req: CreateRequest, freshId: ColumnId)
    requires freshId !in db.columns && Castable(freshId)
    requires Create(db, p, req, freshId).response.status == 201
    ensures Delete(Create(db, p, req, freshId).db, p, freshId) == Reply(Response(204, NoBody), db)
    ensures Delete(db, p, freshId) == Reply(Response(404, Message("Column not found")), db)
  {
    var r := Create(db, p, req, freshId);
    var added := r.db.columns[freshId];
    assert r.db == db.(columns := db.columns[freshId := added]);
    RemoveAdded(db.columns, freshId, added);
  }

  /** Removing a key just added to a map gives back the map. */
  lemma RemoveAdded(m: Store, k: ColumnId, v: Column)
    requires k !in m
    ensures m[k := v] - {k} == m
  {
  }

  /** A second delete of the same column finds nothing and writes nothing. */
  lemma DeleteTwice(db: Db, p: ProjectId, cid: ColumnId)
    requires Delete(db, p, cid).response.status == 204
    ensures var once := Delete(db, p, cid).db;
            && cid !in once.columns
            && Delete(once, p, cid) == Reply(Response(404, Message("Column not found")), once)
  {
  }

  /** Fix-order runs the densifying repair. `listing` is the sorted query
      the repair starts from; the response lists the project in its new
      order, which is the only sorted listing of the repaired state. */
  method FixOrder(db: Db, p: ProjectId, listing: seq<ColumnId>) returns (r: Reply)
    requires IsSortedListing(db.columns, p, listing)
    ensures p == "" ==> r == Reply(Response(400, Message("Invalid projectId")), db)
    ensures p != "" && !Castable(p) ==> r == Reply(Response(500, InternalError), db)
    ensures Castable(p) && p !in db.projects ==> r == Reply(Response(404, Message("Project not found")), db)
    ensures r.response.status == 200 ==>
              && r.response.body == Columns(listing)
              && Densified(db.columns, listing, r.db.columns)
              && forall other :: IsSortedListing(r.db.columns, p, other) ==> other == listing
    ensures Castable(p) && p in db.projects && UniqueOrders(db.columns) && NonNegativeOrders(db.columns, p) ==>
              r.response.status == 200 && UniqueOrders(r.db.columns)
  {
    if p == "" {
      return Reply(Response(400, Message("Invalid projectId")), db);
    }
    if !Castable(p) {
      return Reply(Response(500, InternalError), db);
    }
    if p !in db.projects {
      return Reply(Response(404, Message("Project not found")), db);
    }
    var t, failure, _ := ReorderColumns(db.columns, p, listing);
    if failure.Some? {
      return Reply(Response(500, InternalError), db.(columns := t));
    }
    RepairIdempotent(db.columns, p, listing, t);
    return Reply(Response(200, Columns(listing)), db.(columns := t));
  }

  // ----- PATCH /:projectId/columns/reorder (two phases) -----

  datatype ReorderItem = ReorderItem(id: ColumnId, order: int)

  /** `reorderSchema`: at least one item, each with a non-empty id and a
      non-negative order. */
  predicate ValidReorder(items: seq<ReorderItem>)
  {
    |items| >= 1 && forall i :: 0 <= i < |items| ==> items[i].id != "" && items[i].order >= 0
  }

  /** What `Column.find({ project: p })` returns: every column of `p`
      once, in no particular order. */
  predicate IsProjectListing(s: Store, p: ProjectId, existing: seq<ColumnId>)
  {
    && (forall i :: 0 <= i < |existing| ==> InProject(s, p, existing[i]))
    && (forall i, j :: 0 <= i < j < |existing| ==> existing[i] != existing[j])
    && (forall c :: c in s && s[c].project == p ==> c in existing)
  }

  /** The requested ids that are not columns of the project, in request
      order, repeats kept. */
  function InvalidIdsOf(items: seq<ReorderItem>, existing: seq<ColumnId>): (r: seq<ColumnId>)
    ensures forall x :: x in r ==> x !in existing
    ensures forall k :: 0 <= k < |r| ==> exists i :: 0 <= i < |items| && items[i].id == r[k]
    ensures forall i :: 0 <= i < |items| ==> (items[i].id in r <==> items[i].id !in existing)
    ensures |r| <= |items|
  {
    if items == [] then []
    else (if items[0].id in existing then [] else [items[0].id]) + InvalidIdsOf(items[1..], existing)
  }

  /** When every requested id is listed, nothing is invalid. */
  lemma {:induction false} NoInvalidIds(items: seq<ReorderItem>, existing: seq<ColumnId>)
    requires forall i :: 0 <= i < |items| ==> items[i].id in existing
    ensures InvalidIdsOf(items, existing) == []
  {
    if items != [] {
      NoInvalidIds(items[1..], existing);
    }
  }

  /** Phase 1's temporary order for a column holding `o`. */
  function Sentinel(o: int): (r: int)
    ensures o >= 0 ==> r <= -1000
    ensures o > -1000 ==> r < 0
  {
    -(o + 1000)
  }

  /** Distinct orders get distinct sentinels. */
  lemma SentinelInjective(a: int, b: int)
    requires Sentinel(a) == Sentinel(b)
    ensures a == b
  {
  }

  /** Apply the writes one after the other, each through the unique
      index; a rejected write changes nothing and the rest still run
      (the writes of one phase are all issued before the phase is
      awaited). The flag says whether some write was rejected. */
  function ApplyWrites(t: Store, ws: seq<(ColumnId, int)>): (r: (Store, bool))
    ensures r.0.Keys == t.Keys
    ensures forall c :: c in t ==> r.0[c].project == t[c].project && r.0[c].name == t[c].name
    ensures UniqueOrders(t) ==> UniqueOrders(r.0)
    decreases |ws|
  {
    if ws == [] then (t, false)
    else
      var step := SetOrder(t, ws[0].0, ws[0].1);
      var t1 := if step.Ok? then step.value else t;
      var rest := ApplyWrites(t1, ws[1..]);
      (rest.0, step.Err? || rest.1)
  }

  /** The order the last write to `c` in `ws` sets, if any. */
  function LastWrite(ws: seq<(ColumnId, int)>, c: ColumnId): Option<int>
    decreases |ws|
  {
    if ws == [] then None
    else match LastWrite(ws[1..], c)
      case Some(o) => Some(o)
      case None => if ws[0].0 == c then Some(ws[0].1) else None
  }

  /** `t` after the writes `ws` with no index: every column takes the
      order of its last write. */
  function Assigned(t: Store, ws: seq<(ColumnId, int)>): (r: Store)
    ensures r.Keys == t.Keys
  {
    map c | c in t :: if LastWrite(ws, c).Some? then t[c].(order := LastWrite(ws, c).value) else t[c]
  }

  /** When no write is rejected, the checked writes end where the
      unchecked ones would: each column holds its last written order. */
  lemma {:induction false} AppliedIsAssigned(t: Store, ws: seq<(ColumnId, int)>)
    requires !ApplyWrites(t, ws).1
    ensures ApplyWrites(t, ws).0 == Assigned(t, ws)
    decreases |ws|
  {
    if ws != [] {
      var step := SetOrder(t, ws[0].0, ws[0].1);
      var t1 := step.value;
      AppliedIsAssigned(t1, ws[1..]);
      var a := Assigned(t, ws);
      var a1 := Assigned(t1, ws[1..]);
      forall c | c in t ensures a1[c] == a[c] {
        AssignedStep(t, ws, t1, c);
      }
      assert a1.Keys == a.Keys;
    }
  }

  /** One write, then the rest unchecked, assigns column `c` what the
      whole sequence assigns it. */
  lemma AssignedStep(t: Store, ws: seq<(ColumnId, int)>, t1: Store, c: ColumnId)
    requires ws != [] && SetOrder(t, ws[0].0, ws[0].1) == Ok(t1) && c in t
    ensures c in t1 && Assigned(t1, ws[1..])[c] == Assigned(t, ws)[c]
  {
    assert LastWrite(ws, c) == match LastWrite(ws[1..], c)
      case Some(o) => Some(o)
      case None => if ws[0].0 == c then Some(ws[0].1) else None;
  }

  /** With distinct ids, a listed column gets exactly its requested order
      and an unlisted one keeps what it had. */
  lemma {:induction false} LastWriteOfDistinct(ws: seq<(ColumnId, int)>, c: ColumnId)
    requires forall i, j :: 0 <= i < j < |ws| ==> ws[i].0 != ws[j].0
    ensures forall i :: 0 <= i < |ws| && ws[i].0 == c ==> LastWrite(ws, c) == Some(ws[i].1)
    ensures (forall i :: 0 <= i < |ws| ==> ws[i].0 != c) ==> LastWrite(ws, c) == None
    decreases |ws|
  {
    if ws != [] {
      LastWriteOfDistinct(ws[1..], c);
      if ws[0].0 == c {
        assert forall i :: 0 <= i < |ws[1..]| ==> ws[1..][i].0 != c by {
          forall i | 0 <= i < |ws[1..]| ensures ws[1..][i].0 != c {
            assert ws[1..][i] == ws[i + 1];
          }
        }
      } else {
        forall i | 0 <= i < |ws| && ws[i].0 == c ensures LastWrite(ws, c) == Some(ws[i].1) {
          assert ws[1..][i - 1] == ws[i];
        }
      }
    }
  }

  /** The last write wins: a column gets a value exactly when some write
      names it, and the value is that of a write naming it with no later
      write to the same column. */
  lemma {:induction false} LastWriteIsLast(ws: seq<(ColumnId, int)>, c: ColumnId)
    ensures LastWrite(ws, c).None? <==> forall i :: 0 <= i < |ws| ==> ws[i].0 != c
    ensures LastWrite(ws, c).Some? ==>
              exists i :: 0 <= i < |ws| && ws[i] == (c, LastWrite(ws, c).value)
                          && forall j :: i < j < |ws| ==> ws[j].0 != c
    decreases |ws|
  {
    if ws != [] {
      LastWriteIsLast(ws[1..], c);
      assert forall i :: 0 < i < |ws| ==> ws[i] == ws[1..][i - 1];
      match LastWrite(ws[1..], c)
      case Some(o) =>
        var k :| 0 <= k < |ws[1..]| && ws[1..][k] == (c, o) && forall j :: k < j < |ws[1..]| ==> ws[1..][j].0 != c;
        assert ws[k + 1] == (c, o);
      case None =>
        if ws[0].0 == c {
          assert ws[0] == (c, ws[0].1);
        }
    }
  }

  function Phase1Writes(s: Store, existing: seq<ColumnId>): (r: seq<(ColumnId, int)>)
    requires forall i :: 0 <= i < |existing| ==> existing[i] in s
    ensures |r| == |existing|
    ensures forall i :: 0 <= i < |existing| ==> r[i] == (existing[i], Sentinel(s[existing[i]].order))
  {
    seq(|existing|, i requires 0 <= i < |existing| => (existing[i], Sentinel(s[existing[i]].order)))
  }

  function Phase2Writes(items: seq<ReorderItem>): (r: seq<(ColumnId, int)>)
    ensures |r| == |items|
    ensures forall i :: 0 <= i < |items| ==> r[i] == (items[i].id, items[i].order)
  {
    seq(|items|, i requires 0 <= i < |items| => (items[i].id, items[i].order))
  }

  /** The state phase 1 aims for: every column of `p` at its sentinel. */
  function SentinelState(s: Store, p: ProjectId): (t: Store)
    ensures t.Keys == s.Keys
  {
    map c | c in s :: if s[c].project == p then s[c].(order := Sentinel(s[c].order)) else s[c]
  }

  /** Writing each listed column's sentinel, with nothing rejected, is
      exactly the sentinel state. */
  lemma Phase1Assigned(s: Store, p: ProjectId, existing: seq<ColumnId>)
    requires IsProjectListing(s, p, existing)
    ensures Assigned(s, Phase1Writes(s, existing)) == SentinelState(s, p)
  {
    var ws := Phase1Writes(s, existing);
    var a := Assigned(s, ws);
    var b := SentinelState(s, p);
    forall c | c in s ensures a[c] == b[c] {
      LastWriteOfDistinct(ws, c);
      if s[c].project == p {
        var i :| 0 <= i < |existing| && existing[i] == c;
        assert ws[i].0 == c;
      } else {
        forall i | 0 <= i < |ws| ensures ws[i].0 != c {
          assert InProject(s, p, existing[i]);
        }
      }
    }
    assert a.Keys == b.Keys;
  }

  /** Reorder. After the id checks, phase 1 moves every column of the
      project to its sentinel and phase 2 writes the requested orders; a
      rejected write in either phase gives 500 and leaves the writes
      made so far in place. `existing` is the project's column listing. */
  function Reorder(db: Db, p: ProjectId, items: seq<ReorderItem>, existing: seq<ColumnId>): (r: Reply)
    requires IsProjectListing(db.columns, p, existing)
    ensures p == "" ==> r == Reply(Response(400, Message("Invalid projectId")), db)
    ensures p != "" && !Castable(p) ==> r == Reply(Response(500, InternalError), db)
    ensures Castable(p) && p !in db.projects ==> r == Reply(Response(404, Message("Project not found")), db)
    ensures Castable(p) && p in db.projects && !ValidReorder(items) ==> r == Reply(Response(400, InvalidInput), db)
    ensures Castable(p) && p in db.projects && ValidReorder(items) && (exists i :: 0 <= i < |items| && !InProject(db.columns, p, items[i].id)) ==>
              r == Reply(Response(400, InvalidIds(InvalidIdsOf(items, existing))), db)
    ensures r.response.status == 200 ==>
              && r.response.body == Reordered
              && r.db == db.(columns := Assigned(SentinelState(db.columns, p), Phase2Writes(items)))
    ensures r.db.projects == db.projects && r.db.columns.Keys == db.columns.Keys
    ensures UniqueOrders(db.columns) ==> UniqueOrders(r.db.columns)
  {
    var s := db.columns;
    if p == "" then Reply(Response(400, Message("Invalid projectId")), db)
    else if !Castable(p) then Reply(Response(500, InternalError), db)
    else if p !in db.projects then Reply(Response(404, Message("Project not found")), db)
    else if !ValidReorder(items) then Reply(Response(400, InvalidInput), db)
    else
      var invalid := InvalidIdsOf(items, existing);
      if |invalid| > 0 then Reply(Response(400, InvalidIds(invalid)), db)
      else
        var phase1 := ApplyWrites(s, Phase1Writes(s, existing));
        if phase1.1 then Reply(Response(500, InternalError), db.(columns := phase1.0))
        else
          var phase2 := ApplyWrites(phase1.0, Phase2Writes(items));
          if phase2.1 then Reply(Response(500, InternalError), db.(columns := phase2.0))
          else
            AppliedIsAssigned(s, Phase1Writes(s, existing));
            Phase1Assigned(s, p, existing);
            AppliedIsAssigned(phase1.0, Phase2Writes(items));
            Reply(Response(200, Reordered), db.(columns := phase2.0))
  }

  // ----- the two phases never collide -----

  /** Phase 1 after its first `k` writes: those columns sit at their
      sentinels, everything else is untouched. */
  predicate Phase1Partial(s: Store, existing: seq<ColumnId>, t: Store, k: nat)
  {
    && k <= |existing|
    && t.Keys == s.Keys
    && forall c :: c in s ==> t[c] == if c in existing[..k] then s[c].(order := Sentinel(s[c].order)) else s[c]
  }

  lemma {:induction false} Phase1Rest(s: Store, p: ProjectId, existing: seq<ColumnId>, t: Store, k: nat)
    requires IsProjectListing(s, p, existing) && UniqueOrders(s) && NonNegativeOrders(s, p)
    requires Phase1Partial(s, existing, t, k)
    ensures !ApplyWrites(t, Phase1Writes(s, existing)[k..]).1
    decreases |existing| - k
  {
    var ws := Phase1Writes(s, existing);
    if k < |existing| {
      var e := existing[k];
      var o := Sentinel(s[e].order);
      var t1 := t[e := t[e].(order := o)];
      Phase1Step(s, p, existing, t, k);
      assert ws[k..][0] == (e, o);
      assert ws[k..][1..] == ws[k + 1..];
      Phase1Rest(s, p, existing, t1, k + 1);
    }
  }

  /** The next phase-1 write is accepted and extends the partial state. */
  lemma Phase1Step(s: Store, p: ProjectId, existing: seq<ColumnId>, t: Store, k: nat)
    requires IsProjectListing(s, p, existing) && UniqueOrders(s) && NonNegativeOrders(s, p)
    requires Phase1Partial(s, existing, t, k) && k < |existing|
    ensures var e := existing[k];
            var t1 := t[e := t[e].(order := Sentinel(s[e].order))];
            && SetOrder(t, e, Sentinel(s[e].order)) == Ok(t1)
            && Phase1Partial(s, existing, t1, k + 1)
  {
    var e := existing[k];
    var o := Sentinel(s[e].order);
    assert e !in existing[..k];
    assert t[e] == s[e];
    forall d | d in t && t[d].project == p && d != e ensures t[d].order != o {
      if d in existing[..k] {
        if t[d].order == o {
          SentinelInjective(s[d].order, s[e].order);
        }
      }
    }
    var t1 := t[e := t[e].(order := o)];
    assert SetOrder(t, e, o) == Ok(t1);
    assert existing[..k + 1] == existing[..k] + [e];
  }

  /** From distinct non-negative orders, no phase-1 write is rejected. */
  lemma Phase1Clean(s: Store, p: ProjectId, existing: seq<ColumnId>)
    requires IsProjectListing(s, p, existing) && UniqueOrders(s) && NonNegativeOrders(s, p)
    ensures !ApplyWrites(s, Phase1Writes(s, existing)).1
  {
    assert Phase1Writes(s, existing)[0..] == Phase1Writes(s, existing);
    Phase1Rest(s, p, existing, s, 0);
  }

  /** The requested orders are pairwise distinct. */
  predicate DistinctOrders(items: seq<ReorderItem>)
  {
    forall i, j :: 0 <= i < j < |items| ==> items[i].order != items[j].order
  }

  /** Phase 2 after its first `k` writes: every column of `p` holds a
      negative order or one already requested. */
  predicate Phase2Partial(t: Store, p: ProjectId, items: seq<ReorderItem>, k: nat)
  {
    && k <= |items|
    && forall c :: c in t && t[c].project == p ==>
         t[c].order < 0 || exists j :: 0 <= j < k && items[j].order == t[c].order
  }

  lemma {:induction false} Phase2Rest(t: Store, p: ProjectId, items: seq<ReorderItem>, k: nat)
    requires ValidReorder(items) && DistinctOrders(items)
    requires forall i :: 0 <= i < |items| ==> InProject(t, p, items[i].id)
    requires Phase2Partial(t, p, items, k)
    ensures !ApplyWrites(t, Phase2Writes(items)[k..]).1
    decreases |items| - k
  {
    var ws := Phase2Writes(items);
    if k < |items| {
      var e := items[k].id;
      var o := items[k].order;
      assert ws[k..][0] == (e, o);
      forall d | d in t && t[d].project == p && d != e ensures t[d].order != o {
      }
      var t1 := t[e := t[e].(order := o)];
      assert SetOrder(t, e, o) == Ok(t1);
      forall c | c in t1 && t1[c].project == p
        ensures t1[c].order < 0 || exists j :: 0 <= j < k + 1 && items[j].order == t1[c].order
      {
        if c == e {
          assert items[k].order == t1[c].order;
        }
      }
      assert ws[k..][1..] == ws[k + 1..];
      Phase2Rest(t1, p, items, k + 1);
    }
  }

  /** From a state where the project's orders are all negative, distinct
      requested orders are written without a rejection. */
  lemma Phase2Clean(t: Store, p: ProjectId, items: seq<ReorderItem>)
    requires ValidReorder(items) && DistinctOrders(items)
    requires forall i :: 0 <= i < |items| ==> InProject(t, p, items[i].id)
    requires forall c :: c in t && t[c].project == p ==> t[c].order < 0
    ensures !ApplyWrites(t, Phase2Writes(items)).1
  {
    assert Phase2Writes(items)[0..] == Phase2Writes(items);
    Phase2Rest(t, p, items, 0);
  }

  /** The sentinel state keeps the index, and the project sits below 0. */
  lemma SentinelStateFacts(s: Store, p: ProjectId)
    requires UniqueOrders(s) && NonNegativeOrders(s, p)
    ensures UniqueOrders(SentinelState(s, p))
    ensures forall c :: c in s && s[c].project == p ==> SentinelState(s, p)[c].order < 0
  {
    var t := SentinelState(s, p);
    forall a, b | a in t && b in t && a != b && t[a].project == t[b].project ensures t[a].order != t[b].order {
      if t[a].project == p && t[a].order == t[b].order {
        SentinelInjective(s[a].order, s[b].order);
      }
    }
  }

  /** Every column of the request is a column of the project. */
  predicate AllListed(s: Store, p: ProjectId, items: seq<ReorderItem>)
  {
    forall i :: 0 <= i < |items| ==> InProject(s, p, items[i].id)
  }

  /** With distinct non-negative orders in the project and distinct
      requested orders, the reorder succeeds and keeps the index. */
  lemma ReorderSucceeds(db: Db, p: ProjectId, items: seq<ReorderItem>, existing: seq<ColumnId>)
    requires IsProjectListing(db.columns, p, existing)
    requires Castable(p) && p in db.projects && ValidReorder(items) && AllListed(db.columns, p, items)
    requires UniqueOrders(db.columns) && NonNegativeOrders(db.columns, p)
    requires DistinctOrders(items)
    ensures var r := Reorder(db, p, items, existing);
            && r.response == Response(200, Reordered)
            && UniqueOrders(r.db.columns)
  {
    var s := db.columns;
    Phase1Clean(s, p, existing);
    AppliedIsAssigned(s, Phase1Writes(s, existing));
    Phase1Assigned(s, p, existing);
    var t := SentinelState(s, p);
    SentinelStateFacts(s, p);
    forall i | 0 <= i < |items| ensures items[i].id in existing {
      assert InProject(s, p, items[i].id);
    }
    NoInvalidIds(items, existing);
    Phase2Clean(t, p, items);
  }

  /** The requested ids are pairwise distinct. */
  predicate DistinctIds(items: seq<ReorderItem>)
  {
    forall i, j :: 0 <= i < j < |items| ==> items[i].id != items[j].id
  }

  /** After a successful reorder, every listed column holds the order of
      the last item naming it (with distinct ids, its own item's order),
      every unlisted column of the project keeps its sentinel, and other
      projects are untouched. */
  lemma ReorderFinalOrders(db: Db, p: ProjectId, items: seq<ReorderItem>, existing: seq<ColumnId>, c: ColumnId)
    requires IsProjectListing(db.columns, p, existing)
    requires Reorder(db, p, items, existing).response.status == 200
    requires c in db.columns
    ensures var t := Reorder(db, p, items, existing).db.columns;
            var w := LastWrite(Phase2Writes(items), c);
            && c in t
            && (w.Some? ==> t[c] == db.columns[c].(order := w.value))
            && (DistinctIds(items) ==>
                  forall i :: 0 <= i < |items| && items[i].id == c ==> t[c] == db.columns[c].(order := items[i].order))
            && ((forall i :: 0 <= i < |items| ==> items[i].id != c) && db.columns[c].project == p ==>
                  t[c] == db.columns[c].(order := Sentinel(db.columns[c].order)))
            && (db.columns[c].project != p ==> t[c] == db.columns[c])
  {
    assert forall i :: 0 <= i < |items| ==> InProject(db.columns, p, items[i].id);
    FinalStoreAt(db.columns, p, items, c);
  }

  /** The store a successful reorder leaves, column by column: a listed
      column at the order of its last write, an unlisted column of the
      project at its sentinel, a column of another project untouched. */
  lemma FinalStoreAt(s: Store, p: ProjectId, items: seq<ReorderItem>, c: ColumnId)
    requires c in s
    requires forall i :: 0 <= i < |items| ==> InProject(s, p, items[i].id)
    ensures var t := Assigned(SentinelState(s, p), Phase2Writes(items));
            var w := LastWrite(Phase2Writes(items), c);
            && c in t
            && (w.Some? ==> t[c] == s[c].(order := w.value))
            && (DistinctIds(items) ==>
                  forall i :: 0 <= i < |items| && items[i].id == c ==> t[c] == s[c].(order := items[i].order))
            && ((forall i :: 0 <= i < |items| ==> items[i].id != c) && s[c].project == p ==>
                  t[c] == s[c].(order := Sentinel(s[c].order)))
            && (s[c].project != p ==> t[c] == s[c])
  {
    var ws := Phase2Writes(items);
    LastWriteIsLast(ws, c);
    if DistinctIds(items) {
      assert forall i, j :: 0 <= i < j < |ws| ==> ws[i].0 != ws[j].0;
      LastWriteOfDistinct(ws, c);
      forall i | 0 <= i < |items| && items[i].id == c ensures ws[i].0 == c { }
    }
    if s[c].project != p {
      forall i | 0 <= i < |ws| ensures ws[i].0 != c {
        assert InProject(s, p, items[i].id);
      }
    }
  }

  /** Two different columns never end at the same order: a 200 from a
      store that keeps the index gives distinct last writes to distinct
      columns. For a request without repeated ids, that makes the
      requested orders distinct, the converse of `ReorderSucceeds`. */
  lemma ReorderNeedsDistinctOrders(db: Db, p: ProjectId, items: seq<ReorderItem>, existing: seq<ColumnId>)
    requires IsProjectListing(db.columns, p, existing)
    requires UniqueOrders(db.columns)
    requires Reorder(db, p, items, existing).response.status == 200
    ensures forall i, j :: 0 <= i < |items| && 0 <= j < |items| && items[i].id != items[j].id ==>
              LastWrite(Phase2Writes(items), items[i].id) != LastWrite(Phase2Writes(items), items[j].id)
    ensures DistinctIds(items) ==> DistinctOrders(items)
  {
    var r := Reorder(db, p, items, existing);
    var t := r.db.columns;
    var ws := Phase2Writes(items);
    forall i, j | 0 <= i < |items| && 0 <= j < |items| && items[i].id != items[j].id
      ensures LastWrite(ws, items[i].id) != LastWrite(ws, items[j].id)
    {
      assert InProject(db.columns, p, items[i].id) && InProject(db.columns, p, items[j].id);
      LastWriteIsLast(ws, items[i].id);
      LastWriteIsLast(ws, items[j].id);
      assert ws[i].0 == items[i].id && ws[j].0 == items[j].id;
      ReorderFinalOrders(db, p, items, existing, items[i].id);
      ReorderFinalOrders(db, p, items, existing, items[j].id);
      assert t[items[i].id].order == LastWrite(ws, items[i].id).value;
      assert t[items[j].id].order == LastWrite(ws, items[j].id).value;
    }
    if DistinctIds(items) {
      forall i, j | 0 <= i < j < |items| ensures items[i].order != items[j].order {
        assert InProject(db.columns, p, items[i].id) && InProject(db.columns, p, items[j].id);
        ReorderFinalOrders(db, p, items, existing, items[i].id);
        ReorderFinalOrders(db, p, items, existing, items[j].id);
        assert t[items[i].id].order == items[i].order;
        assert t[items[j].id].order == items[j].order;
      }
    }
  }

  /** The column named by item `i` of a successful reorder ends at the
      order of the last item naming it; with distinct ids, item `i`'s own
      order. */
  lemma FinalOrderAt(db: Db, p: ProjectId, items: seq<ReorderItem>, existing: seq<ColumnId>, i: nat)
    requires IsProjectListing(db.columns, p, existing)
    requires Reorder(db, p, items, existing).response.status == 200
    requires i < |items|
    ensures items[i].id in db.columns && items[i].id in Reorder(db, p, items, existing).db.columns
    ensures LastWrite(Phase2Writes(items), items[i].id).Some?
    ensures Reorder(db, p, items, existing).db.columns[items[i].id]
            == db.columns[items[i].id].(order := LastWrite(Phase2Writes(items), items[i].id).value)
    ensures DistinctIds(items) ==>
              Reorder(db, p, items, existing).db.columns[items[i].id] == db.columns[items[i].id].(order := items[i].order)
  {
    assert InProject(db.columns, p, items[i].id);
    LastWriteIsLast(Phase2Writes(items), items[i].id);
    assert Phase2Writes(items)[i].0 == items[i].id;
    ReorderFinalOrders(db, p, items, existing, items[i].id);
  }

  /** A two-column project: `a` at `oa` and `b` at `ob`. */
  function Pair(oa: int, ob: int): (t: Store)
    ensures t.Keys == {"a", "b"}
  {
    map["a" := Column(Board, "Todo", oa), "b" := Column(Board, "Doing", ob)]
  }

  /** Moving `a` to an order `b` does not hold goes through. */
  lemma PairWriteA(oa: int, ob: int, o: int)
    requires o != ob
    ensures SetOrder(Pair(oa, ob), "a", o) == Ok(Pair(o, ob))
  {
    var t := Pair(oa, ob);
    assert !OrderHeld(t, Board, o, Some("a"));
    assert t["a" := t["a"].(order := o)] == Pair(o, ob);
  }

  /** Moving `b` to an order `a` does not hold goes through. */
  lemma PairWriteB(oa: int, ob: int, o: int)
    requires o != oa
    ensures SetOrder(Pair(oa, ob), "b", o) == Ok(Pair(oa, o))
  {
    var t := Pair(oa, ob);
    assert !OrderHeld(t, Board, o, Some("b"));
    assert t["b" := t["b"].(order := o)] == Pair(oa, o);
  }

  /** An accepted first write leaves the rest to run from its result. */
  lemma WriteThen(t: Store, ws: seq<(ColumnId, int)>, t1: Store)
    requires ws != [] && SetOrder(t, ws[0].0, ws[0].1) == Ok(t1)
    ensures ApplyWrites(t, ws) == ApplyWrites(t1, ws[1..])
  {
  }

  /** A first write moving `a` to an order `b` does not hold is accepted
      and the rest run from its result. */
  lemma PairStepA(oa: int, ob: int, ws: seq<(ColumnId, int)>)
    requires ws != [] && ws[0].0 == "a" && ws[0].1 != ob
    ensures ApplyWrites(Pair(oa, ob), ws) == ApplyWrites(Pair(ws[0].1, ob), ws[1..])
  {
    PairWriteA(oa, ob, ws[0].1);
    WriteThen(Pair(oa, ob), ws, Pair(ws[0].1, ob));
  }

  /** A first write moving `b` to an order `a` does not hold is accepted
      and the rest run from its result. */
  lemma PairStepB(oa: int, ob: int, ws: seq<(ColumnId, int)>)
    requires ws != [] && ws[0].0 == "b" && ws[0].1 != oa
    ensures ApplyWrites(Pair(oa, ob), ws) == ApplyWrites(Pair(oa, ws[0].1), ws[1..])
  {
    PairWriteB(oa, ob, ws[0].1);
    WriteThen(Pair(oa, ob), ws, Pair(oa, ws[0].1));
  }

  /** The phase-1 writes for `Pair(0, 1)`: each column's sentinel. */
  lemma PairSentinelWrites(s: Store, existing: seq<ColumnId>)
    requires s == Pair(0, 1) && existing == ["a", "b"]
    ensures Phase1Writes(s, existing) == [("a", -1000), ("b", -1001)]
  {
    var w1 := Phase1Writes(s, existing);
    assert s["a"].order == 0 && s["b"].order == 1;
    assert w1[0] == ("a", -1000) && w1[1] == ("b", -1001);
  }

  /** Phase 1 on `Pair(0, 1)`: both columns reach their sentinels. */
  lemma PairSentinels(w1: seq<(ColumnId, int)>)
    requires w1 == [("a", -1000), ("b", -1001)]
    ensures ApplyWrites(Pair(0, 1), w1) == (Pair(-1000, -1001), false)
  {
    var w2 := w1[1..];
    assert w2 == [("b", -1001)] && w2[1..] == [];
    PairStepA(0, 1, w1);
    PairStepB(-1000, 1, w2);
  }

  /** Phase 2 of the repeated-id request: `a` to 3, `a` to 5 (which frees
      3) and `b` to 3, none rejected. */
  lemma RepeatedIdWrites(ws: seq<(ColumnId, int)>)
    requires ws == [("a", 3), ("a", 5), ("b", 3)]
    ensures ApplyWrites(Pair(-1000, -1001), ws) == (Pair(5, 3), false)
  {
    var w2 := ws[1..];
    var w3 := w2[1..];
    assert w2 == [("a", 5), ("b", 3)] && w3 == [("b", 3)] && w3[1..] == [];
    PairStepA(-1000, -1001, ws);
    PairStepA(3, -1001, w2);
    PairStepB(5, -1001, w3);
  }

  /** The repeated-id request repeats both an id and an order. */
  lemma RepeatedIdRepeats(items: seq<ReorderItem>)
    requires items == [ReorderItem("a", 3), ReorderItem("a", 5), ReorderItem("b", 3)]
    ensures !DistinctOrders(items) && !DistinctIds(items)
  {
    assert items[0].order == items[2].order && items[0].id == items[1].id;
  }

  /** The repeated-id request is well formed. */
  lemma RepeatedIdValid(items: seq<ReorderItem>)
    requires items == [ReorderItem("a", 3), ReorderItem("a", 5), ReorderItem("b", 3)]
    ensures ValidReorder(items)
  {
    assert items[0].id == "a" && items[1].id == "a" && items[2].id == "b";
  }

  /** The repeated-id request names only listed columns. */
  lemma RepeatedIdListed(items: seq<ReorderItem>, existing: seq<ColumnId>)
    requires items == [ReorderItem("a", 3), ReorderItem("a", 5), ReorderItem("b", 3)]
    requires existing == ["a", "b"]
    ensures InvalidIdsOf(items, existing) == []
  {
    assert items[0].id == existing[0] && items[1].id == existing[0] && items[2].id == existing[1];
    NoInvalidIds(items, existing);
  }

  /** The phase-2 writes of the repeated-id request, in request order. */
  lemma RepeatedIdWriteList(items: seq<ReorderItem>)
    requires items == [ReorderItem("a", 3), ReorderItem("a", 5), ReorderItem("b", 3)]
    ensures Phase2Writes(items) == [("a", 3), ("a", 5), ("b", 3)]
  {
    var ws := Phase2Writes(items);
    assert ws[0] == ("a", 3) && ws[1] == ("a", 5) && ws[2] == ("b", 3);
  }

  /** A reorder that passes the checks and whose two phases run without
      a rejected write answers 200 with the store phase 2 leaves. */
  lemma CleanReorder(db: Db, p: ProjectId, items: seq<ReorderItem>, existing: seq<ColumnId>)
    requires IsProjectListing(db.columns, p, existing)
    requires Castable(p) && p in db.projects && ValidReorder(items) && InvalidIdsOf(items, existing) == []
    requires !ApplyWrites(db.columns, Phase1Writes(db.columns, existing)).1
    requires !ApplyWrites(ApplyWrites(db.columns, Phase1Writes(db.columns, existing)).0, Phase2Writes(items)).1
    ensures Reorder(db, p, items, existing) ==
              Reply(Response(200, Reordered),
                    db.(columns := ApplyWrites(ApplyWrites(db.columns, Phase1Writes(db.columns, existing)).0, Phase2Writes(items)).0))
  {
  }

  /** `["a", "b"]` lists the columns of `Pair(0, 1)`. */
  lemma PairListing(s: Store, existing: seq<ColumnId>)
    requires s == Pair(0, 1) && existing == ["a", "b"]
    ensures IsProjectListing(s, Board, existing)
  {
    assert existing[0] == "a" && existing[1] == "b";
  }

  /** A request that names a column twice is accepted although two of its
      items ask for the same order: the schema lets ids repeat, so the
      distinct orders `ReorderSucceeds` asks for are sufficient but not
      necessary. */
  lemma RepeatedIdAccepted(db: Db, items: seq<ReorderItem>, existing: seq<ColumnId>)
    requires db == Db({Board}, Pair(0, 1))
    requires items == [ReorderItem("a", 3), ReorderItem("a", 5), ReorderItem("b", 3)]
    requires existing == ["a", "b"]
    ensures !DistinctOrders(items) && !DistinctIds(items)
    ensures Reorder(db, Board, items, existing) == Reply(Response(200, Reordered), db.(columns := Pair(5, 3)))
  {
    RepeatedIdRepeats(items);
    RepeatedIdValid(items);
    RepeatedIdListed(items, existing);
    RepeatedIdWriteList(items);
    PairListing(db.columns, existing);
    PairSentinelWrites(db.columns, existing);
    PairSentinels(Phase1Writes(db.columns, existing));
    RepeatedIdWrites(Phase2Writes(items));
    BoardCastable();
    CleanReorder(db, Board, items, existing);
  }

  lemma ExampleStore(db: Db, existing: seq<ColumnId>)
    requires db == Db({Board}, ThreeColumns())
    requires existing == ["a", "b", "c"]
    ensures db.columns.Keys == {"a", "b", "c"}
    ensures IsProjectListing(db.columns, Board, existing)
    ensures UniqueOrders(db.columns) && NonNegativeOrders(db.columns, Board)
  {
    ThreeColumnsValid();
    ExampleListing(db.columns, existing);
    assert db.columns.Keys == {"a", "b", "c"};
  }

  /** `["a", "b", "c"]` lists the columns of the example project. */
  lemma ExampleListing(s: Store, existing: seq<ColumnId>)
    requires s == ThreeColumns() && existing == ["a", "b", "c"]
    ensures IsProjectListing(s, Board, existing)
  {
    assert s.Keys == {"a", "b", "c"};
    assert existing[0] == "a" && existing[1] == "b" && existing[2] == "c";
  }

  lemma ExampleItems(db: Db, items: seq<ReorderItem>)
    requires db == Db({Board}, ThreeColumns())
    requires items == [ReorderItem("a", 2), ReorderItem("b", 0), ReorderItem("c", 1)]
    ensures ValidReorder(items) && AllListed(db.columns, Board, items)
    ensures DistinctOrders(items) && DistinctIds(items)
  {
  }

  /** After a 200 for a request with distinct ids, the column item `i`
      names is that column with the requested order. */
  lemma RequestedColumnAt(db: Db, p: ProjectId, items: seq<ReorderItem>, existing: seq<ColumnId>,
                          i: nat, before: Column)
    requires IsProjectListing(db.columns, p, existing)
    requires Reorder(db, p, items, existing).response.status == 200
    requires DistinctIds(items) && i < |items|
    requires items[i].id in db.columns && db.columns[items[i].id] == before
    ensures Reorder(db, p, items, existing).db.columns[items[i].id] == before.(order := items[i].order)
  {
    FinalOrderAt(db, p, items, existing, i);
  }

  /** Reversing a three-column board: A:0, B:1, C:2 with the request
      [A→2, B→0, C→1] ends at A:2, B:0, C:1. */
  lemma ReorderExample(db: Db, items: seq<ReorderItem>, existing: seq<ColumnId>)
    requires db == Db({Board}, ThreeColumns())
    requires items == [ReorderItem("a", 2), ReorderItem("b", 0), ReorderItem("c", 1)]
    requires existing == ["a", "b", "c"]
    ensures Reorder(db, Board, items, existing).response == Response(200, Reordered)
    ensures Reorder(db, Board, items, existing).db.columns ==
              map["a" := Column(Board, "Todo", 2), "b" := Column(Board, "Doing", 0), "c" := Column(Board, "Done", 1)]
  {
    ExampleStore(db, existing);
    ExampleItems(db, items);
    ReorderSucceeds(db, Board, items, existing);
    var t := Reorder(db, Board, items, existing).db.columns;
    RequestedColumnAt(db, Board, items, existing, 0, Column(Board, "Todo", 0));
    RequestedColumnAt(db, Board, items, existing, 1, Column(Board, "Doing", 1));
    RequestedColumnAt(db, Board, items, existing, 2, Column(Board, "Done", 2));
    ThreeColumnsAt(t, 2, 0, 1);
  }
}

=== FILE: column_utils.dfy ===
/** `columnUtils`: the order allocator, the availability check, the
    densifying repair and the insert-with-shift helper. */
module ColumnUtils {
  import opened Wrappers
  import opened ColumnModel
  import opened Sets

  /** The orders currently held in project `p`. */
  function ProjectOrders(s: Store, p: ProjectId): set<int>
  {
    set c | c in s && s[c].project == p :: s[c].order
  }

  /** `getNextColumnOrder`: one above the highest order of the project,
      or 0 for a project without columns. */
  function NextOrder(s: Store, p: ProjectId): (r: int)
    ensures forall c :: InProject(s, p, c) ==> s[c].order < r
    ensures (forall c :: !InProject(s, p, c)) ==> r == 0
    ensures (exists c :: InProject(s, p, c)) ==> exists c :: InProject(s, p, c) && s[c].order == r - 1
  {
    var os := ProjectOrders(s, p);
    assert forall c :: InProject(s, p, c) ==> s[c].order in os;
    if c0 :| c0 in s && s[c0].project == p then
      var m := MaxOf(os, s[c0].order);
      assert exists c :: InProject(s, p, c) && s[c].order == m;
      m + 1
    else 0
  }

  /** `isOrderAvailable`: no column of project `p` other than `exclude`
      holds order `o`; columns of other projects are not looked at. */
  function IsOrderAvailable(s: Store, p: ProjectId, o: int, exclude: Option<ColumnId>): (r: bool)
    ensures r <==> forall c :: InProject(s, p, c) && exclude != Some(c) ==> s[c].order != o
  {
    !OrderHeld(s, p, o, exclude)
  }

  /** The allocator's value is always available, whatever is excluded. */
  lemma NextOrderIsAvailable(s: Store, p: ProjectId, exclude: Option<ColumnId>)
    ensures IsOrderAvailable(s, p, NextOrder(s, p), exclude)
  {
  }

  /** Only project `p` matters: adding or replacing a column of another
      project never changes the answer. */
  lemma AvailabilityIgnoresOtherProjects(s: Store, p: ProjectId, o: int, exclude: Option<ColumnId>, id: ColumnId, c: Column)
    requires c.project != p
    requires id in s ==> s[id].project != p
    ensures IsOrderAvailable(s[id := c], p, o, exclude) == IsOrderAvailable(s, p, o, exclude)
  {
    var t := s[id := c];
    if IsOrderAvailable(s, p, o, exclude) {
      forall x | InProject(t, p, x) && exclude != Some(x) ensures t[x].order != o {
        assert x != id && InProject(s, p, x);
      }
    } else {
      var x :| InProject(s, p, x) && exclude != Some(x) && s[x].order == o;
      assert x != id && InProject(t, p, x) && t[x].order == o;
    }
  }

  /** Under the index a column's own order is available to itself, so an
      update that re-sets it passes the check. */
  lemma OwnOrderAvailable(s: Store, p: ProjectId, c: ColumnId)
    requires UniqueOrders(s) && InProject(s, p, c)
    ensures IsOrderAvailable(s, p, s[c].order, Some(c))
  {
  }

  /** When the check passes for column `c`, the database accepts writing
      that order to `c`. */
  lemma AvailableOrderIsWritable(s: Store, p: ProjectId, o: int, c: ColumnId)
    requires InProject(s, p, c) && IsOrderAvailable(s, p, o, Some(c))
    ensures SetOrder(s, c, o).Ok?
  {
  }

  // ----- reorderColumns: densify one project to 0..n-1 -----

  predicate NonNegativeOrders(s: Store, p: ProjectId)
  {
    forall c :: c in s && s[c].project == p ==> s[c].order >= 0
  }

  /** What `Column.find({ project: p }).sort({ order: 1 })` returns: every
      column of `p` once, in ascending order (ties in any order). */
  predicate IsSortedListing(s: Store, p: ProjectId, listing: seq<ColumnId>)
  {
    && (forall i :: 0 <= i < |listing| ==> listing[i] in s && s[listing[i]].project == p)
    && (forall i, j :: 0 <= i < j < |listing| ==> listing[i] != listing[j])
    && (forall c :: c in s && s[c].project == p ==> c in listing)
    && (forall i, j :: 0 <= i < j < |listing| ==> s[listing[i]].order <= s[listing[j]].order)
  }

  /** The writes the repair loop issues from position `from` on: the
      column at position i receives order i when it holds another one. */
  function RepairWrites(s: Store, listing: seq<ColumnId>, from: nat): seq<(ColumnId, int)>
    requires forall i :: 0 <= i < |listing| ==> listing[i] in s
    decreases |listing| - from
  {
    if from >= |listing| then []
    else (if s[listing[from]].order != from then [(listing[from], from)] else []) + RepairWrites(s, listing, from + 1)
  }

  /** A write is issued exactly for a position whose order differs from
      the position. */
  lemma {:induction false} RepairWritesExactly(s: Store, listing: seq<ColumnId>, from: nat, c: ColumnId, o: int)
    requires forall i :: 0 <= i < |listing| ==> listing[i] in s
    ensures (c, o) in RepairWrites(s, listing, from) <==>
            (from <= o < |listing| && listing[o] == c && s[c].order != o)
    decreases |listing| - from
  {
    if from < |listing| {
      RepairWritesExactly(s, listing, from + 1, c, o);
    }
  }

  /** `t` is `s` with the column at each position i of `listing` moved to
      order i, and nothing else changed. */
  predicate Densified(s: Store, listing: seq<ColumnId>, t: Store)
    requires forall i :: 0 <= i < |listing| ==> listing[i] in s
  {
    && t.Keys == s.Keys
    && (forall i :: 0 <= i < |listing| ==> t[listing[i]] == s[listing[i]].(order := i))
    && (forall c :: c in s && c !in listing ==> t[c] == s[c])
  }

  lemma {:induction false} AtLeastIndex(s: Store, p: ProjectId, listing: seq<ColumnId>, k: nat)
    requires IsSortedListing(s, p, listing) && UniqueOrders(s) && NonNegativeOrders(s, p)
    requires k < |listing|
    ensures s[listing[k]].order >= k
    decreases k
  {
    if k > 0 {
      AtLeastIndex(s, p, listing, k - 1);
      assert s[listing[k - 1]].order != s[listing[k]].order;
    }
  }

  /** With distinct non-negative orders, the column at sorted position k
      holds an order of at least k. */
  lemma OrdersAtLeastIndex(s: Store, p: ProjectId, listing: seq<ColumnId>)
    requires IsSortedListing(s, p, listing) && UniqueOrders(s) && NonNegativeOrders(s, p)
    ensures forall k :: 0 <= k < |listing| ==> s[listing[k]].order >= k
  {
    forall k | 0 <= k < |listing| ensures s[listing[k]].order >= k {
      AtLeastIndex(s, p, listing, k);
    }
  }

  /** The write of order i to position i finds the slot free in the
      partly repaired store `t`. */
  lemma RepairSlotFree(s: Store, p: ProjectId, listing: seq<ColumnId>, t: Store, i: nat)
    requires IsSortedListing(s, p, listing) && UniqueOrders(s)
    requires i < |listing|
    requires forall k :: 0 <= k < |listing| ==> s[listing[k]].order >= k
    requires t.Keys == s.Keys
    requires forall c :: c in s && c !in listing ==> t[c] == s[c]
    requires forall k :: 0 <= k < i ==> t[listing[k]] == s[listing[k]].(order := k)
    requires forall k :: i <= k < |listing| ==> t[listing[k]] == s[listing[k]]
    ensures !OrderHeld(t, p, i, Some(listing[i]))
  {
    forall d | d in t && t[d].project == p && d != listing[i] ensures t[d].order != i {
      assert InProject(s, p, d);
      assert d in listing;
      {
        var k :| 0 <= k < |listing| && listing[k] == d;
        if k > i {
          assert s[d].order >= s[listing[i]].order >= i;
          assert s[d].order != s[listing[i]].order;
        }
      }
    }
  }

  /** `t` is `s` part-way through the repair loop: positions before `i`
      hold their index, the rest is as in `s`. */
  predicate PartlyRepaired(s: Store, listing: seq<ColumnId>, t: Store, i: nat)
    requires forall k :: 0 <= k < |listing| ==> listing[k] in s
  {
    && i <= |listing|
    && t.Keys == s.Keys
    && (forall c :: c in s && c !in listing ==> t[c] == s[c])
    && (forall k :: 0 <= k < i ==> t[listing[k]] == s[listing[k]].(order := k))
    && (forall k :: i <= k < |listing| ==> t[listing[k]] == s[listing[k]])
  }

  /** One step of the loop: giving position `i` order `i` extends the
      repaired prefix by one. */
  lemma RepairStep(s: Store, p: ProjectId, listing: seq<ColumnId>, t: Store, i: nat)
    requires IsSortedListing(s, p, listing)
    requires PartlyRepaired(s, listing, t, i) && i < |listing|
    ensures PartlyRepaired(s, listing, t[listing[i] := t[listing[i]].(order := i)], i + 1)
  {
    var c := listing[i];
    var t' := t[c := t[c].(order := i)];
    forall k | 0 <= k < |listing| && k != i ensures listing[k] != c {
    }
  }

  /** Peeling one position off the outstanding writes. */
  lemma RepairWritesStep(s: Store, listing: seq<ColumnId>, i: nat, done: seq<(ColumnId, int)>)
    requires forall k :: 0 <= k < |listing| ==> listing[k] in s
    requires i < |listing|
    requires done + RepairWrites(s, listing, i) == RepairWrites(s, listing, 0)
    ensures s[listing[i]].order != i ==>
              (done + [(listing[i], i)]) + RepairWrites(s, listing, i + 1) == RepairWrites(s, listing, 0)
    ensures s[listing[i]].order == i ==>
              done + RepairWrites(s, listing, i + 1) == RepairWrites(s, listing, 0)
  {
    var rest := RepairWrites(s, listing, i + 1);
    var head: seq<(ColumnId, int)> := if s[listing[i]].order != i then [(listing[i], i)] else [];
    assert RepairWrites(s, listing, i) == head + rest;
    ConcatAssociates(done, head, rest);
    assert s[listing[i]].order == i ==> done + head == done;
  }

  lemma ConcatAssociates<T>(a: seq<T>, b: seq<T>, c: seq<T>)
    ensures (a + b) + c == a + (b + c)
  {
  }

  /** A full pass is a densification. */
  lemma RepairedIsDensified(s: Store, listing: seq<ColumnId>, t: Store)
    requires forall k :: 0 <= k < |listing| ==> listing[k] in s
    requires PartlyRepaired(s, listing, t, |listing|)
    ensures Densified(s, listing, t)
  {
  }

  /** `reorderColumns`: walk the sorted listing and give position i order i
      wherever it differs. Every write goes through the unique index; the
      first rejected write stops the loop (`failure`), leaving `t` partly
      repaired. From a store whose orders in `p` are distinct and
      non-negative no write is rejected. */
  method ReorderColumns(s: Store, p: ProjectId, listing: seq<ColumnId>)
    returns (t: Store, failure: Option<DbError>, writes: seq<(ColumnId, int)>)
    requires IsSortedListing(s, p, listing)
    ensures failure.None? ==> Densified(s, listing, t)
    ensures failure.None? ==> writes == RepairWrites(s, listing, 0)
    ensures UniqueOrders(s) && NonNegativeOrders(s, p) ==> failure.None? && UniqueOrders(t)
  {
    t := s;
    failure := None;
    writes := [];
    var good := UniqueOrders(s) && NonNegativeOrders(s, p);
    var i := 0;
    while i < |listing|
      invariant RepairLoop(s, listing, t, i, writes, good)
    {
      var c := listing[i];
      if t[c].order != i {
        var res := SetOrder(t, c, i);
        RepairWrite(s, p, listing, t, i, writes, good);
        if res.Err? {
          failure := Some(res.error);
          return;
        }
        t := res.value;
        writes := writes + [(c, i)];
      } else {
        RepairKeep(s, p, listing, t, i, writes, good);
      }
      i := i + 1;
    }
    RepairedIsDensified(s, listing, t);
    assert RepairWrites(s, listing, |listing|) == [];
  }

  /** The repair loop's invariant: the first `i` positions repaired, the
      writes so far a prefix of the full list, and a clean store kept
      clean. */
  predicate RepairLoop(s: Store, listing: seq<ColumnId>, t: Store, i: nat, writes: seq<(ColumnId, int)>, good: bool)
    requires forall k :: 0 <= k < |listing| ==> listing[k] in s
  {
    && PartlyRepaired(s, listing, t, i)
    && writes + RepairWrites(s, listing, i) == RepairWrites(s, listing, 0)
    && (good ==> UniqueOrders(t))
  }

  /** A loop round where position `i` already holds order `i`: nothing is
      written and the repaired prefix grows by one. */
  lemma RepairKeep(s: Store, p: ProjectId, listing: seq<ColumnId>, t: Store, i: nat, writes: seq<(ColumnId, int)>, good: bool)
    requires IsSortedListing(s, p, listing)
    requires RepairLoop(s, listing, t, i, writes, good) && i < |listing|
    requires t[listing[i]].order == i
    ensures RepairLoop(s, listing, t, i + 1, writes, good)
  {
    var c := listing[i];
    assert t[c] == s[c];
    RepairWritesStep(s, listing, i, writes);
    RepairStep(s, p, listing, t, i);
    assert t[c := t[c].(order := i)] == t;
  }

  /** A loop round where position `i` needs order `i`: from a clean store
      the write is accepted, and an accepted write grows the repaired
      prefix and the list of writes by one. */
  lemma RepairWrite(s: Store, p: ProjectId, listing: seq<ColumnId>, t: Store, i: nat, writes: seq<(ColumnId, int)>, good: bool)
    requires IsSortedListing(s, p, listing)
    requires RepairLoop(s, listing, t, i, writes, good) && i < |listing|
    requires t[listing[i]].order != i
    requires good ==> UniqueOrders(s) && NonNegativeOrders(s, p)
    ensures good ==> SetOrder(t, listing[i], i).Ok?
    ensures SetOrder(t, listing[i], i).Ok? ==>
              RepairLoop(s, listing, SetOrder(t, listing[i], i).value, i + 1, writes + [(listing[i], i)], good)
  {
    var c := listing[i];
    assert t[c] == s[c];
    RepairWritesStep(s, listing, i, writes);
    if good {
      OrdersAtLeastIndex(s, p, listing);
      RepairSlotFree(s, p, listing, t, i);
    }
    RepairStep(s, p, listing, t, i);
  }

  lemma {:induction false} NoRepairWritesWhenDense(s: Store, listing: seq<ColumnId>, from: nat)
    requires forall i :: 0 <= i < |listing| ==> listing[i] in s && s[listing[i]].order == i
    ensures RepairWrites(s, listing, from) == []
    decreases |listing| - from
  {
    if from < |listing| {
      NoRepairWritesWhenDense(s, listing, from + 1);
    }
  }

  lemma {:induction false} DistinctCard<T>(xs: seq<T>)
    requires forall i, j :: 0 <= i < j < |xs| ==> xs[i] != xs[j]
    ensures |set x | x in xs| == |xs|
  {
    if |xs| > 0 {
      var last := xs[|xs| - 1];
      var init := xs[..|xs| - 1];
      DistinctCard(init);
      assert (set x | x in xs) == (set x | x in init) + {last};
      assert last !in (set x | x in init);
    }
  }

  lemma {:induction false} StrictlyIncreasingBetween(v: seq<int>, n: nat, k: nat)
    requires |v| == n && k < n
    requires forall i, j :: 0 <= i < j < n ==> v[i] < v[j]
    requires forall i :: 0 <= i < n ==> 0 <= v[i] < n
    ensures v[k] == k
  {
    forall m | 0 <= m < n ensures v[m] >= m {
      StrictlyIncreasingFloor(v, n, m);
    }
    forall m | 0 <= m < n ensures v[m] <= m {
      StrictlyIncreasingCeil(v, n, m);
    }
  }

  lemma {:induction false} StrictlyIncreasingFloor(v: seq<int>, n: nat, m: nat)
    requires |v| == n && m < n
    requires forall i, j :: 0 <= i < j < n ==> v[i] < v[j]
    requires forall i :: 0 <= i < n ==> 0 <= v[i]
    ensures v[m] >= m
    decreases m
  {
    if m > 0 {
      StrictlyIncreasingFloor(v, n, m - 1);
    }
  }

  lemma {:induction false} StrictlyIncreasingCeil(v: seq<int>, n: nat, m: nat)
    requires |v| == n && m < n
    requires forall i, j :: 0 <= i < j < n ==> v[i] < v[j]
    requires forall i :: 0 <= i < n ==> v[i] < n
    ensures v[m] <= m
    decreases n - m
  {
    if m < n - 1 {
      StrictlyIncreasingCeil(v, n, m + 1);
    }
  }

  /** Repair is idempotent: once densified, the project is listed in the
      same order by any sorted query (the listing is unique), and a second
      run issues no write. */
  lemma RepairIdempotent(s: Store, p: ProjectId, listing: seq<ColumnId>, t: Store)
    requires IsSortedListing(s, p, listing) && Densified(s, listing, t)
    ensures IsSortedListing(t, p, listing)
    ensures RepairWrites(t, listing, 0) == []
    ensures forall other :: IsSortedListing(t, p, other) ==> other == listing
  {
    NoRepairWritesWhenDense(t, listing, 0);
    forall other | IsSortedListing(t, p, other) ensures other == listing {
      SortedListingOfDenseIsUnique(s, p, listing, t, other);
    }
  }

  /** Two duplicate-free sequences with the same elements have the same
      length. */
  lemma SameElementsSameLength<T>(a: seq<T>, b: seq<T>)
    requires forall i, j :: 0 <= i < j < |a| ==> a[i] != a[j]
    requires forall i, j :: 0 <= i < j < |b| ==> b[i] != b[j]
    requires forall x :: x in a <==> x in b
    ensures |a| == |b|
  {
    assert (set x | x in a) == (set x | x in b);
    DistinctCard(a);
    DistinctCard(b);
  }

  /** After densifying, the project consists of the listed columns, and
      the column at position k holds order k. */
  lemma DenseFacts(s: Store, p: ProjectId, listing: seq<ColumnId>, t: Store)
    requires IsSortedListing(s, p, listing) && Densified(s, listing, t)
    ensures forall k :: 0 <= k < |listing| ==> InProject(t, p, listing[k]) && t[listing[k]].order == k
    ensures forall c :: c in t && t[c].project == p ==> c in listing
  {
  }

  /** In the densified store, a sorted listing's orders are strictly
      increasing and lie in 0..n-1. */
  lemma OtherListingOrders(s: Store, p: ProjectId, listing: seq<ColumnId>, t: Store, other: seq<ColumnId>)
    requires forall k :: 0 <= k < |listing| ==> InProject(t, p, listing[k]) && t[listing[k]].order == k
    requires forall c :: c in t && t[c].project == p ==> c in listing
    requires IsSortedListing(t, p, other)
    ensures forall i :: 0 <= i < |other| ==> 0 <= t[other[i]].order < |listing|
    ensures forall i, j :: 0 <= i < j < |other| ==> t[other[i]].order < t[other[j]].order
  {
    forall i | 0 <= i < |other| ensures 0 <= t[other[i]].order < |listing| {
      assert other[i] in listing;
    }
    forall i, j | 0 <= i < j < |other| ensures t[other[i]].order < t[other[j]].order {
      assert other[i] in listing && other[j] in listing;
      var ki :| 0 <= ki < |listing| && listing[ki] == other[i];
      var kj :| 0 <= kj < |listing| && listing[kj] == other[j];
      assert ki != kj;
    }
  }

  lemma SortedListingOfDenseIsUnique(s: Store, p: ProjectId, listing: seq<ColumnId>, t: Store, other: seq<ColumnId>)
    requires IsSortedListing(s, p, listing) && Densified(s, listing, t)
    requires IsSortedListing(t, p, other)
    ensures other == listing
  {
    DenseFacts(s, p, listing, t);
    var n := |listing|;
    assert forall x :: x in other <==> x in listing;
    SameElementsSameLength(other, listing);
    OtherListingOrders(s, p, listing, t, other);
    var v := seq(n, i requires 0 <= i < n => t[other[i]].order);
    forall k | 0 <= k < n ensures other[k] == listing[k] {
      StrictlyIncreasingBetween(v, n, k);
      assert other[k] in listing;
      var m :| 0 <= m < n && listing[m] == other[k];
    }
  }

  // ----- insertColumnAtOrder -----

  /** What `Column.find({ project: p, order: { $gte: target }, _id: { $ne: cid } }).sort({ order: 1 })`
      returns. */
  predicate IsShiftListing(s: Store, p: ProjectId, cid: ColumnId, target: int, xs: seq<ColumnId>)
  {
    && (forall i :: 0 <= i < |xs| ==> InProject(s, p, xs[i]) && s[xs[i]].order >= target && xs[i] != cid)
    && (forall i, j :: 0 <= i < j < |xs| ==> xs[i] != xs[j])
    && (forall c :: c in s && s[c].project == p && s[c].order >= target && c != cid ==> c in xs)
    && (forall i, j :: 0 <= i < j < |xs| ==> s[xs[i]].order <= s[xs[j]].order)
  }

  /** The shift loop: each listed column gets its fetched order plus one,
      in listing order, each write checked by the index. */
  function ShiftAll(s0: Store, t: Store, xs: seq<ColumnId>): (r: Result<Store, DbError>)
    requires forall i :: 0 <= i < |xs| ==> xs[i] in s0 && xs[i] in t
    ensures r.Ok? ==> r.value.Keys == t.Keys
    ensures r.Ok? ==> forall c :: c in t ==> r.value[c] == if c in xs then t[c].(order := s0[c].order + 1) else t[c]
    decreases |xs|
  {
    if xs == [] then Ok(t)
    else
      match SetOrder(t, xs[0], s0[xs[0]].order + 1)
      case Err(e) => Err(e)
      case Ok(t') => ShiftAll(s0, t', xs[1..])
  }

  /** The state `insertColumnAtOrder` aims for: `cid` at `target`, every
      other column of `p` at or above `target` one higher, the rest as is. */
  function InsertOutcome(s: Store, p: ProjectId, cid: ColumnId, target: int): (t: Store)
    ensures t.Keys == s.Keys
  {
    map c | c in s ::
      if c == cid then s[c].(order := target)
      else if s[c].project == p && s[c].order >= target then s[c].(order := s[c].order + 1)
      else s[c]
  }

  /** The aimed-for state respects the index whenever the start state does. */
  lemma InsertOutcomeUnique(s: Store, p: ProjectId, cid: ColumnId, target: int)
    requires UniqueOrders(s) && InProject(s, p, cid)
    ensures UniqueOrders(InsertOutcome(s, p, cid, target))
  {
  }

  /** `insertColumnAtOrder`: shift in ascending order, then set `cid`. When
      every write is accepted the result is exactly `InsertOutcome`. */
  function InsertColumnAtOrder(s: Store, p: ProjectId, cid: ColumnId, target: int, xs: seq<ColumnId>): (r: Result<Store, DbError>)
    requires IsShiftListing(s, p, cid, target, xs)
    ensures r.Ok? && InProject(s, p, cid) ==> r.value == InsertOutcome(s, p, cid, target)
  {
    match ShiftAll(s, s, xs)
    case Err(e) => Err(e)
    case Ok(t) =>
      var r := SetOrder(t, cid, target);
      if r.Ok? && InProject(s, p, cid) then
        ShiftedThenSetIsOutcome(s, p, cid, target, xs, t, r.value);
        r
      else r
  }

  lemma ShiftedThenSetIsOutcome(s: Store, p: ProjectId, cid: ColumnId, target: int, xs: seq<ColumnId>, t: Store, u: Store)
    requires IsShiftListing(s, p, cid, target, xs) && InProject(s, p, cid)
    requires t.Keys == s.Keys
    requires forall c :: c in s ==> t[c] == if c in xs then s[c].(order := s[c].order + 1) else s[c]
    requires u == t[cid := t[cid].(order := target)]
    ensures u == InsertOutcome(s, p, cid, target)
  {
    var o := InsertOutcome(s, p, cid, target);
    assert cid !in xs;
    forall c | c in s ensures u[c] == o[c] {
      if c != cid && c in xs {
        var k :| 0 <= k < |xs| && xs[k] == c;
      }
    }
    assert u.Keys == o.Keys;
  }

  /** The example project's id: twelve characters, which the database
      accepts as an ObjectId. */
  const Board: ProjectId := "board0000001"

  /** A dense project `Board` with columns at orders 0, 1 and 2. */
  function ThreeColumns(): Store
  {
    map["a" := Column(Board, "Todo", 0), "b" := Column(Board, "Doing", 1), "c" := Column(Board, "Done", 2)]
  }

  lemma ThreeColumnsValid()
    ensures UniqueOrders(ThreeColumns())
    ensures IsShiftListing(ThreeColumns(), Board, "c", 0, ["a", "b"])
  {
    var s := ThreeColumns();
    assert s.Keys == {"a", "b", "c"};
  }

  /** The ascending shift collides mid-way: in a dense project 0, 1, 2,
      moving the last column to 0 first shifts order 0 onto order 1,
      which is still taken, although the aimed-for state is valid. */
  lemma AscendingShiftCollides()
    ensures UniqueOrders(ThreeColumns())
    ensures IsShiftListing(ThreeColumns(), Board, "c", 0, ["a", "b"])
    ensures UniqueOrders(InsertOutcome(ThreeColumns(), Board, "c", 0))
    ensures InsertColumnAtOrder(ThreeColumns(), Board, "c", 0, ["a", "b"]) == Err(DuplicateKey(Board, 1))
  {
    var s := ThreeColumns();
    ThreeColumnsValid();
    assert s["a"] == Column(Board, "Todo", 0);
    assert s["b"] == Column(Board, "Doing", 1);
    assert OrderHeld(s, Board, 1, Some("a")) by {
      assert s["b"].project == Board && s["b"].order == 1 && "b" != "a";
    }
    FirstShiftCollides(s, s, ["a", "b"]);
    InsertOutcomeUnique(s, Board, "c", 0);
  }

  /** When the first shift lands on a taken order, the whole shift fails
      there, with that project and order. */
  lemma FirstShiftCollides(s0: Store, t: Store, xs: seq<ColumnId>)
    requires forall i :: 0 <= i < |xs| ==> xs[i] in s0 && xs[i] in t
    requires |xs| >= 1 && OrderHeld(t, t[xs[0]].project, s0[xs[0]].order + 1, Some(xs[0]))
    ensures ShiftAll(s0, t, xs) == Err(DuplicateKey(t[xs[0]].project, s0[xs[0]].order + 1))
  {
  }

  /** Under the index, a shift listing is strictly increasing in order. */
  lemma ShiftListingIncreases(s: Store, p: ProjectId, cid: ColumnId, target: int, xs: seq<ColumnId>, i: int, j: int)
    requires IsShiftListing(s, p, cid, target, xs) && UniqueOrders(s)
    requires 0 <= i < j < |xs|
    ensures s[xs[i]].order < s[xs[j]].order
  {
  }

  /** An element past position `m` is in the suffix after `m`. */
  lemma BeforeSuffix(xs: seq<ColumnId>, m: nat, k: nat)
    requires m < |xs| && k < |xs|
    ensures k > m ==> xs[k] in xs[m + 1..]
  {
    if k > m {
      assert xs[m + 1..][k - m - 1] == xs[k];
    }
  }

  /** The state after parking `cid` and shifting the columns from
      position `m` of the listing on. */
  predicate ShiftedFrom(s: Store, cid: ColumnId, park: int, xs: seq<ColumnId>, t: Store, m: nat)
    requires m <= |xs|
  {
    && t.Keys == s.Keys
    && forall c :: c in s ==>
         t[c] == if c in xs[m..] then s[c].(order := s[c].order + 1)
                 else if c == cid then s[c].(order := park)
                 else s[c]
  }

  /** Moving the next column down by its one step extends the shifted
      part of the listing by one position. */
  lemma ShiftedStep(s: Store, p: ProjectId, cid: ColumnId, target: int, park: int, xs: seq<ColumnId>, t: Store, m: nat)
    requires IsShiftListing(s, p, cid, target, xs)
    requires m < |xs| && ShiftedFrom(s, cid, park, xs, t, m + 1)
    ensures ShiftedFrom(s, cid, park, xs, t[xs[m] := t[xs[m]].(order := s[xs[m]].order + 1)], m)
  {
    assert forall c :: c in xs[m..] <==> c == xs[m] || c in xs[m + 1..];
    assert xs[m] !in xs[m + 1..];
  }

  /** The next column down can move up by one: its new order is free. */
  lemma ParkedShiftFree(s: Store, p: ProjectId, cid: ColumnId, target: int, xs: seq<ColumnId>, t: Store, m: nat)
    requires IsShiftListing(s, p, cid, target, xs) && UniqueOrders(s) && InProject(s, p, cid)
    requires m < |xs| && ShiftedFrom(s, cid, NextOrder(s, p) + 1, xs, t, m + 1)
    ensures !OrderHeld(t, p, s[xs[m]].order + 1, Some(xs[m]))
  {
    var o := s[xs[m]].order;
    forall c | c in t && t[c].project == p && c != xs[m]
      ensures t[c].order != o + 1
    {
      if c in xs[m + 1..] {
        var k :| m + 1 <= k < |xs| && xs[k] == c;
        ShiftListingIncreases(s, p, cid, target, xs, m, k);
      } else if c != cid && c in xs {
        var k :| 0 <= k < |xs| && xs[k] == c;
        BeforeSuffix(xs, m, k);
        ShiftListingIncreases(s, p, cid, target, xs, k, m);
      }
    }
  }

  /** Once every listed column moved up, `target` is free for `cid`. */
  lemma ParkedTargetFree(s: Store, p: ProjectId, cid: ColumnId, target: int, xs: seq<ColumnId>, t: Store)
    requires IsShiftListing(s, p, cid, target, xs) && InProject(s, p, cid)
    requires ShiftedFrom(s, cid, NextOrder(s, p) + 1, xs, t, 0)
    ensures !OrderHeld(t, p, target, Some(cid))
    ensures t[cid := t[cid].(order := target)] == InsertOutcome(s, p, cid, target)
  {
    assert xs[0..] == xs;
    forall c | c in t && t[c].project == p && c != cid
      ensures t[c].order != target
    {
      if c in xs {
        var k :| 0 <= k < |xs| && xs[k] == c;
      }
    }
    var u := t[cid := t[cid].(order := target)];
    var goal := InsertOutcome(s, p, cid, target);
    forall c | c in s ensures u[c] == goal[c] {
      if c != cid && c in xs {
        var k :| 0 <= k < |xs| && xs[k] == c;
      }
    }
    assert u.Keys == goal.Keys;
  }

  /** `insertColumnAtOrder` with writes the index accepts: park `cid`
      above the project's highest order, shift the listed columns from the
      top down, then place `cid`. From a state that respects the index it
      reaches exactly the aimed-for state. */
  method InsertColumnAtOrderParked(s: Store, p: ProjectId, cid: ColumnId, target: int, xs: seq<ColumnId>)
    returns (r: Result<Store, DbError>)
    requires IsShiftListing(s, p, cid, target, xs)
    ensures UniqueOrders(s) && InProject(s, p, cid) ==> r == Ok(InsertOutcome(s, p, cid, target))
    ensures UniqueOrders(s) && InProject(s, p, cid) ==> UniqueOrders(r.value)
  {
    var good := UniqueOrders(s) && InProject(s, p, cid);
    var park := NextOrder(s, p) + 1;
    var first := SetOrder(s, cid, park);
    ParkRound(s, p, cid, target, xs, good);
    if first.Err? {
      return first;
    }
    var shifted := ShiftDown(s, p, cid, target, xs, first.value, good);
    if shifted.Err? {
      return shifted;
    }
    PlaceRound(s, p, cid, target, xs, shifted.value, good);
    r := SetOrder(shifted.value, cid, target);
  }

  /** The shift loop of the parked insertion: from the top of the listing
      down, each column moves up by one. From a clean store every write
      is accepted; whatever succeeds has every listed column shifted. */
  method ShiftDown(s: Store, p: ProjectId, cid: ColumnId, target: int, xs: seq<ColumnId>, t0: Store, good: bool)
    returns (r: Result<Store, DbError>)
    requires IsShiftListing(s, p, cid, target, xs)
    requires ShiftedFrom(s, cid, NextOrder(s, p) + 1, xs, t0, |xs|)
    requires good ==> UniqueOrders(s) && InProject(s, p, cid)
    ensures good ==> r.Ok?
    ensures r.Ok? ==> ShiftedFrom(s, cid, NextOrder(s, p) + 1, xs, r.value, 0)
  {
    var t := t0;
    var m := |xs|;
    while m > 0
      invariant 0 <= m <= |xs|
      invariant ShiftedFrom(s, cid, NextOrder(s, p) + 1, xs, t, m)
    {
      m := m - 1;
      var step := SetOrder(t, xs[m], s[xs[m]].order + 1);
      ShiftRound(s, p, cid, target, xs, t, m, good);
      if step.Err? {
        return step;
      }
      t := step.value;
    }
    r := Ok(t);
  }

  /** Parking `cid` above the highest order is accepted from a clean
      store, and leaves every listed column still to shift. */
  lemma ParkRound(s: Store, p: ProjectId, cid: ColumnId, target: int, xs: seq<ColumnId>, good: bool)
    requires IsShiftListing(s, p, cid, target, xs)
    requires good ==> UniqueOrders(s) && InProject(s, p, cid)
    ensures good ==> SetOrder(s, cid, NextOrder(s, p) + 1).Ok?
    ensures SetOrder(s, cid, NextOrder(s, p) + 1).Ok? ==>
              ShiftedFrom(s, cid, NextOrder(s, p) + 1, xs, SetOrder(s, cid, NextOrder(s, p) + 1).value, |xs|)
  {
    var park := NextOrder(s, p) + 1;
    assert good ==> !OrderHeld(s, p, park, Some(cid));
    assert xs[|xs|..] == [];
  }

  /** Shifting the column at `m` is accepted from a clean store, and
      extends the shifted suffix down to `m`. */
  lemma ShiftRound(s: Store, p: ProjectId, cid: ColumnId, target: int, xs: seq<ColumnId>, t: Store, m: nat, good: bool)
    requires IsShiftListing(s, p, cid, target, xs)
    requires m < |xs| && ShiftedFrom(s, cid, NextOrder(s, p) + 1, xs, t, m + 1)
    requires good ==> UniqueOrders(s) && InProject(s, p, cid)
    ensures good ==> SetOrder(t, xs[m], s[xs[m]].order + 1).Ok?
    ensures SetOrder(t, xs[m], s[xs[m]].order + 1).Ok? ==>
              ShiftedFrom(s, cid, NextOrder(s, p) + 1, xs, SetOrder(t, xs[m], s[xs[m]].order + 1).value, m)
  {
    if good {
      ParkedShiftFree(s, p, cid, target, xs, t, m);
    }
    ShiftedStep(s, p, cid, target, NextOrder(s, p) + 1, xs, t, m);
  }

  /** With every listed column shifted, placing `cid` at `target` from a
      clean store is accepted and gives the aimed-for state. */
  lemma PlaceRound(s: Store, p: ProjectId, cid: ColumnId, target: int, xs: seq<ColumnId>, t: Store, good: bool)
    requires IsShiftListing(s, p, cid, target, xs)
    requires ShiftedFrom(s, cid, NextOrder(s, p) + 1, xs, t, 0)
    requires good ==> UniqueOrders(s) && InProject(s, p, cid)
    ensures good ==> SetOrder(t, cid, target) == Ok(InsertOutcome(s, p, cid, target))
    ensures good ==> UniqueOrders(InsertOutcome(s, p, cid, target))
  {
    if good {
      ParkedTargetFree(s, p, cid, target, xs, t);
      InsertOutcomeUnique(s, p, cid, target);
    }
  }

  /** On the dense three-column project where the ascending shift fails,
      the parked version moves the last column to the front. */
  lemma ParkedShiftSucceedsOnExample(s: Store)
    requires s == ThreeColumns()
    ensures UniqueOrders(s) && InProject(s, Board, "c") && IsShiftListing(s, Board, "c", 0, ["a", "b"])
    ensures InsertOutcome(s, Board, "c", 0) == map["a" := Column(Board, "Todo", 1), "b" := Column(Board, "Doing", 2), "c" := Column(Board, "Done", 0)]
  {
    ThreeColumnsValid();
    var t := InsertOutcome(s, Board, "c", 0);
    assert s.Keys == {"a", "b", "c"};
    assert t["a"] == Column(Board, "Todo", 1);
    assert t["b"] == Column(Board, "Doing", 2);
    assert t["c"] == Column(Board, "Done", 0);
    ThreeColumnsAt(t, 1, 2, 0);
  }

  /** Inserting `c` at 0 on the example board through the parked shift:
      every write is accepted and the board ends at `c`=0, `a`=1, `b`=2. */
  method ParkedShiftOnExample() returns (r: Result<Store, DbError>)
    ensures r == Ok(map["a" := Column(Board, "Todo", 1), "b" := Column(Board, "Doing", 2), "c" := Column(Board, "Done", 0)])
  {
    var s := ThreeColumns();
    ParkedShiftSucceedsOnExample(s);
    r := InsertColumnAtOrderParked(s, Board, "c", 0, ["a", "b"]);
  }

  /** A store of the three example columns is determined by their orders. */
  lemma ThreeColumnsAt(t: Store, a: int, b: int, c: int)
    requires t.Keys == {"a", "b", "c"}
    requires t["a"] == Column(Board, "Todo", a) && t["b"] == Column(Board, "Doing", b) && t["c"] == Column(Board, "Done", c)
    ensures t == map["a" := Column(Board, "Todo", a), "b" := Column(Board, "Doing", b), "c" := Column(Board, "Done", c)]
  {
  }
}

=== FILE: error_handler.dfy ===
/** The API's last-resort error middleware (`errorHandler`) and its 404
    fallback (`notFoundHandler`): a thrown error becomes one JSON response,
    chosen by a fixed ladder of tests on the error's `code`, `name` and
    `statusCode`. */
module ErrorHandler {
  import opened Wrappers
  import opened Strings
  import ColumnModel

  /** The JavaScript values a driver error can carry in `code` or in the
      fields of `keyValue`. An ObjectId is an object. */
  datatype JsValue =
    | Undefined
    | Null
    | Bool(b: bool)
    | Num(n: int)
    | Str(s: string)
    | Obj

  /** JavaScript truthiness. */
  predicate Truthy(v: JsValue)
  {
    match v
    case Undefined => false
    case Null => false
    case Bool(b) => b
    case Num(n) => n != 0
    case Str(s) => s != ""
    case Obj => true
  }

  /** A `keyValue` object: its own properties in insertion order. */
  type KeyValue = seq<(string, JsValue)>

  /** `keyValue[key]`: the property's value, `undefined` when absent. */
  function Get(kv: KeyValue, key: string): (r: JsValue)
    ensures r != Undefined ==> exists i :: 0 <= i < |kv| && kv[i] == (key, r)
    ensures (forall i :: 0 <= i < |kv| ==> kv[i].0 != key) ==> r == Undefined
  {
    if kv == [] then Undefined
    else if kv[0].0 == key then kv[0].1
    else Get(kv[1..], key)
  }

  /** `Object.keys(keyValue)`. */
  function Keys(kv: KeyValue): (r: seq<string>)
    ensures |r| == |kv| && forall i :: 0 <= i < |kv| ==> r[i] == kv[i].0
  {
    seq(|kv|, i requires 0 <= i < |kv| => kv[i].0)
  }

  /** `${v}`: how a template literal shows a value. */
  function Show(v: JsValue): string
  {
    match v
    case Undefined => "undefined"
    case Null => "null"
    case Bool(b) => if b then "true" else "false"
    case Num(n) => IntToString(n)
    case Str(s) => s
    case Obj => "[object Object]"
  }

  /** The `AppError` the handler receives: an `Error` with optional
      `statusCode`, `code` and `keyValue`. */
  datatype AppError = AppError(
    name: string,
    message: string,
    statusCode: Option<int>,
    code: JsValue,
    keyValue: Option<KeyValue>)

  /** The extra fields a response body may carry. */
  datatype Extra =
    | NoExtra
    | ConflictingOrder(order: JsValue)
    | ConflictingFields(fields: seq<string>)
    | FieldErrors(details: map<string, string>)

  datatype Body = Body(message: string, error: Option<string>, suggestion: Option<string>, extra: Extra)

  datatype Response = Response(status: int, body: Body)

  /** `err.code === 11000`: strict equality, so only the number matches. */
  predicate IsDuplicateKey(err: AppError)
  {
    err.code == Num(11000)
  }

  /** The `(project, order)` index was hit: `project` truthy and `order`
      present, whatever its value. */
  predicate NamesOrder(kv: KeyValue)
  {
    Truthy(Get(kv, "project")) && Get(kv, "order") != Undefined
  }

  /** The 409 body of a duplicate-key error, chosen by which keys collided. */
  function DuplicateKeyResponse(keyValue: Option<KeyValue>): (r: Response)
    ensures r.status == 409
    ensures r.body.error.None? <==> keyValue.None?
    ensures r.body.error == Some("DUPLICATE_ORDER") <==> keyValue.Some? && NamesOrder(keyValue.value)
    ensures r.body.error == Some("DUPLICATE_ORDER") ==> r.body.extra == ConflictingOrder(Get(keyValue.value, "order"))
    ensures r.body.error == Some("DUPLICATE_EMAIL") <==>
              keyValue.Some? && !NamesOrder(keyValue.value) && Truthy(Get(keyValue.value, "email"))
    ensures r.body.error == Some("DUPLICATE_KEY") <==>
              keyValue.Some? && !NamesOrder(keyValue.value) && !Truthy(Get(keyValue.value, "email"))
    ensures r.body.error == Some("DUPLICATE_KEY") ==> r.body.extra == ConflictingFields(Keys(keyValue.value))
  {
    match keyValue
    case None => Response(409, Body("Duplicate key error", None, None, NoExtra))
    case Some(kv) =>
      if NamesOrder(kv) then
        var order := Get(kv, "order");
        Response(409, Body("Column with order " + Show(order) + " already exists in this project", Some("DUPLICATE_ORDER"),
                           Some("Choose a different order or let the system assign one automatically"), ConflictingOrder(order)))
      else if Truthy(Get(kv, "email")) then
        Response(409, Body("User with this email already exists", Some("DUPLICATE_EMAIL"),
                           Some("Use a different email address or try logging in"), NoExtra))
      else
        Response(409, Body("Duplicate key constraint violation", Some("DUPLICATE_KEY"), None, ConflictingFields(Keys(kv))))
  }

  /** `\w`. */
  predicate IsWordChar(c: char)
  {
    ('a' <= c <= 'z') || ('A' <= c <= 'Z') || ('0' <= c <= '9') || c == '_'
  }

  predicate AllWord(s: string)
  {
    forall i :: 0 <= i < |s| ==> IsWordChar(s[i])
  }

  const PathOpen: string := "Path `"
  const PathClose: string := "` is required"

  /** ``Path `f` is required`` starts at position `i` of `msg`, with `f` a
      non-empty run of word characters: a match of the handler's pattern. */
  predicate RequiredAt(msg: string, i: int, f: string)
  {
    |f| >= 1 && AllWord(f) && OccursAt(msg, PathOpen + f + PathClose, i)
  }

  /** The longest run of word characters starting at `j`. */
  function WordRun(s: string, j: nat): (n: nat)
    requires j <= |s|
    ensures j + n <= |s| && AllWord(s[j..j + n])
    ensures j + n == |s| || !IsWordChar(s[j + n])
    decreases |s| - j
  {
    if j < |s| && IsWordChar(s[j]) then
      var k := WordRun(s, j + 1);
      assert s[j..j + 1 + k] == [s[j]] + s[j + 1..j + 1 + k];
      1 + k
    else 0
  }

  /** A word followed by a non-word character is exactly the run there. */
  lemma {:induction false} RunOfWord(s: string, j: nat, f: string)
    requires j + |f| < |s| && s[j..j + |f|] == f && AllWord(f) && !IsWordChar(s[j + |f|])
    ensures WordRun(s, j) == |f|
    decreases |f|
  {
    if |f| > 0 {
      assert s[j] == f[0];
      assert s[j + 1..j + 1 + |f[1..]|] == f[1..];
      RunOfWord(s, j + 1, f[1..]);
    }
  }

  /** The pattern tried at position `i` alone (the greedy `\w+`). */
  function MatchAt(msg: string, i: nat): (r: Option<string>)
    requires i <= |msg|
    ensures r.Some? ==> RequiredAt(msg, i, r.value)
    ensures r.None? ==> forall f :: !RequiredAt(msg, i, f)
  {
    if OccursAt(msg, PathOpen, i) then
      var n := WordRun(msg, i + |PathOpen|);
      var f := msg[i + |PathOpen|..i + |PathOpen| + n];
      if n >= 1 && OccursAt(msg, PathClose, i + |PathOpen| + n) then
        PiecesMatch(msg, i, f);
        Some(f)
      else
        NoMatchAt(msg, i);
        None
    else
      NoMatchAt(msg, i);
      None
  }

  /** The opening text, a word and the closing text found in a row make a
      match. */
  lemma PiecesMatch(msg: string, i: nat, f: string)
    requires |f| >= 1 && AllWord(f)
    requires OccursAt(msg, PathOpen, i)
    requires i + |PathOpen| + |f| <= |msg| && msg[i + |PathOpen|..i + |PathOpen| + |f|] == f
    requires OccursAt(msg, PathClose, i + |PathOpen| + |f|)
    ensures RequiredAt(msg, i, f)
  {
    var j := i + |PathOpen|;
    var k := j + |f|;
    assert msg[i..k + |PathClose|] == msg[i..j] + msg[j..k] + msg[k..k + |PathClose|];
  }

  /** When the greedy attempt at `i` fails, no word can match there. */
  lemma NoMatchAt(msg: string, i: nat)
    requires i <= |msg|
    requires !OccursAt(msg, PathOpen, i)
             || var n := WordRun(msg, i + |PathOpen|); n < 1 || !OccursAt(msg, PathClose, i + |PathOpen| + n)
    ensures forall f :: !RequiredAt(msg, i, f)
  {
    forall f ensures !RequiredAt(msg, i, f) {
      RequiredIsGreedyRun(msg, i, f);
    }
  }

  /** A match at `i` is what the greedy attempt finds there: the opening
      text, a word run of exactly the field's length, the closing text. */
  lemma RequiredIsGreedyRun(msg: string, i: nat, f: string)
    requires i <= |msg|
    ensures RequiredAt(msg, i, f) ==>
              && OccursAt(msg, PathOpen, i)
              && WordRun(msg, i + |PathOpen|) == |f| >= 1
              && msg[i + |PathOpen|..i + |PathOpen| + |f|] == f
              && OccursAt(msg, PathClose, i + |PathOpen| + |f|)
  {
    if RequiredAt(msg, i, f) {
      var whole := PathOpen + f + PathClose;
      var j := i + |PathOpen|;
      assert msg[i..i + |whole|] == whole;
      assert msg[i..j] == whole[..|PathOpen|] == PathOpen;
      assert msg[j..j + |f|] == whole[|PathOpen|..|PathOpen| + |f|] == f;
      assert msg[j + |f|..j + |f| + |PathClose|] == whole[|PathOpen| + |f|..] == PathClose;
      assert msg[j + |f|] == '`';
      RunOfWord(msg, j, f);
    }
  }

  /** `msg.match(/Path `(\w+)` is required/)` from position `k` on: the
      leftmost match and its captured field. */
  function FirstMatch(msg: string, k: nat): (r: Option<(nat, string)>)
    requires k <= |msg|
    ensures r.Some? ==> k <= r.value.0 && RequiredAt(msg, r.value.0, r.value.1)
    ensures r.Some? ==> forall j, f :: k <= j < r.value.0 ==> !RequiredAt(msg, j, f)
    ensures r.None? ==> forall j, f :: k <= j ==> !RequiredAt(msg, j, f)
    decreases |msg| - k
  {
    match MatchAt(msg, k)
    case Some(f) => Some((k, f))
    case None =>
      if k == |msg| then
        assert forall j, f :: k < j ==> !RequiredAt(msg, j, f);
        None
      else FirstMatch(msg, k + 1)
  }

  /** The `details` of a validation error: the field named by the first
      "Path `…` is required", behind an `includes('Path')` guard. */
  function ValidationDetails(msg: string): (r: map<string, string>)
    ensures (forall j, f :: 0 <= j ==> !RequiredAt(msg, j, f)) ==> r == map[]
    ensures FirstMatch(msg, 0).Some? ==> r == map[FirstMatch(msg, 0).value.1 := "This field is required"]
  {
    if Contains(msg, "Path") then
      match FirstMatch(msg, 0)
      case None => map[]
      case Some((_, f)) => map[f := "This field is required"]
    else
      GuardImplied(msg);
      map[]
  }

  /** The `includes('Path')` guard never hides a match: any match contains
      "Path". */
  lemma GuardImplied(msg: string)
    requires !Contains(msg, "Path")
    ensures FirstMatch(msg, 0).None?
  {
    ContainsMeansOccurs(msg, "Path");
    forall j: nat, f ensures !RequiredAt(msg, j, f) {
      MatchStartsWithPath(msg, j, f);
    }
  }

  /** A match begins with the text "Path". */
  lemma MatchStartsWithPath(msg: string, j: nat, f: string)
    ensures RequiredAt(msg, j, f) ==> OccursAt(msg, "Path", j)
  {
    if RequiredAt(msg, j, f) {
      var whole := PathOpen + f + PathClose;
      assert msg[j..j + |whole|] == whole;
      assert msg[j..j + 4] == whole[..4] == "Path";
    }
  }

  /** The responses below the duplicate-key test, by error name and then
      `statusCode` (a `statusCode` of 0 is falsy). */
  function NamedResponse(err: AppError): (r: Response)
    ensures r.body.error == Some("VALIDATION_ERROR") <==> err.name == "ValidationError"
    ensures r.body.error == Some("VALIDATION_ERROR") ==> r.status == 400 && r.body.extra == FieldErrors(ValidationDetails(err.message))
    ensures r.body.error == Some("INVALID_ID") <==> err.name == "CastError"
    ensures r.body.error == Some("INVALID_ID") ==> r.status == 400
    ensures r.body.error == Some("INVALID_TOKEN") <==> err.name == "JsonWebTokenError"
    ensures r.body.error == Some("TOKEN_EXPIRED") <==> err.name == "TokenExpiredError"
    ensures r.body.error == Some("INVALID_TOKEN") || r.body.error == Some("TOKEN_EXPIRED") ==> r.status == 401
    ensures r.body.error == Some("CUSTOM_ERROR") <==>
              err.name !in {"ValidationError", "CastError", "JsonWebTokenError", "TokenExpiredError"}
              && err.statusCode.Some? && err.statusCode.value != 0
    ensures r.body.error == Some("CUSTOM_ERROR") ==> r.status == err.statusCode.value && r.body.message == err.message
    ensures r.body.error == Some("INTERNAL_ERROR") <==>
              err.name !in {"ValidationError", "CastError", "JsonWebTokenError", "TokenExpiredError"}
              && (err.statusCode.None? || err.statusCode.value == 0)
    ensures r.body.error == Some("INTERNAL_ERROR") ==> r.status == 500
  {
    if err.name == "ValidationError" then
      Response(400, Body("Validation failed", Some("VALIDATION_ERROR"), None, FieldErrors(ValidationDetails(err.message))))
    else if err.name == "CastError" then
      Response(400, Body("Invalid ID format", Some("INVALID_ID"), Some("Please provide a valid ID"), NoExtra))
    else if err.name == "JsonWebTokenError" then
      Response(401, Body("Invalid token", Some("INVALID_TOKEN"), Some("Please log in again"), NoExtra))
    else if err.name == "TokenExpiredError" then
      Response(401, Body("Token expired", Some("TOKEN_EXPIRED"), Some("Please log in again"), NoExtra))
    else if err.statusCode.Some? && err.statusCode.value != 0 then
      Response(err.statusCode.value, Body(err.message, Some("CUSTOM_ERROR"), None, NoExtra))
    else
      Response(500, Body("Internal server error", Some("INTERNAL_ERROR"), Some("Please try again later"), NoExtra))
  }

  /** `errorHandler`: the duplicate-key test comes first, so a driver
      error with code 11000 is a 409 whatever its name or `statusCode`;
      every other error is classified by name, then by `statusCode`. */
  function HandleError(err: AppError): (r: Response)
    ensures IsDuplicateKey(err) ==> r.status == 409 && r == DuplicateKeyResponse(err.keyValue)
    ensures !IsDuplicateKey(err) ==> r == NamedResponse(err)
  {
    if IsDuplicateKey(err) then DuplicateKeyResponse(err.keyValue)
    else NamedResponse(err)
  }

  /** The error codes of the duplicate-key branch and of the named branches
      never overlap, so the code tells which test fired. */
  lemma CodesTellTheBranch(err: AppError)
    ensures HandleError(err).body.error in {None, Some("DUPLICATE_ORDER"), Some("DUPLICATE_EMAIL"), Some("DUPLICATE_KEY")}
            <==> IsDuplicateKey(err)
  {
  }

  /** A duplicate-key error keeps its 409 even when it also looks like a
      validation error or carries its own status; the string "11000" is not
      the number and does not count. */
  lemma DuplicateKeyWins(message: string, statusCode: Option<int>, keyValue: Option<KeyValue>)
    ensures HandleError(AppError("ValidationError", message, statusCode, Num(11000), keyValue)).status == 409
    ensures HandleError(AppError("MongoServerError", message, None, Str("11000"), keyValue)).status == 500
  {
  }

  /** An order of 0 is defined, so a collision at order 0 is still reported
      as DUPLICATE_ORDER. */
  lemma OrderZeroIsDuplicateOrder(kv: KeyValue)
    requires kv == [("project", Obj), ("order", Num(0))]
    ensures HandleError(AppError("MongoServerError", "E11000", None, Num(11000), Some(kv))).body.error == Some("DUPLICATE_ORDER")
    ensures HandleError(AppError("MongoServerError", "E11000", None, Num(11000), Some(kv))).body.extra == ConflictingOrder(Num(0))
  {
    IndexCollision(kv, Obj, Num(0));
  }

  /** The key values of a `(project, order)` collision, project first: the
      order index is named, and the order reported is the one collided on. */
  lemma IndexCollision(kv: KeyValue, project: JsValue, order: JsValue)
    requires kv == [("project", project), ("order", order)]
    requires Truthy(project) && order != Undefined
    ensures NamesOrder(kv) && Get(kv, "order") == order
    ensures DuplicateKeyResponse(Some(kv)).body.error == Some("DUPLICATE_ORDER")
    ensures DuplicateKeyResponse(Some(kv)).body.extra == ConflictingOrder(order)
  {
    assert Get(kv, "project") == project;
    assert Get(kv, "order") == order;
  }

  /** The error the column store raises, as the driver reports it: the
      index key values, project (an ObjectId) first, then order. */
  function DriverError(e: ColumnModel.DbError): AppError
  {
    match e
    case DuplicateKey(project, order) =>
      AppError("MongoServerError", "E11000 duplicate key error", None, Num(11000), Some([("project", Obj), ("order", Num(order))]))
    case ValidationFailed(path) =>
      AppError("ValidationError", MongooseMessage("Column", path), None, Undefined, None)
  }

  /** Mongoose's message for a missing required path. */
  function MongooseMessage(model: string, path: string): string
  {
    model + " validation failed: " + path + ": " + PathOpen + path + PathClose + "."
  }

  /** Every write error of the column store that reaches this handler is
      classified precisely: a duplicate `(project, order)` as
      DUPLICATE_ORDER with that order, a missing required path as
      VALIDATION_ERROR naming that path. */
  lemma ColumnErrorsClassified(e: ColumnModel.DbError)
    requires e.ValidationFailed? ==> |e.path| >= 1 && AllWord(e.path)
    ensures e.DuplicateKey? ==>
              HandleError(DriverError(e)).status == 409
              && HandleError(DriverError(e)).body.error == Some("DUPLICATE_ORDER")
              && HandleError(DriverError(e)).body.extra == ConflictingOrder(Num(e.order))
    ensures e.ValidationFailed? ==>
              HandleError(DriverError(e)).status == 400
              && HandleError(DriverError(e)).body.extra == FieldErrors(map[e.path := "This field is required"])
  {
    match e
    case DuplicateKey(project, order) =>
      IndexCollision([("project", Obj), ("order", Num(order))], Obj, Num(order));
    case ValidationFailed(path) =>
      MessageNamesPath("Column", path);
  }

  /** In Mongoose's message the first match is the path itself: nothing
      before it contains a backtick. */
  lemma MessageNamesPath(model: string, path: string)
    requires |path| >= 1 && AllWord(path)
    requires forall i :: 0 <= i < |model| ==> model[i] != '`'
    ensures FirstMatch(MongooseMessage(model, path), 0) == Some((|model + " validation failed: " + path + ": "|, path))
  {
    var msg := MongooseMessage(model, path);
    var prefix := model + " validation failed: " + path + ": ";
    var at := |prefix|;
    assert msg == prefix + (PathOpen + path + PathClose) + ".";
    assert msg[at..at + |PathOpen + path + PathClose|] == PathOpen + path + PathClose;
    assert RequiredAt(msg, at, path);
    NoEarlyBacktick(model, path);
    forall j, f | 0 <= j < at ensures !RequiredAt(msg, j, f) {
      MatchHasBacktick(msg, j, f);
    }
    FirstMatchFrom(msg, 0, at, path);
  }

  /** A match at `j` has its backtick at `j + 5`. */
  lemma MatchHasBacktick(msg: string, j: nat, f: string)
    ensures RequiredAt(msg, j, f) ==> j + 5 < |msg| && msg[j + 5] == '`'
  {
    if RequiredAt(msg, j, f) {
      var whole := PathOpen + f + PathClose;
      assert msg[j..j + |whole|] == whole;
      assert msg[j + 5] == whole[5];
    }
  }

  /** Mongoose's message has no backtick before its "Path `". */
  lemma NoEarlyBacktick(model: string, path: string)
    requires AllWord(path)
    requires forall i :: 0 <= i < |model| ==> model[i] != '`'
    ensures var at := |model + " validation failed: " + path + ": "|;
            forall k :: 0 <= k < at + 5 ==> MongooseMessage(model, path)[k] != '`'
  {
    var msg := MongooseMessage(model, path);
    var prefix := model + " validation failed: " + path + ": ";
    assert msg == prefix + "Path " + ("`" + path + PathClose + ".");
    forall k | 0 <= k < |prefix| + 5 ensures msg[k] != '`' {
      if k < |model| {
        assert msg[k] == model[k];
      } else if k < |model| + 20 {
        assert msg[k] == " validation failed: "[k - |model|];
      } else if k < |model| + 20 + |path| {
        assert msg[k] == path[k - |model| - 20];
      } else if k < |prefix| {
        assert msg[k] == ": "[k - |model| - 20 - |path|];
      } else {
        assert msg[k] == "Path "[k - |prefix|];
      }
    }
  }

  /** When position `at` matches and no earlier one does, the search from
      `k` finds `at`. */
  lemma {:induction false} FirstMatchFrom(msg: string, k: nat, at: nat, f: string)
    requires k <= at <= |msg| && RequiredAt(msg, at, f)
    requires forall j, g :: k <= j < at ==> !RequiredAt(msg, j, g)
    ensures FirstMatch(msg, k) == Some((at, f))
    decreases at - k
  {
    if k < at {
      assert MatchAt(msg, k).None?;
      FirstMatchFrom(msg, k + 1, at, f);
    } else {
      var g := MatchAt(msg, k).value;
      WordsMatchOnce(msg, k, f, g);
    }
  }

  /** At one position at most one word matches. */
  lemma WordsMatchOnce(msg: string, i: nat, f: string, g: string)
    requires RequiredAt(msg, i, f) && RequiredAt(msg, i, g)
    ensures f == g
  {
    RequiredIsGreedyRun(msg, i, f);
    RequiredIsGreedyRun(msg, i, g);
  }

  /** `notFoundHandler`: every unmatched route is a 404 naming the URL. */
  function NotFound(originalUrl: string): (r: Response)
    ensures r.status == 404 && r.body.error == Some("NOT_FOUND")
    ensures r.body.message == "Route " + originalUrl + " not found"
  {
    Response(404, Body("Route " + originalUrl + " not found", Some("NOT_FOUND"),
                       Some("Check the API documentation for available endpoints"), NoExtra))
  }

  /** The 404 fallback's code is its own: the error handler never answers
      NOT_FOUND, even when a custom error carries status 404. */
  lemma NotFoundIsDistinct(err: AppError, url: string)
    ensures HandleError(err).body.error != NotFound(url).body.error
  {
  }
}

=== FILE: fix_ordering.dfy ===
/** The stand-alone repair script `fixColumnOrdering`: for each project,
    find the columns whose order repeats an earlier one in sorted order,
    and only if there are any, renumber the project 0..n-1. The script
    exists to clean up a collection written before the unique index was
    in place, so its writes are plain updates that the index does not
    check. */
module FixColumnOrdering {
  import opened ColumnModel
  import opened ColumnUtils

  /** The orders of the listed columns, in listing order. */
  function OrdersOf(s: Store, listing: seq<ColumnId>): (r: seq<int>)
    requires forall i :: 0 <= i < |listing| ==> listing[i] in s
    ensures |r| == |listing|
    ensures forall i :: 0 <= i < |listing| ==> r[i] == s[listing[i]].order
  {
    seq(|listing|, i requires 0 <= i < |listing| => s[listing[i]].order)
  }

  /** The distinct values of `xs`. */
  function Values(xs: seq<int>): set<int>
  {
    set x | x in xs
  }

  /** The positions whose value already occurs earlier, ascending. */
  function RepeatPositions(xs: seq<int>): (r: seq<nat>)
    ensures forall k :: 0 <= k < |r| ==> r[k] < |xs|
    decreases |xs|
  {
    if xs == [] then []
    else
      var n := |xs| - 1;
      RepeatPositions(xs[..n]) + (if xs[n] in xs[..n] then [n] else [])
  }

  /** A prefix of `xs` up to `n` is a prefix of its first `n` elements. */
  lemma PrefixOfPrefix(xs: seq<int>, n: nat)
    requires n <= |xs|
    ensures forall i :: 0 <= i <= n ==> xs[..n][..i] == xs[..i]
  {
  }

  /** Every listed position holds a value seen earlier, and they ascend. */
  lemma {:induction false} RepeatsAreRepeats(xs: seq<int>)
    ensures forall k :: 0 <= k < |RepeatPositions(xs)| ==>
              RepeatPositions(xs)[k] < |xs| && xs[RepeatPositions(xs)[k]] in xs[..RepeatPositions(xs)[k]]
    ensures forall k, l :: 0 <= k < l < |RepeatPositions(xs)| ==> RepeatPositions(xs)[k] < RepeatPositions(xs)[l]
    decreases |xs|
  {
    if xs != [] {
      var n := |xs| - 1;
      var init := xs[..n];
      RepeatsAreRepeats(init);
      PrefixOfPrefix(xs, n);
      var rest := RepeatPositions(init);
      var r := RepeatPositions(xs);
      assert r == rest + (if xs[n] in init then [n] else []);
      forall k | 0 <= k < |r| ensures r[k] < |xs| && xs[r[k]] in xs[..r[k]] {
        if k < |rest| {
          assert r[k] == rest[k];
          assert init[..rest[k]] == xs[..rest[k]];
        } else {
          assert r[k] == n;
        }
      }
      forall k, l | 0 <= k < l < |r| ensures r[k] < r[l] {
        if l >= |rest| {
          assert r[k] == rest[k] < n;
        }
      }
    }
  }

  /** Every position whose value was seen earlier is listed. */
  lemma {:induction false} RepeatsComplete(xs: seq<int>)
    ensures forall i :: 0 <= i < |xs| && xs[i] in xs[..i] ==> i in RepeatPositions(xs)
    decreases |xs|
  {
    if xs != [] {
      var n := |xs| - 1;
      var init := xs[..n];
      RepeatsComplete(init);
      PrefixOfPrefix(xs, n);
      forall i | 0 <= i < |xs| && xs[i] in xs[..i] ensures i in RepeatPositions(xs) {
        if i < n {
          assert init[i] in init[..i];
        }
      }
    }
  }

  /** The number of repeats is the length minus the number of distinct
      values. */
  lemma {:induction false} RepeatsCount(xs: seq<int>)
    ensures |RepeatPositions(xs)| + |Values(xs)| == |xs|
    decreases |xs|
  {
    if xs != [] {
      var n := |xs| - 1;
      var init := xs[..n];
      RepeatsCount(init);
      assert xs == init + [xs[n]];
      assert Values(xs) == Values(init) + {xs[n]};
      if xs[n] !in init {
        assert xs[n] !in Values(init);
      }
    }
  }

  /** The duplicate scan of lines 28-38: a running count per order (a
      multiset is exactly a map from order to count, absent meaning 0);
      a column is a duplicate when its order was counted before. */
  method FindDuplicates(s: Store, listing: seq<ColumnId>) returns (dups: seq<ColumnId>)
    requires forall i :: 0 <= i < |listing| ==> listing[i] in s
    ensures |dups| == |RepeatPositions(OrdersOf(s, listing))|
    ensures forall k :: 0 <= k < |dups| ==> dups[k] == listing[RepeatPositions(OrdersOf(s, listing))[k]]
  {
    var orders := OrdersOf(s, listing);
    var counts: multiset<int> := multiset{};
    dups := [];
    var i := 0;
    while i < |listing|
      invariant 0 <= i <= |listing|
      invariant ScannedUpTo(orders, listing, i, counts, dups)
    {
      var o := s[listing[i]].order;
      var count := counts[o];
      ScanStep(orders, listing, i, counts, dups, o, count);
      counts := counts[o := count + 1];
      if count > 0 {
        dups := dups + [listing[i]];
      }
      i := i + 1;
    }
    assert orders[..|listing|] == orders;
  }

  /** The scan after `i` columns: the counts are those of the first `i`
      orders, and the duplicates are the columns at their repeat
      positions. */
  predicate ScannedUpTo(orders: seq<int>, listing: seq<ColumnId>, i: nat, counts: multiset<int>, dups: seq<ColumnId>)
    requires i <= |orders| == |listing|
  {
    && counts == multiset(orders[..i])
    && |dups| == |RepeatPositions(orders[..i])|
    && forall k :: 0 <= k < |dups| ==> dups[k] == listing[RepeatPositions(orders[..i])[k]]
  }

  /** Counting the next order, and keeping its column exactly when the
      order was counted before, extends the scan by one. */
  lemma ScanStep(orders: seq<int>, listing: seq<ColumnId>, i: nat, counts: multiset<int>, dups: seq<ColumnId>, o: int, count: nat)
    requires i < |orders| == |listing|
    requires ScannedUpTo(orders, listing, i, counts, dups)
    requires o == orders[i] && count == counts[o]
    ensures count > 0 ==> ScannedUpTo(orders, listing, i + 1, counts[o := count + 1], dups + [listing[i]])
    ensures count == 0 ==> ScannedUpTo(orders, listing, i + 1, counts[o := count + 1], dups)
  {
    RepeatsAreRepeats(orders[..i]);
    assert orders[..i + 1][..i] == orders[..i];
    assert orders[..i + 1] == orders[..i] + [o];
    assert (counts[o] > 0) <==> o in orders[..i];
    assert RepeatPositions(orders[..i + 1]) == RepeatPositions(orders[..i]) + (if o in orders[..i] then [i] else []);
  }

  /** The renumbering loop of lines 48-54: position i gets order i,
      written only where it differs. */
  method Renumber(s: Store, p: ProjectId, listing: seq<ColumnId>) returns (t: Store, writes: seq<(ColumnId, int)>)
    requires IsSortedListing(s, p, listing)
    ensures Densified(s, listing, t)
    ensures writes == RepairWrites(s, listing, 0)
  {
    t := s;
    writes := [];
    var i := 0;
    while i < |listing|
      invariant PartlyRepaired(s, listing, t, i)
      invariant writes + RepairWrites(s, listing, i) == RepairWrites(s, listing, 0)
    {
      var c := listing[i];
      assert t[c] == s[c];
      RepairWritesStep(s, listing, i, writes);
      RepairStep(s, p, listing, t, i);
      if t[c].order != i {
        t := t[c := t[c].(order := i)];
        writes := writes + [(c, i)];
      } else {
        assert t[c := t[c].(order := i)] == t;
      }
      i := i + 1;
    }
    RepairedIsDensified(s, listing, t);
    assert RepairWrites(s, listing, |listing|) == [];
  }

  /** The result of one project's pass. */
  datatype Outcome = Skipped | NoDuplicates | Fixed(duplicates: nat)

  /** One project (lines 19-56): skip a project without columns, leave a
      project without duplicates as it is (gaps included), otherwise give
      the column at sorted position i order i, writing only where the
      order differs. */
  method FixProject(s: Store, p: ProjectId, listing: seq<ColumnId>)
    returns (t: Store, outcome: Outcome, writes: seq<(ColumnId, int)>)
    requires IsSortedListing(s, p, listing)
    ensures |listing| == 0 ==> outcome == Skipped && t == s && writes == []
    ensures outcome.NoDuplicates? <==> |listing| > 0 && |RepeatPositions(OrdersOf(s, listing))| == 0
    ensures !outcome.Fixed? ==> t == s && writes == []
    ensures outcome.Fixed? <==> |RepeatPositions(OrdersOf(s, listing))| > 0
    ensures outcome.Fixed? ==>
              && outcome.duplicates == |listing| - |Values(OrdersOf(s, listing))| > 0
              && Densified(s, listing, t)
              && writes == RepairWrites(s, listing, 0)
  {
    if |listing| == 0 {
      assert OrdersOf(s, listing) == [];
      return s, Skipped, [];
    }
    var dups := FindDuplicates(s, listing);
    RepeatsCount(OrdersOf(s, listing));
    if |dups| == 0 {
      return s, NoDuplicates, [];
    }
    t, writes := Renumber(s, p, listing);
    outcome := Fixed(|dups|);
  }

  /** A project with a gap but no duplicate: the script leaves it alone
      although `reorderColumns` would renumber it. */
  lemma GapsAreLeftAlone()
    ensures var s := map["x" := Column("P", "Todo", 0), "y" := Column("P", "Done", 5)];
            && IsSortedListing(s, "P", ["x", "y"])
            && RepeatPositions(OrdersOf(s, ["x", "y"])) == []
            && RepairWrites(s, ["x", "y"], 0) == [("y", 1)]
  {
    var s := map["x" := Column("P", "Todo", 0), "y" := Column("P", "Done", 5)];
    assert s.Keys == {"x", "y"};
    var os := OrdersOf(s, ["x", "y"]);
    assert os == [0, 5];
    assert os[..1][..0] == [];
    assert RepeatPositions(os[..1]) == [];
    assert os[..1] == [0];
    assert 5 !in os[..1];
  }

  /** Every column of the listing belongs to `p`; so a project's pass
      leaves the other projects' columns, and their sorted listings, as
      they were. */
  lemma FixKeepsOtherProjects(s: Store, p: ProjectId, listing: seq<ColumnId>, t: Store, q: ProjectId, other: seq<ColumnId>)
    requires IsSortedListing(s, p, listing) && Densified(s, listing, t) && q != p
    requires IsSortedListing(s, q, other)
    ensures IsSortedListing(t, q, other)
    ensures forall c :: c in s && s[c].project != p ==> t[c] == s[c]
  {
    forall c | c in s && s[c].project != p ensures t[c] == s[c] {
      assert c !in listing;
    }
  }

  /** The listed columns of one project after the script: renumbered by
      position when the project was fixed, as before otherwise. */
  predicate PassResult(s: Store, listing: seq<ColumnId>, t: Store, fixed: bool)
  {
    forall i :: 0 <= i < |listing| ==>
      listing[i] in s && listing[i] in t && t[listing[i]] == if fixed then s[listing[i]].(order := i) else s[listing[i]]
  }

  /** The state after the passes of the first `k` projects. */
  predicate Processed(s: Store, projects: seq<ProjectId>, listings: seq<seq<ColumnId>>, t: Store, outcomes: seq<Outcome>, k: nat)
    requires k <= |projects| == |listings|
  {
    && |outcomes| == k
    && t.Keys == s.Keys
    && (forall c :: c in s ==> t[c].project == s[c].project)
    && (forall c :: c in s && (forall j :: 0 <= j < k ==> s[c].project != projects[j]) ==> t[c] == s[c])
    && (forall j :: 0 <= j < k ==>
          && IsSortedListing(s, projects[j], listings[j])
          && PassResult(s, listings[j], t, outcomes[j].Fixed?)
          && (outcomes[j].Fixed? <==> |RepeatPositions(OrdersOf(s, listings[j]))| > 0))
  }

  /** The whole script: the projects one after the other, each with its
      sorted listing taken from the state before the script (a project's
      pass does not touch the others, so it is still accurate). */
  method FixAll(s: Store, projects: seq<ProjectId>, listings: seq<seq<ColumnId>>)
    returns (t: Store, outcomes: seq<Outcome>)
    requires |listings| == |projects|
    requires forall i, j :: 0 <= i < j < |projects| ==> projects[i] != projects[j]
    requires forall k :: 0 <= k < |projects| ==> IsSortedListing(s, projects[k], listings[k])
    ensures |outcomes| == |projects| && t.Keys == s.Keys
    ensures forall k :: 0 <= k < |projects| ==>
              && IsSortedListing(s, projects[k], listings[k])
              && PassResult(s, listings[k], t, outcomes[k].Fixed?)
              && (outcomes[k].Fixed? <==> |RepeatPositions(OrdersOf(s, listings[k]))| > 0)
    ensures forall c :: c in s && (forall k :: 0 <= k < |projects| ==> s[c].project != projects[k]) ==> t[c] == s[c]
  {
    t := s;
    outcomes := [];
    var k := 0;
    while k < |projects|
      invariant 0 <= k <= |projects|
      invariant Processed(s, projects, listings, t, outcomes, k)
    {
      var p := projects[k];
      UntouchedListing(s, t, p, listings[k], projects, k);
      var t', outcome, _ := FixProject(t, p, listings[k]);
      PassKeepsOthers(s, t, t', projects, listings, k, outcome.Fixed?);
      ProcessedStep(s, projects, listings, t, outcomes, k, t', outcome);
      t := t';
      outcomes := outcomes + [outcome];
      k := k + 1;
    }
  }

  lemma ProcessedStep(s: Store, projects: seq<ProjectId>, listings: seq<seq<ColumnId>>, t: Store, outcomes: seq<Outcome>,
                      k: nat, t': Store, outcome: Outcome)
    requires k < |projects| == |listings|
    requires forall i, j :: 0 <= i < j < |projects| ==> projects[i] != projects[j]
    requires forall j :: 0 <= j < |projects| ==> IsSortedListing(s, projects[j], listings[j])
    requires Processed(s, projects, listings, t, outcomes, k)
    requires t'.Keys == s.Keys
    requires forall c :: c in s ==> t'[c].project == s[c].project
    requires forall c :: c in s && s[c].project != projects[k] ==> t'[c] == t[c]
    requires PassResult(s, listings[k], t', outcome.Fixed?)
    requires outcome.Fixed? <==> |RepeatPositions(OrdersOf(s, listings[k]))| > 0
    ensures Processed(s, projects, listings, t', outcomes + [outcome], k + 1)
  {
    var os := outcomes + [outcome];
    forall j | 0 <= j < k ensures PassResult(s, listings[j], t', os[j].Fixed?) {
      forall i | 0 <= i < |listings[j]| ensures t'[listings[j][i]] == t[listings[j][i]] {
        assert s[listings[j][i]].project == projects[j] != projects[k];
      }
    }
    forall c | c in s && (forall j :: 0 <= j < k + 1 ==> s[c].project != projects[j]) ensures t'[c] == s[c] {
      assert s[c].project != projects[k];
    }
  }

  /** Before its pass, a project's columns are as in the original state,
      so its original listing is a sorted listing of the current state. */
  lemma UntouchedListing(s: Store, t: Store, p: ProjectId, listing: seq<ColumnId>, projects: seq<ProjectId>, k: nat)
    requires k < |projects| && projects[k] == p
    requires forall i, j :: 0 <= i < j < |projects| ==> projects[i] != projects[j]
    requires IsSortedListing(s, p, listing)
    requires t.Keys == s.Keys
    requires forall c :: c in s ==> t[c].project == s[c].project
    requires forall c :: c in s && (forall j :: 0 <= j < k ==> s[c].project != projects[j]) ==> t[c] == s[c]
    ensures IsSortedListing(t, p, listing)
    ensures forall c :: c in s && s[c].project == p ==> t[c] == s[c]
    ensures OrdersOf(t, listing) == OrdersOf(s, listing)
  {
    forall c | c in s && s[c].project == p ensures t[c] == s[c] {
      forall j | 0 <= j < k ensures s[c].project != projects[j] {
      }
    }
  }

  /** Project k's pass changes only project k's columns. */
  lemma PassKeepsOthers(s: Store, t: Store, t': Store, projects: seq<ProjectId>, listings: seq<seq<ColumnId>>,
                        k: nat, fixed: bool)
    requires k < |projects| && |listings| == |projects|
    requires forall i, j :: 0 <= i < j < |projects| ==> projects[i] != projects[j]
    requires forall j :: 0 <= j < |projects| ==> IsSortedListing(s, projects[j], listings[j])
    requires t.Keys == s.Keys
    requires forall c :: c in s ==> t[c].project == s[c].project
    requires forall c :: c in s && s[c].project == projects[k] ==> t[c] == s[c]
    requires IsSortedListing(t, projects[k], listings[k])
    requires fixed ==> Densified(t, listings[k], t')
    requires !fixed ==> t' == t
    ensures t'.Keys == s.Keys
    ensures forall c :: c in s ==> t'[c].project == s[c].project
    ensures forall c :: c in s && s[c].project != projects[k] ==> t'[c] == t[c]
    ensures IsSortedListing(s, projects[k], listings[k]) && PassResult(s, listings[k], t', fixed)
  {
    forall c | c in s && s[c].project != projects[k] ensures t'[c] == t[c] {
      if fixed {
        assert c !in listings[k];
      }
    }
  }
}

=== FILE: frontend_types.dfy ===
/** The client's record types (`Task`, `Project`). Dates are instants on
    an abstract clock; the four status names are those of the task
    schema. */
module FrontendTypes {
  import opened Wrappers

  type TaskId = string

  /** The task statuses the board and the server agree on. */
  const StatusNames: set<string> := {"todo", "in-progress", "review", "done"}

  datatype Task = Task(
    id: TaskId,
    title: string,
    description: string,
    status: string,
    priority: string,
    assigneeId: string,
    projectId: string,
    deadline: Option<int>,
    createdAt: int,
    updatedAt: int)

  datatype Project = Project(
    id: string,
    name: string,
    description: string,
    createdAt: int,
    updatedAt: int,
    ownerId: string,
    members: seq<string>)

  /** No two tasks of the list share an id, as ids the server issues. */
  predicate DistinctTaskIds(tasks: seq<Task>)
  {
    forall i, j :: 0 <= i < j < |tasks| ==> tasks[i].id != tasks[j].id
  }
}

=== FILE: header.dfy ===
/** The avatar initials in the page header: the first letter of each
    space-separated part of the user's name, upper-cased, at most two. */
module Header {
  import opened Strings

  /** `s.split(sep)` for a one-character separator: the parts between
      separators, empty parts included, and always at least one part. */
  function Split(s: string, sep: char): (r: seq<string>)
    ensures |r| >= 1
    ensures forall k :: 0 <= k < |r| ==> sep !in r[k]
    decreases |s|
  {
    if |s| == 0 then [""]
    else if s[0] == sep then [""] + Split(s[1..], sep)
    else
      var rest := Split(s[1..], sep);
      [[s[0]] + rest[0]] + rest[1..]
  }

  /** `parts.join(sep)`. */
  function Join(parts: seq<string>, sep: char): string
    requires |parts| >= 1
    decreases |parts|
  {
    if |parts| == 1 then parts[0] else parts[0] + [sep] + Join(parts[1..], sep)
  }

  /** Splitting loses nothing: joining the parts back gives the input. */
  lemma {:induction false} JoinSplit(s: string, sep: char)
    ensures Join(Split(s, sep), sep) == s
    decreases |s|
  {
    if |s| > 0 {
      JoinSplit(s[1..], sep);
      if s[0] == sep {
        assert ([""] + Split(s[1..], sep))[1..] == Split(s[1..], sep);
        assert s == [sep] + s[1..];
      } else {
        var rest := Split(s[1..], sep);
        var parts := [[s[0]] + rest[0]] + rest[1..];
        if |rest| > 1 {
          assert parts[1..] == rest[1..];
          assert Join(rest, sep) == rest[0] + [sep] + Join(rest[1..], sep);
        }
        assert s == [s[0]] + s[1..];
      }
    }
  }

  /** `.map(n => n[0]).join('')`: the first character of every part; an
      empty part gives `undefined`, which `join` renders as nothing. */
  function Firsts(parts: seq<string>): string
    decreases |parts|
  {
    if |parts| == 0 then ""
    else (if parts[0] == "" then "" else [parts[0][0]]) + Firsts(parts[1..])
  }

  /** The reference reading: the characters that begin a word, a word
      being a run of non-spaces; `afterSpace` says whether the previous
      character was a space (or there was none). */
  function WordStarts(s: string, afterSpace: bool): string
    decreases |s|
  {
    if |s| == 0 then ""
    else if s[0] != ' ' && afterSpace then [s[0]] + WordStarts(s[1..], false)
    else WordStarts(s[1..], s[0] == ' ')
  }

  /** Taking the first character of each part of the split is the same as
      collecting the word starts; the parts after the first are the word
      starts past the first character. */
  lemma {:induction false} FirstsAreWordStarts(s: string)
    ensures Firsts(Split(s, ' ')) == WordStarts(s, true)
    ensures Firsts(Split(s, ' ')[1..]) == WordStarts(s, false)
    decreases |s|
  {
    if |s| > 0 {
      FirstsAreWordStarts(s[1..]);
      var rest := Split(s[1..], ' ');
      if s[0] == ' ' {
        assert Split(s, ' ') == [""] + rest;
        assert ([""] + rest)[1..] == rest;
      } else {
        var parts := [[s[0]] + rest[0]] + rest[1..];
        assert Split(s, ' ') == parts;
        assert parts[1..] == rest[1..];
      }
    }
  }

  /** `getInitials`: upper-case the first letters and keep two. */
  function GetInitials(name: string): (r: string)
    ensures |r| <= 2
  {
    var all := Upper(Firsts(Split(name, ' ')));
    if |all| <= 2 then all else all[..2]
  }

  /** The initials are the upper-cased starts of the first two words, and
      there are two of them exactly when the name has two words. */
  lemma InitialsOfWords(name: string)
    ensures var w := WordStarts(name, true);
            && |GetInitials(name)| == (if |w| < 2 then |w| else 2)
            && forall k :: 0 <= k < |GetInitials(name)| ==> GetInitials(name)[k] == UpperChar(w[k])
  {
    FirstsAreWordStarts(name);
  }

  /** Every word start is a non-space character of the name. */
  lemma {:induction false} WordStartsAreLetters(s: string, afterSpace: bool)
    ensures forall k :: 0 <= k < |WordStarts(s, afterSpace)| ==> WordStarts(s, afterSpace)[k] != ' '
    ensures |WordStarts(s, afterSpace)| <= |s|
    decreases |s|
  {
    if |s| > 0 {
      WordStartsAreLetters(s[1..], false);
      WordStartsAreLetters(s[1..], s[0] == ' ');
    }
  }

  /** A name of spaces only (the empty name included) has no initials. */
  lemma {:induction false} BlankNameHasNoInitials(s: string, afterSpace: bool)
    requires forall i :: 0 <= i < |s| ==> s[i] == ' '
    ensures WordStarts(s, afterSpace) == ""
    decreases |s|
  {
    if |s| > 0 {
      BlankNameHasNoInitials(s[1..], true);
    }
  }
}

=== FILE: kanban_board.dfy ===
/** The board's pure logic: how a column title maps to a task status and a
    colour, the reorder request built when a column is dragged, which
    column shows which task, and the update a task drop asks for. */
module KanbanBoard {
  import opened Wrappers
  import opened Strings
  import opened FrontendTypes
  import opened TaskStore
  import opened ColumnModel
  import opened ColumnUtils
  import opened ColumnRoutes

  /** A column as the board holds it (`mappedColumns`): the server's `name`
      becomes the `title`. */
  datatype BoardColumn = BoardColumn(id: ColumnId, title: string)

  /** `findIndex` on a list of values: the first position holding `x`, or
      -1 when there is none. */
  function IndexOf<T(==)>(xs: seq<T>, x: T): (r: int)
    ensures -1 <= r < |xs|
    ensures r == -1 <==> x !in xs
    ensures r >= 0 ==> xs[r] == x && x !in xs[..r]
  {
    if xs == [] then -1
    else if xs[0] == x then 0
    else
      var k := IndexOf(xs[1..], x);
      assert k >= 0 ==> xs[..k + 1] == [xs[0]] + xs[1..][..k];
      if k < 0 then -1 else k + 1
  }

  function ColumnIds(columns: seq<BoardColumn>): (r: seq<ColumnId>)
    ensures |r| == |columns| && forall i :: 0 <= i < |columns| ==> r[i] == columns[i].id
  {
    seq(|columns|, i requires 0 <= i < |columns| => columns[i].id)
  }

  function TaskIds(tasks: seq<Task>): (r: seq<TaskId>)
    ensures |r| == |tasks| && forall i :: 0 <= i < |tasks| ==> r[i] == tasks[i].id
  {
    seq(|tasks|, i requires 0 <= i < |tasks| => tasks[i].id)
  }

  // ---------------------------------------------------------------------
  // Title to status

  /** The titles that decide a status by exact match, and the status. */
  const ExactStatus: map<string, string> := map[
    "review" := "review", "testing" := "review", "qa" := "review",
    "in progress" := "in-progress", "progress" := "in-progress", "doing" := "in-progress", "working" := "in-progress",
    "done" := "done", "completed" := "done", "finished" := "done", "complete" := "done",
    "todo" := "todo", "to do" := "todo", "backlog" := "todo"]

  /** The title as `getColumnStatus` compares it: lower-cased, then trimmed. */
  function NormalTitle(title: string): string
  {
    Trim(Lower(title))
  }

  /** The ladder of `getColumnStatus` on a normalised title. */
  function StatusOfName(name: string): (r: string)
    ensures r in StatusNames
    ensures r == "review" ==> name in ExactStatus || Contains(name, "review")
    ensures r == "in-progress" ==> name in ExactStatus || Contains(name, "progress")
    ensures r == "done" ==> name in ExactStatus || Contains(name, "done") || Contains(name, "complete")
    ensures (name !in ExactStatus && !Contains(name, "review") && !Contains(name, "progress")
             && !Contains(name, "done") && !Contains(name, "complete")) ==> r == "todo"
  {
    if name == "review" || name == "testing" || name == "qa" then "review"
    else if name == "in progress" || name == "progress" || name == "doing" || name == "working" then "in-progress"
    else if name == "done" || name == "completed" || name == "finished" || name == "complete" then "done"
    else if name == "todo" || name == "to do" || name == "backlog" then "todo"
    else if Contains(name, "review") && !Contains(name, "progress") then "review"
    else if Contains(name, "progress") && !Contains(name, "review") then "in-progress"
    else if Contains(name, "done") || Contains(name, "complete") then "done"
    else if Contains(name, "todo") || Contains(name, "backlog") then "todo"
    else "todo"
  }

  /** Exact titles take precedence over the keyword rules: each one gets
      the status the table gives it, whatever keywords it contains. */
  lemma ExactTitlesFirst(name: string)
    requires name in ExactStatus
    ensures StatusOfName(name) == ExactStatus[name]
  {
    if name == "review" || name == "testing" || name == "qa" {
    } else if name == "in progress" || name == "progress" || name == "doing" || name == "working" {
    } else if name == "done" || name == "completed" || name == "finished" || name == "complete" {
    } else {
      assert name == "todo" || name == "to do" || name == "backlog";
    }
  }

  /** `getColumnStatus`: the title lower-cased and trimmed, then the ladder. */
  function ColumnStatus(title: string): (r: string)
    ensures r in StatusNames
  {
    StatusOfName(NormalTitle(title))
  }

  lemma LowerUpper(s: string)
    ensures Lower(Upper(s)) == Lower(s)
  {
  }

  lemma LowerSplits(a: string, b: string, c: string)
    ensures Lower(a + b + c) == Lower(a) + Lower(b) + Lower(c)
  {
  }

  /** The status ignores letter case and white space around the title. */
  lemma StatusIgnoresCaseAndPadding(title: string, before: string, after: string)
    requires AllSpace(before) && AllSpace(after)
    ensures ColumnStatus(before + title + after) == ColumnStatus(title)
    ensures ColumnStatus(Upper(title)) == ColumnStatus(title)
    ensures ColumnStatus(Lower(title)) == ColumnStatus(title)
  {
    LowerSplits(before, title, after);
    LowerAllSpace(before);
    LowerAllSpace(after);
    TrimIgnoresPadding(before, Lower(title), after);
    LowerUpper(title);
    LowerIdempotent(title);
  }

  // ---------------------------------------------------------------------
  // Title to colour

  /** One line of `getColumnColor`: two keywords and the colour they give. */
  datatype ColorRule = ColorRule(first: string, second: string, color: string)

  /** The rules in the order they are tried. */
  const ColorRules: seq<ColorRule> := [
    ColorRule("todo", "to do", "bg-kanban-todo"),
    ColorRule("progress", "doing", "bg-kanban-progress"),
    ColorRule("done", "complete", "bg-kanban-done"),
    ColorRule("review", "testing", "bg-blue-500"),
    ColorRule("blocked", "waiting", "bg-red-500")]

  const DefaultColor: string := "bg-gray-500"

  predicate RuleMatches(name: string, rule: ColorRule)
  {
    Contains(name, rule.first) || Contains(name, rule.second)
  }

  /** The first rule from position `i` on that matches `name`. */
  function FirstRuleFrom(name: string, i: nat): (r: Option<nat>)
    requires i <= |ColorRules|
    ensures r.Some? ==> i <= r.value < |ColorRules| && RuleMatches(name, ColorRules[r.value])
                        && forall j :: i <= j < r.value ==> !RuleMatches(name, ColorRules[j])
    ensures r.None? ==> forall j :: i <= j < |ColorRules| ==> !RuleMatches(name, ColorRules[j])
    decreases |ColorRules| - i
  {
    if i == |ColorRules| then None
    else if RuleMatches(name, ColorRules[i]) then Some(i)
    else FirstRuleFrom(name, i + 1)
  }

  /** `getColumnColor`: the ladder as written. */
  function ColumnColor(columnName: string): (r: string)
  {
    var name := Lower(columnName);
    if Contains(name, "todo") || Contains(name, "to do") then "bg-kanban-todo"
    else if Contains(name, "progress") || Contains(name, "doing") then "bg-kanban-progress"
    else if Contains(name, "done") || Contains(name, "complete") then "bg-kanban-done"
    else if Contains(name, "review") || Contains(name, "testing") then "bg-blue-500"
    else if Contains(name, "blocked") || Contains(name, "waiting") then "bg-red-500"
    else "bg-gray-500"
  }

  /** The ladder is the rule table read top-down: the colour of the first
      rule with a keyword in the lower-cased name, else the default. */
  lemma ColumnColorFollowsRules(columnName: string)
    ensures ColumnColor(columnName) ==
              match FirstRuleFrom(Lower(columnName), 0)
              case Some(i) => ColorRules[i].color
              case None => DefaultColor
  {
    var name := Lower(columnName);
    assert FirstRuleFrom(name, 0) == (if RuleMatches(name, ColorRules[0]) then Some(0) else FirstRuleFrom(name, 1));
    assert FirstRuleFrom(name, 1) == (if RuleMatches(name, ColorRules[1]) then Some(1) else FirstRuleFrom(name, 2));
    assert FirstRuleFrom(name, 2) == (if RuleMatches(name, ColorRules[2]) then Some(2) else FirstRuleFrom(name, 3));
    assert FirstRuleFrom(name, 3) == (if RuleMatches(name, ColorRules[3]) then Some(3) else FirstRuleFrom(name, 4));
    assert FirstRuleFrom(name, 4) == (if RuleMatches(name, ColorRules[4]) then Some(4) else FirstRuleFrom(name, 5));
  }

  // ---------------------------------------------------------------------
  // Column move

  /** `xs` without its element at `i`. */
  function Remove<T>(xs: seq<T>, i: nat): (r: seq<T>)
    requires i < |xs|
    ensures |r| == |xs| - 1
  {
    xs[..i] + xs[i + 1..]
  }

  /** Where `splice(start, …)` starts on an array of length `len`: a
      negative start counts back from the end, and both ends are clamped. */
  function SpliceStart(len: nat, start: int): (r: nat)
    ensures r <= len
    ensures 0 <= start <= len ==> r == start
    ensures start < 0 && len + start >= 0 ==> r == len + start
  {
    if start < 0 then (if len + start < 0 then 0 else len + start)
    else if start > len then len
    else start
  }

  /** `splice(oldIndex, 1)` then `splice(newIndex, 0, moved)`: the column
      at `oldIndex` taken out and put back in at `newIndex` of the rest. */
  function Moved<T>(xs: seq<T>, oldIndex: nat, newIndex: int): (r: seq<T>)
    requires oldIndex < |xs|
    ensures |r| == |xs|
    ensures multiset(r) == multiset(xs)
    ensures r[SpliceStart(|xs| - 1, newIndex)] == xs[oldIndex]
    ensures Remove(r, SpliceStart(|xs| - 1, newIndex)) == Remove(xs, oldIndex)
  {
    var rest := Remove(xs, oldIndex);
    var at := SpliceStart(|rest|, newIndex);
    RemoveCounts(xs, oldIndex);
    InsertCounts(rest, at, xs[oldIndex]);
    rest[..at] + [xs[oldIndex]] + rest[at..]
  }

  lemma RemoveCounts<T>(xs: seq<T>, i: nat)
    requires i < |xs|
    ensures multiset(xs) == multiset(Remove(xs, i)) + multiset{xs[i]}
  {
    assert xs == xs[..i] + [xs[i]] + xs[i + 1..];
  }

  /** Putting `x` in at `at` adds it once, and removing it there undoes it. */
  lemma InsertCounts<T>(ys: seq<T>, at: nat, x: T)
    requires at <= |ys|
    ensures multiset(ys[..at] + [x] + ys[at..]) == multiset(ys) + multiset{x}
    ensures (ys[..at] + [x] + ys[at..])[at] == x
    ensures Remove(ys[..at] + [x] + ys[at..], at) == ys
  {
    var r := ys[..at] + [x] + ys[at..];
    assert ys == ys[..at] + ys[at..];
    assert r[..at] == ys[..at];
    assert r[at + 1..] == ys[at..];
  }

  /** A permutation of a list without repeats has none either. */
  ghost predicate Distinct<T>(xs: seq<T>)
  {
    forall i, j :: 0 <= i < j < |xs| ==> xs[i] != xs[j]
  }

  lemma RemoveDistinct<T>(xs: seq<T>, k: nat)
    requires k < |xs| && Distinct(xs)
    ensures Distinct(Remove(xs, k)) && xs[k] !in Remove(xs, k)
  {
    var r := Remove(xs, k);
    forall a | 0 <= a < |r| ensures r[a] == xs[if a < k then a else a + 1] {
    }
  }

  lemma InsertDistinct<T>(ys: seq<T>, at: nat, x: T)
    requires at <= |ys| && Distinct(ys) && x !in ys
    ensures Distinct(ys[..at] + [x] + ys[at..])
  {
    var r := ys[..at] + [x] + ys[at..];
    forall a | 0 <= a < |r| && a != at ensures r[a] == ys[if a < at then a else a - 1] {
    }
  }

  /** Moving one element of a list without repeats leaves none. */
  lemma MovedDistinct<T>(xs: seq<T>, oldIndex: nat, newIndex: int)
    requires oldIndex < |xs| && Distinct(xs)
    ensures Distinct(Moved(xs, oldIndex, newIndex))
  {
    var rest := Remove(xs, oldIndex);
    RemoveDistinct(xs, oldIndex);
    InsertDistinct(rest, SpliceStart(|rest|, newIndex), xs[oldIndex]);
  }

  /** The request body: every column in its new place, order = position. */
  function Payload(ids: seq<ColumnId>): (r: seq<ReorderItem>)
    ensures |r| == |ids|
    ensures forall i :: 0 <= i < |ids| ==> r[i] == ReorderItem(ids[i], i)
  {
    seq(|ids|, i requires 0 <= i < |ids| => ReorderItem(ids[i], i))
  }

  /** The column branch of `handleDragEnd`, as written: the dragged column
      is one of the board's (it was found there when the drag started);
      equal indices send nothing; a target that is not a column has index
      -1, which `splice` reads as "before the last element". */
  function ColumnMovePayload(ids: seq<ColumnId>, activeId: ColumnId, overId: ColumnId): (r: Option<seq<ReorderItem>>)
    requires activeId in ids
    ensures r.None? <==> IndexOf(ids, activeId) == IndexOf(ids, overId)
    ensures r.Some? ==> |r.value| == |ids| && forall i :: 0 <= i < |ids| ==> r.value[i].order == i
    ensures r.Some? ==> multiset(Moved(ids, IndexOf(ids, activeId), IndexOf(ids, overId))) == multiset(ids)
    ensures r.Some? ==> forall i :: 0 <= i < |ids| ==> r.value[i].id == Moved(ids, IndexOf(ids, activeId), IndexOf(ids, overId))[i]
    ensures r.Some? && overId !in ids && |ids| >= 2 ==> r.value[|ids| - 2].id == activeId
  {
    var oldIndex := IndexOf(ids, activeId);
    var newIndex := IndexOf(ids, overId);
    if oldIndex == newIndex then None
    else Some(Payload(Moved(ids, oldIndex, newIndex)))
  }

  /** The drop target counts only when it is a column of the board. */
  function ColumnMovePayloadChecked(ids: seq<ColumnId>, activeId: ColumnId, overId: ColumnId): (r: Option<seq<ReorderItem>>)
    requires activeId in ids
    ensures r.None? <==> overId !in ids || overId == activeId
    ensures r.Some? ==>
              var newIndex := IndexOf(ids, overId);
              && |r.value| == |ids|
              && (forall i :: 0 <= i < |ids| ==> r.value[i].order == i)
              && r.value[newIndex].id == activeId
              && Remove(IdsOfItems(r.value), newIndex) == Remove(ids, IndexOf(ids, activeId))
  {
    if overId !in ids then None
    else
      var oldIndex := IndexOf(ids, activeId);
      var newIndex := IndexOf(ids, overId);
      if oldIndex == newIndex then None
      else
        var m := Moved(ids, oldIndex, newIndex);
        assert IdsOfItems(Payload(m)) == m;
        Some(Payload(m))
  }

  function IdsOfItems(items: seq<ReorderItem>): (r: seq<ColumnId>)
    ensures |r| == |items| && forall i :: 0 <= i < |items| ==> r[i] == items[i].id
  {
    seq(|items|, i requires 0 <= i < |items| => items[i].id)
  }

  /** Any three-column board [a, b, c] with column a dropped on something
      that is not a column (a task card): the request still goes out and
      moves a to the middle, where the checked version sends nothing. */
  lemma DropOnTaskMovesColumn(a: ColumnId, b: ColumnId, c: ColumnId, card: ColumnId)
    requires card != a && card != b && card != c
    ensures ColumnMovePayload([a, b, c], a, card) ==
              Some([ReorderItem(b, 0), ReorderItem(a, 1), ReorderItem(c, 2)])
    ensures ColumnMovePayloadChecked([a, b, c], a, card) == None
  {
    var ids := [a, b, c];
    assert IndexOf(ids, a) == 0;
    assert card !in ids;
    FirstBeforeLast(ids);
    var m := Moved(ids, 0, -1);
    var items := Payload(m);
    assert |items| == 3;
    assert items[0] == ReorderItem(b, 0) && items[1] == ReorderItem(a, 1) && items[2] == ReorderItem(c, 2);
    ThreeElements(items);
  }

  /** A sequence of three elements is the display of its elements. */
  lemma ThreeElements<T>(xs: seq<T>)
    requires |xs| == 3
    ensures xs == [xs[0], xs[1], xs[2]]
  {
  }

  /** On three elements, a move from the front to index -1 lands in the
      middle. */
  lemma FirstBeforeLast<T>(xs: seq<T>)
    requires |xs| == 3
    ensures Moved(xs, 0, -1) == [xs[1], xs[0], xs[2]]
  {
    assert Remove(xs, 0) == [xs[1], xs[2]];
  }

  /** A payload over the project's own columns, each listed once, meets
      every precondition of a successful reorder. */
  lemma PayloadAccepted(db: Db, p: ProjectId, ids: seq<ColumnId>, m: seq<ColumnId>)
    requires IsProjectListing(db.columns, p, ids)
    requires multiset(m) == multiset(ids) && Distinct(m) && |m| >= 1
    requires forall i :: 0 <= i < |ids| ==> ids[i] != ""
    ensures ValidReorder(Payload(m)) && AllListed(db.columns, p, Payload(m))
    ensures DistinctOrders(Payload(m)) && DistinctIds(Payload(m))
  {
    var items := Payload(m);
    forall i | 0 <= i < |m| ensures InProject(db.columns, p, m[i]) && m[i] != "" {
      assert m[i] in multiset(ids);
      var k :| 0 <= k < |ids| && ids[k] == m[i];
    }
  }

  /** Sending a checked move for a board that lists every column of the
      project once, each with a non-negative distinct order, succeeds on
      the server, keeps the index, and leaves every column at its new
      position. */
  lemma MovePayloadReorders(db: Db, p: ProjectId, ids: seq<ColumnId>, activeId: ColumnId, overId: ColumnId, items: seq<ReorderItem>)
    requires IsProjectListing(db.columns, p, ids)
    requires Castable(p) && p in db.projects
    requires UniqueOrders(db.columns) && NonNegativeOrders(db.columns, p)
    requires forall i :: 0 <= i < |ids| ==> ids[i] != ""
    requires activeId in ids && ColumnMovePayloadChecked(ids, activeId, overId) == Some(items)
    ensures Reorder(db, p, items, ids).response == Response(200, Reordered)
    ensures UniqueOrders(Reorder(db, p, items, ids).db.columns)
    ensures forall i :: 0 <= i < |items| ==>
              Reorder(db, p, items, ids).db.columns[items[i].id] == db.columns[items[i].id].(order := i)
  {
    var m := Moved(ids, IndexOf(ids, activeId), IndexOf(ids, overId));
    assert items == Payload(m);
    assert Distinct(ids);
    MovedDistinct(ids, IndexOf(ids, activeId), IndexOf(ids, overId));
    PermutationReorders(db, p, ids, m);
  }

  /** Any ordering of the project's columns, each listed once, is accepted
      and gives every column its index in that ordering. */
  lemma PermutationReorders(db: Db, p: ProjectId, ids: seq<ColumnId>, m: seq<ColumnId>)
    requires IsProjectListing(db.columns, p, ids)
    requires Castable(p) && p in db.projects
    requires UniqueOrders(db.columns) && NonNegativeOrders(db.columns, p)
    requires forall i :: 0 <= i < |ids| ==> ids[i] != ""
    requires multiset(m) == multiset(ids) && Distinct(m) && |m| >= 1
    ensures forall i :: 0 <= i < |m| ==> InProject(db.columns, p, m[i])
    ensures Reorder(db, p, Payload(m), ids).response == Response(200, Reordered)
    ensures UniqueOrders(Reorder(db, p, Payload(m), ids).db.columns)
    ensures forall i :: 0 <= i < |m| ==>
              Reorder(db, p, Payload(m), ids).db.columns[m[i]] == db.columns[m[i]].(order := i)
  {
    var items := Payload(m);
    PayloadAccepted(db, p, ids, m);
    ReorderSucceeds(db, p, items, ids);
    var after := Reorder(db, p, items, ids).db.columns;
    forall i | 0 <= i < |m|
      ensures m[i] in after && after[m[i]] == db.columns[m[i]].(order := i)
    {
      assert items[i] == ReorderItem(m[i], i);
      FinalOrderAt(db, p, items, ids, i);
    }
  }

  // ---------------------------------------------------------------------
  // Which column shows which task

  function ColumnStatuses(columns: seq<BoardColumn>): (r: seq<string>)
    ensures |r| == |columns| && forall j :: 0 <= j < |columns| ==> r[j] == ColumnStatus(columns[j].title)
  {
    seq(|columns|, j requires 0 <= j < |columns| => ColumnStatus(columns[j].title))
  }

  /** Column `j` is the first whose status is `status`. */
  predicate IsHome(statuses: seq<string>, status: string, j: int)
  {
    0 <= j < |statuses| && statuses[j] == status && status !in statuses[..j]
  }

  /** The ids of the tasks some column among `statuses` collects. */
  function ClaimedIds(tasks: seq<Task>, statuses: seq<string>): set<TaskId>
  {
    set t | t in tasks && t.status in statuses :: t.id
  }

  /** `tasks.filter(t => t.status === status && !claimed.has(t.id))`. */
  function Pick(tasks: seq<Task>, status: string, claimed: set<TaskId>): (r: seq<Task>)
    ensures forall t :: t in r <==> t in tasks && t.status == status && t.id !in claimed
  {
    if tasks == [] then []
    else (if tasks[0].status == status && tasks[0].id !in claimed then [tasks[0]] else []) + Pick(tasks[1..], status, claimed)
  }

  /** `tasks.filter(t => !claimed.has(t.id))`. */
  function Unclaimed(tasks: seq<Task>, claimed: set<TaskId>): (r: seq<Task>)
    ensures forall t :: t in r <==> t in tasks && t.id !in claimed
  {
    if tasks == [] then []
    else (if tasks[0].id !in claimed then [tasks[0]] else []) + Unclaimed(tasks[1..], claimed)
  }

  /** The ids of the tasks in `ts`. */
  function IdsOf(ts: seq<Task>): set<TaskId>
  {
    set t | t in ts :: t.id
  }

  lemma ClaimStep(tasks: seq<Task>, statuses: seq<string>, j: nat, claimed: set<TaskId>, mine: seq<Task>)
    requires j < |statuses|
    requires claimed == ClaimedIds(tasks, statuses[..j])
    requires mine == Pick(tasks, statuses[j], claimed)
    ensures claimed + IdsOf(mine) == ClaimedIds(tasks, statuses[..j + 1])
  {
    assert statuses[..j + 1] == statuses[..j] + [statuses[j]];
    var after := ClaimedIds(tasks, statuses[..j + 1]);
    forall x | x in after
      ensures x in claimed + IdsOf(mine)
    {
      var t :| t in tasks && t.status in statuses[..j + 1] && t.id == x;
      if t.status !in statuses[..j] && x !in claimed {
        assert t in mine;
      }
    }
  }

  /** With distinct ids, a task's id is claimed exactly when its own
      status is collected. */
  lemma OwnClaim(tasks: seq<Task>, statuses: seq<string>, t: Task)
    requires DistinctTaskIds(tasks) && t in tasks
    ensures t.id in ClaimedIds(tasks, statuses) <==> t.status in statuses
  {
    if t.id in ClaimedIds(tasks, statuses) {
      var u :| u in tasks && u.status in statuses && u.id == t.id;
      var i :| 0 <= i < |tasks| && tasks[i] == u;
      var k :| 0 <= k < |tasks| && tasks[k] == t;
      assert i == k;
    }
  }

  lemma ClaimsGrow(tasks: seq<Task>, statuses: seq<string>, j: nat, k: nat)
    requires j <= k <= |statuses|
    ensures ClaimedIds(tasks, statuses[..j]) <= ClaimedIds(tasks, statuses[..k])
  {
    forall x | x in ClaimedIds(tasks, statuses[..j]) ensures x in ClaimedIds(tasks, statuses[..k]) {
      var t :| t in tasks && t.status in statuses[..j] && t.id == x;
      var i :| 0 <= i < j && statuses[..j][i] == t.status;
      assert statuses[..k][i] == t.status;
    }
  }

  /** The first `n` columns hold what the loop of the board gives them. */
  predicate PickedUpTo(tasks: seq<Task>, statuses: seq<string>, shown: seq<seq<Task>>, n: nat)
  {
    && |shown| == n <= |statuses|
    && forall i :: 0 <= i < n ==> shown[i] == Pick(tasks, statuses[i], ClaimedIds(tasks, statuses[..i]))
  }

  lemma PickedStep(tasks: seq<Task>, statuses: seq<string>, shown: seq<seq<Task>>, j: nat, mine: seq<Task>)
    requires PickedUpTo(tasks, statuses, shown, j) && j < |statuses|
    requires mine == Pick(tasks, statuses[j], ClaimedIds(tasks, statuses[..j]))
    ensures PickedUpTo(tasks, statuses, shown + [mine], j + 1)
  {
  }

  /** One round of the board's loop keeps both of its invariants. */
  lemma LoopStep(tasks: seq<Task>, statuses: seq<string>, shown: seq<seq<Task>>, claimed: set<TaskId>, j: nat, mine: seq<Task>)
    requires j < |statuses|
    requires claimed == ClaimedIds(tasks, statuses[..j])
    requires PickedUpTo(tasks, statuses, shown, j)
    requires mine == Pick(tasks, statuses[j], claimed)
    ensures claimed + IdsOf(mine) == ClaimedIds(tasks, statuses[..j + 1])
    ensures PickedUpTo(tasks, statuses, shown + [mine], j + 1)
  {
    ClaimStep(tasks, statuses, j, claimed, mine);
    PickedStep(tasks, statuses, shown, j, mine);
  }

  /** A column shows only tasks of the status it collects. */
  lemma PickedStatus(tasks: seq<Task>, statuses: seq<string>, shown: seq<seq<Task>>)
    requires PickedUpTo(tasks, statuses, shown, |statuses|)
    ensures forall j, t :: 0 <= j < |shown| && t in shown[j] ==> t in tasks && t.status == statuses[j]
  {
  }

  /** No task is shown in two columns. */
  lemma PickedOnce(tasks: seq<Task>, statuses: seq<string>, shown: seq<seq<Task>>)
    requires PickedUpTo(tasks, statuses, shown, |statuses|)
    ensures forall j, k, t :: 0 <= j < k < |shown| && t in shown[j] ==> t !in shown[k]
  {
    forall j, k, t | 0 <= j < k < |shown| && t in shown[j] ensures t !in shown[k] {
      assert statuses[..j + 1] == statuses[..j] + [statuses[j]];
      assert t.id in ClaimedIds(tasks, statuses[..j + 1]);
      ClaimsGrow(tasks, statuses, j + 1, k);
    }
  }

  /** With distinct ids, a column shows exactly the tasks whose status it
      is the first column to collect. */
  lemma PickedHome(tasks: seq<Task>, statuses: seq<string>, shown: seq<seq<Task>>)
    requires PickedUpTo(tasks, statuses, shown, |statuses|) && DistinctTaskIds(tasks)
    ensures forall j, t :: 0 <= j < |shown| ==> (t in shown[j] <==> t in tasks && IsHome(statuses, t.status, j))
  {
    forall j, t | 0 <= j < |shown| && t in tasks
      ensures t in shown[j] <==> IsHome(statuses, t.status, j)
    {
      OwnClaim(tasks, statuses[..j], t);
    }
  }

  /** With distinct ids, a task is unassigned exactly when no column
      collects its status, and then it is shown nowhere; otherwise it is
      shown in its first column. */
  lemma PickedCover(tasks: seq<Task>, statuses: seq<string>, shown: seq<seq<Task>>, unassigned: seq<Task>)
    requires PickedUpTo(tasks, statuses, shown, |statuses|) && DistinctTaskIds(tasks)
    requires unassigned == Unclaimed(tasks, ClaimedIds(tasks, statuses))
    ensures forall t :: t in unassigned <==> t in tasks && t.status !in statuses
    ensures forall t :: t in tasks ==> (t in unassigned <==> forall j :: 0 <= j < |shown| ==> t !in shown[j])
  {
    PickedHome(tasks, statuses, shown);
    forall t | t in tasks ensures t in unassigned <==> t.status !in statuses {
      OwnClaim(tasks, statuses, t);
    }
    forall t | t in tasks && t !in unassigned ensures exists j :: 0 <= j < |shown| && t in shown[j] {
      var h := IndexOf(statuses, t.status);
      assert IsHome(statuses, t.status, h);
      assert t in shown[h];
    }
  }

  /** The board's partition of the project's tasks over its columns, in
      display order: a column takes the tasks of its status that no earlier
      column took; what no column took is reported as unassigned. */
  method PartitionTasks(columns: seq<BoardColumn>, tasks: seq<Task>) returns (shown: seq<seq<Task>>, unassigned: seq<Task>)
    ensures |shown| == |columns|
    ensures forall j, t :: 0 <= j < |shown| && t in shown[j] ==> t in tasks && t.status == ColumnStatus(columns[j].title)
    ensures forall j, k, t :: 0 <= j < k < |shown| && t in shown[j] ==> t !in shown[k]
    ensures DistinctTaskIds(tasks) ==>
              forall j, t :: 0 <= j < |shown| ==> (t in shown[j] <==> t in tasks && IsHome(ColumnStatuses(columns), t.status, j))
    ensures DistinctTaskIds(tasks) ==>
              forall t :: t in unassigned <==> t in tasks && t.status !in ColumnStatuses(columns)
    ensures DistinctTaskIds(tasks) ==>
              forall t :: t in tasks ==> (t in unassigned <==> forall j :: 0 <= j < |shown| ==> t !in shown[j])
  {
    var statuses := ColumnStatuses(columns);
    var claimed;
    shown, claimed := PickColumns(tasks, statuses);
    unassigned := Unclaimed(tasks, claimed);
    PickedOutcome(tasks, statuses, shown, unassigned);
  }

  /** The board's loop over its columns: each takes its tasks from those
      no earlier column took, and the taken ids are collected on the way. */
  method PickColumns(tasks: seq<Task>, statuses: seq<string>) returns (shown: seq<seq<Task>>, claimed: set<TaskId>)
    ensures PickedUpTo(tasks, statuses, shown, |statuses|)
    ensures claimed == ClaimedIds(tasks, statuses)
  {
    claimed := {};
    shown := [];
    var j := 0;
    while j < |statuses|
      invariant 0 <= j <= |statuses|
      invariant claimed == ClaimedIds(tasks, statuses[..j])
      invariant PickedUpTo(tasks, statuses, shown, j)
    {
      var mine := Pick(tasks, statuses[j], claimed);
      LoopStep(tasks, statuses, shown, claimed, j, mine);
      shown := shown + [mine];
      claimed := claimed + IdsOf(mine);
      j := j + 1;
    }
    assert statuses[..|statuses|] == statuses;
  }

  /** What a finished pass of the loop gives, stated over the statuses. */
  lemma PickedOutcome(tasks: seq<Task>, statuses: seq<string>, shown: seq<seq<Task>>, unassigned: seq<Task>)
    requires PickedUpTo(tasks, statuses, shown, |statuses|)
    requires unassigned == Unclaimed(tasks, ClaimedIds(tasks, statuses))
    ensures forall j, t :: 0 <= j < |shown| && t in shown[j] ==> t in tasks && t.status == statuses[j]
    ensures forall j, k, t :: 0 <= j < k < |shown| && t in shown[j] ==> t !in shown[k]
    ensures DistinctTaskIds(tasks) ==>
              forall j, t :: 0 <= j < |shown| ==> (t in shown[j] <==> t in tasks && IsHome(statuses, t.status, j))
    ensures DistinctTaskIds(tasks) ==>
              forall t :: t in unassigned <==> t in tasks && t.status !in statuses
    ensures DistinctTaskIds(tasks) ==>
              forall t :: t in tasks ==> (t in unassigned <==> forall j :: 0 <= j < |shown| ==> t !in shown[j])
  {
    PickedStatus(tasks, statuses, shown);
    PickedOnce(tasks, statuses, shown);
    if DistinctTaskIds(tasks) {
      PickedHome(tasks, statuses, shown);
      PickedCover(tasks, statuses, shown, unassigned);
    }
  }

  // ---------------------------------------------------------------------
  // Task drop

  /** The status update a task drop asks for: none unless the task and the
      target column are on the board and the column's status differs from
      the task's. */
  function DropUpdate(tasks: seq<Task>, columns: seq<BoardColumn>, taskId: TaskId, overId: ColumnId): (r: Option<string>)
    ensures r.Some? ==> r.value in StatusNames
    ensures r.Some? <==>
              && taskId in TaskIds(tasks) && overId in ColumnIds(columns)
              && tasks[IndexOf(TaskIds(tasks), taskId)].status != ColumnStatus(columns[IndexOf(ColumnIds(columns), overId)].title)
    ensures r.Some? ==> r.value == ColumnStatus(columns[IndexOf(ColumnIds(columns), overId)].title)
  {
    var ti := IndexOf(TaskIds(tasks), taskId);
    if ti < 0 then None
    else
      var ci := IndexOf(ColumnIds(columns), overId);
      if ci < 0 then None
      else
        var status := ColumnStatus(columns[ci].title);
        if tasks[ti].status == status then None else Some(status)
  }

  /** Once the requested status is applied to the task, dropping it on the
      same column again asks for nothing. */
  lemma DropIsIdempotent(s: State, columns: seq<BoardColumn>, taskId: TaskId, overId: ColumnId, now: int)
    requires DropUpdate(s.tasks, columns, taskId, overId).Some?
    ensures DropUpdate(MoveTask(s, taskId, DropUpdate(s.tasks, columns, taskId, overId).value, now).tasks,
                       columns, taskId, overId).None?
  {
    var status := DropUpdate(s.tasks, columns, taskId, overId).value;
    var t := MoveTask(s, taskId, status, now).tasks;
    var ti := IndexOf(TaskIds(s.tasks), taskId);
    assert TaskIds(t) == TaskIds(s.tasks);
    assert t[ti].status == status;
  }
}

=== FILE: sets.dfy ===
/** Small facts about finite sets of integers. */
module Sets {

  /** `m` is the greatest element of `xs`. */
  predicate IsMax(m: int, xs: set<int>)
  {
    m in xs && forall x :: x in xs ==> x <= m
  }

  /** A finite set of integers with a known element `y` has a greatest
      element. */
  lemma {:induction false} MaxExists(xs: set<int>, y: int)
    requires y in xs
    ensures exists m :: IsMax(m, xs)
    decreases |xs|
  {
    if z :| z in xs && z != y {
      MaxExists(xs - {y}, z);
      var m :| IsMax(m, xs - {y});
      if y > m {
        forall x | x in xs ensures x <= y {
          if x != y { assert x in xs - {y}; }
        }
        assert IsMax(y, xs);
      } else {
        forall x | x in xs ensures x <= m {
          if x != y { assert x in xs - {y}; }
        }
        assert IsMax(m, xs);
      }
    } else {
      assert IsMax(y, xs);
    }
  }

  /** The greatest element of a set with a known element `y`; it does not
      depend on `y`. */
  function MaxOf(xs: set<int>, y: int): (m: int)
    requires y in xs
    ensures m in xs && forall x :: x in xs ==> x <= m
  {
    MaxExists(xs, y);
    var m :| IsMax(m, xs);
    m
  }
}

=== FILE: signup_form.dfy ===
/** The sign-up form: the two password checks it makes before it calls the
    signup mutation, and the state of its submit button. */
module SignupForm {
  import opened Wrappers
  import opened Strings
  import AuthRoutes

  datatype Form = Form(name: string, email: string, password: string, confirmPassword: string, passwordError: string)

  /** The signup request: name, email and password, never the
      confirmation. */
  datatype SignupCall = SignupCall(name: string, email: string, password: string)

  datatype Submitted = Submitted(form: Form, call: Option<SignupCall>)

  const MismatchError := "Passwords do not match"
  const TooShortError := "Password must be at least 6 characters long"

  /** `handleSubmit`: clear the old error, then reject a mismatch, then a
      password shorter than six; only a form passing both calls signup.
      The fields themselves are left as typed. */
  function HandleSubmit(f: Form): (r: Submitted)
    ensures r.form == f.(passwordError := r.form.passwordError)
    ensures r.call.Some? <==> f.password == f.confirmPassword && Utf16Length(f.password) >= 6
    ensures r.call.Some? ==> r.call.value == SignupCall(f.name, f.email, f.password) && r.form.passwordError == ""
    ensures f.password != f.confirmPassword ==> r.form.passwordError == MismatchError
    ensures f.password == f.confirmPassword && Utf16Length(f.password) < 6 ==> r.form.passwordError == TooShortError
  {
    var cleared := f.(passwordError := "");
    if f.password != f.confirmPassword then Submitted(cleared.(passwordError := MismatchError), None)
    else if Utf16Length(f.password) < 6 then Submitted(cleared.(passwordError := TooShortError), None)
    else Submitted(cleared, Some(SignupCall(f.name, f.email, f.password)))
  }

  /** The submit button's `disabled`: a pending signup or any empty field. */
  predicate SubmitDisabled(pending: bool, f: Form)
  {
    pending || f.name == "" || f.email == "" || f.password == "" || f.confirmPassword == ""
  }

  /** Every password that reaches the server is the confirmed one and at
      least six UTF-16 code units long (so at least three code points),
      whatever the form held before. */
  lemma SentPasswordIsConfirmed(f: Form)
    requires HandleSubmit(f).call.Some?
    ensures HandleSubmit(f).call.value.password == f.confirmPassword
    ensures Utf16Length(HandleSubmit(f).call.value.password) >= 6
    ensures |HandleSubmit(f).call.value.password| >= 3
  {
  }

  /** The server measures the password as the form does: whatever the form
      sends, with a name and a well-formed e-mail, passes the signup schema,
      and the same password passes the login schema. */
  lemma SentSignupPassesSchema(f: Form, env: AuthRoutes.Env)
    requires HandleSubmit(f).call.Some? && f.name != "" && env.isEmail(f.email)
    ensures AuthRoutes.ValidSignup(AuthRoutes.SignupRequest(f.name, f.email, HandleSubmit(f).call.value.password), env)
    ensures AuthRoutes.ValidLogin(AuthRoutes.LoginRequest(f.email, HandleSubmit(f).call.value.password), env)
  {
  }

  /** The error shown depends only on the two password fields: a stale
      error from an earlier submit never survives a new one. */
  lemma ErrorDependsOnPasswordsOnly(f: Form, g: Form)
    requires f.password == g.password && f.confirmPassword == g.confirmPassword
    ensures HandleSubmit(f).form.passwordError == HandleSubmit(g).form.passwordError
    ensures HandleSubmit(f).call.Some? <==> HandleSubmit(g).call.Some?
  {
  }

  /** Submitting again after a rejection, with nothing retyped, gives the
      same rejection: the checks are idempotent. */
  lemma ResubmitIsStable(f: Form)
    ensures HandleSubmit(HandleSubmit(f).form) == HandleSubmit(f)
  {
  }

  /** The mismatch check comes first: a short password that does not match
      its confirmation is reported as a mismatch. */
  lemma MismatchReportedFirst(f: Form)
    requires f.password != f.confirmPassword && Utf16Length(f.password) < 6
    ensures HandleSubmit(f).form.passwordError == MismatchError
  {
  }
}

=== FILE: strings.dfy ===
/** String helpers with the JavaScript semantics the source relies on:
    `trim`, ASCII `toLowerCase`/`toUpperCase`, `includes`, `startsWith`,
    and the decimal digits read by `parseInt(value, 10)`. */
module Strings {

  /** JavaScript's WhiteSpace and LineTerminator code points, the set
      `String.prototype.trim` strips. */
  predicate IsSpace(c: char)
  {
    || c == ' ' || c == '\t' || c == '\n' || c == '\r'
    || c == '\U{000B}' || c == '\U{000C}' || c == '\U{00A0}' || c == '\U{FEFF}'
    || c == '\U{1680}' || ('\U{2000}' <= c <= '\U{200A}')
    || c == '\U{2028}' || c == '\U{2029}' || c == '\U{202F}' || c == '\U{205F}'
    || c == '\U{3000}'
  }

  predicate AllSpace(s: string)
  {
    forall i :: 0 <= i < |s| ==> IsSpace(s[i])
  }

  /** `s.length` in JavaScript, which is also what the request schemas'
      `min`, `max` and `length` measure: UTF-16 code units, so a character
      outside the Basic Multilingual Plane counts twice. */
  function Utf16Length(s: string): (r: nat)
    ensures |s| <= r <= 2 * |s|
  {
    if |s| == 0 then 0
    else (if s[0] as int >= 0x1_0000 then 2 else 1) + Utf16Length(s[1..])
  }

  /** Characters outside the Basic Multilingual Plane take two units each. */
  lemma {:induction false} Utf16LengthOfAstral(s: string)
    requires forall i :: 0 <= i < |s| ==> s[i] as int >= 0x1_0000
    ensures Utf16Length(s) == 2 * |s|
  {
    if |s| > 0 {
      Utf16LengthOfAstral(s[1..]);
    }
  }

  /** Neither end of `s` is white space. */
  predicate IsTrimmed(s: string)
  {
    |s| == 0 || (!IsSpace(s[0]) && !IsSpace(s[|s| - 1]))
  }

  function TrimStart(s: string): (r: string)
    ensures |r| <= |s| && r == s[|s| - |r|..]
    ensures AllSpace(s[..|s| - |r|])
    ensures |r| == 0 || !IsSpace(r[0])
  {
    if |s| > 0 && IsSpace(s[0]) then TrimStart(s[1..]) else s
  }

  function TrimEnd(s: string): (r: string)
    ensures |r| <= |s| && r == s[..|r|]
    ensures AllSpace(s[|r|..])
    ensures |r| == 0 || !IsSpace(r[|r| - 1])
  {
    if |s| > 0 && IsSpace(s[|s| - 1]) then TrimEnd(s[..|s| - 1]) else s
  }

  /** `s.trim()`: the longest infix of `s` whose ends are not white space,
      everything cut off on either side being white space. */
  function Trim(s: string): (r: string)
    ensures IsTrimmed(r)
    ensures exists i, j :: 0 <= i <= j <= |s| && r == s[i..j] && AllSpace(s[..i]) && AllSpace(s[j..])
  {
    var t := TrimStart(s);
    var r := TrimEnd(t);
    TrimmedInfix(s, t, r);
    r
  }

  /** Trimming the start and then the end cuts white space off both sides
      of `s` and leaves the infix between: `t` is what is left after
      dropping `i` leading spaces, and `r` a prefix of `t` followed by
      spaces only. */
  lemma TrimWindow(s: string, t: string, r: string, i: nat)
    requires i <= |s| && t == s[i..] && AllSpace(s[..i])
    requires |r| <= |t| && r == t[..|r|] && AllSpace(t[|r|..])
    ensures 0 <= i <= i + |r| <= |s| && r == s[i..i + |r|]
    ensures AllSpace(s[..i]) && AllSpace(s[i + |r|..])
  {
    assert t[|r|..] == s[i + |r|..];
  }

  /** What `TrimStart` and then `TrimEnd` promise, put together: the
      result is trimmed and is the infix of `s` between two runs of white
      space. */
  lemma TrimmedInfix(s: string, t: string, r: string)
    requires |t| <= |s| && t == s[|s| - |t|..] && AllSpace(s[..|s| - |t|]) && (|t| == 0 || !IsSpace(t[0]))
    requires |r| <= |t| && r == t[..|r|] && AllSpace(t[|r|..]) && (|r| == 0 || !IsSpace(r[|r| - 1]))
    ensures IsTrimmed(r)
    ensures exists i, j :: 0 <= i <= j <= |s| && r == s[i..j] && AllSpace(s[..i]) && AllSpace(s[j..])
  {
    var i := |s| - |t|;
    TrimWindow(s, t, r, i);
    if |r| > 0 {
      assert r[0] == t[0];
    }
  }

  lemma {:induction false} TrimStartOfTrimmed(s: string)
    requires |s| == 0 || !IsSpace(s[0])
    ensures TrimStart(s) == s
  {
  }

  lemma {:induction false} TrimEndOfTrimmed(s: string)
    requires |s| == 0 || !IsSpace(s[|s| - 1])
    ensures TrimEnd(s) == s
  {
  }

  /** Trimming a trimmed string changes nothing. */
  lemma TrimIdempotent(s: string)
    ensures Trim(Trim(s)) == Trim(s)
  {
    var t := Trim(s);
    TrimStartOfTrimmed(t);
    TrimEndOfTrimmed(t);
  }

  lemma {:induction false} TrimStartSkipsSpace(pad: string, s: string)
    requires AllSpace(pad)
    ensures TrimStart(pad + s) == TrimStart(s)
    decreases |pad|
  {
    if |pad| > 0 {
      assert (pad + s)[1..] == pad[1..] + s;
      TrimStartSkipsSpace(pad[1..], s);
    } else {
      assert pad + s == s;
    }
  }

  lemma {:induction false} TrimEndSkipsSpace(s: string, pad: string)
    requires AllSpace(pad)
    ensures TrimEnd(s + pad) == TrimEnd(s)
    decreases |pad|
  {
    if |pad| > 0 {
      assert (s + pad)[..|s + pad| - 1] == s + pad[..|pad| - 1];
      TrimEndSkipsSpace(s, pad[..|pad| - 1]);
    } else {
      assert s + pad == s;
    }
  }

  lemma {:induction false} TrimStartOfSuffixSpace(s: string, pad: string)
    requires AllSpace(pad)
    requires |TrimStart(s)| > 0
    ensures TrimStart(s + pad) == TrimStart(s) + pad
    decreases |s|
  {
    if |s| > 0 && IsSpace(s[0]) {
      assert (s + pad)[1..] == s[1..] + pad;
      TrimStartOfSuffixSpace(s[1..], pad);
    }
  }

  lemma {:induction false} TrimStartAllSpace(s: string)
    requires AllSpace(s)
    ensures TrimStart(s) == []
    decreases |s|
  {
    if |s| > 0 {
      TrimStartAllSpace(s[1..]);
    }
  }

  /** White space around a string does not change its trimmed form. */
  lemma TrimIgnoresPadding(before: string, s: string, after: string)
    requires AllSpace(before) && AllSpace(after)
    ensures Trim(before + s + after) == Trim(s)
  {
    assert before + s + after == before + (s + after);
    TrimStartSkipsSpace(before, s + after);
    assert TrimStart(before + s + after) == TrimStart(s + after);
    PaddedTrimStart(s, after);
  }

  lemma PaddedTrimStart(s: string, after: string)
    requires AllSpace(after)
    ensures TrimEnd(TrimStart(s + after)) == TrimEnd(TrimStart(s))
  {
    var t := TrimStart(s);
    if |t| > 0 {
      TrimStartOfSuffixSpace(s, after);
      TrimEndSkipsSpace(t, after);
    } else {
      assert AllSpace(s + after);
      TrimStartAllSpace(s + after);
    }
  }

  /** ASCII case mapping (the model's `toLowerCase`). */
  function LowerChar(c: char): char
  {
    if 'A' <= c <= 'Z' then (c as int + 32) as char else c
  }

  function UpperChar(c: char): char
  {
    if 'a' <= c <= 'z' then (c as int - 32) as char else c
  }

  function Lower(s: string): (r: string)
    ensures |r| == |s|
    ensures forall i :: 0 <= i < |s| ==> r[i] == LowerChar(s[i])
  {
    seq(|s|, i requires 0 <= i < |s| => LowerChar(s[i]))
  }

  function Upper(s: string): (r: string)
    ensures |r| == |s|
    ensures forall i :: 0 <= i < |s| ==> r[i] == UpperChar(s[i])
  {
    seq(|s|, i requires 0 <= i < |s| => UpperChar(s[i]))
  }

  /** Lower-casing twice is lower-casing once. */
  lemma LowerIdempotent(s: string)
    ensures Lower(Lower(s)) == Lower(s)
  {
  }

  /** Case mapping never turns white space into text or back, so it
      commutes with trimming. */
  lemma LowerTrimCommute(s: string)
    ensures Lower(Trim(s)) == Trim(Lower(s))
  {
    LowerTrimStart(s);
    LowerTrimEnd(TrimStart(s));
  }

  /** Case mapping leaves white space alone and makes none. */
  lemma LowerKeepsSpace(c: char)
    ensures IsSpace(LowerChar(c)) <==> IsSpace(c)
    ensures IsSpace(c) ==> LowerChar(c) == c
  {
  }

  lemma {:induction false} LowerTrimStart(s: string)
    ensures Lower(TrimStart(s)) == TrimStart(Lower(s))
    decreases |s|
  {
    if |s| > 0 {
      LowerKeepsSpace(s[0]);
      assert Lower(s)[0] == LowerChar(s[0]);
      assert Lower(s)[1..] == Lower(s[1..]);
      if IsSpace(s[0]) {
        LowerTrimStart(s[1..]);
      }
    }
  }

  lemma {:induction false} LowerTrimEnd(s: string)
    ensures Lower(TrimEnd(s)) == TrimEnd(Lower(s))
    decreases |s|
  {
    if |s| > 0 {
      LowerKeepsSpace(s[|s| - 1]);
      assert Lower(s)[|s| - 1] == LowerChar(s[|s| - 1]);
      assert Lower(s)[..|s| - 1] == Lower(s[..|s| - 1]);
      if IsSpace(s[|s| - 1]) {
        LowerTrimEnd(s[..|s| - 1]);
      }
    }
  }

  lemma LowerAllSpace(s: string)
    requires AllSpace(s)
    ensures Lower(s) == s
  {
  }

  function StartsWith(s: string, prefix: string): bool
  {
    |prefix| <= |s| && s[..|prefix|] == prefix
  }

  /** A copy of `sub` starts at position `i` of `s`. */
  predicate OccursAt(s: string, sub: string, i: int)
  {
    0 <= i && i + |sub| <= |s| && s[i..i + |sub|] == sub
  }

  /** `s.includes(sub)`. */
  function Contains(s: string, sub: string): bool
    decreases |s|
  {
    StartsWith(s, sub) || (|s| > 0 && Contains(s[1..], sub))
  }

  /** `includes` holds exactly when some position of `s` starts a copy of
      `sub`. */
  lemma {:induction false} ContainsMeansOccurs(s: string, sub: string)
    ensures Contains(s, sub) <==> exists i :: OccursAt(s, sub, i)
    decreases |s|
  {
    if StartsWith(s, sub) {
      assert OccursAt(s, sub, 0);
    } else if |s| > 0 {
      ContainsMeansOccurs(s[1..], sub);
      assert forall i :: OccursAt(s[1..], sub, i) ==> OccursAt(s, sub, i + 1) by {
        forall i | OccursAt(s[1..], sub, i) ensures OccursAt(s, sub, i + 1) {
          assert s[1..][i..i + |sub|] == s[i + 1..i + 1 + |sub|];
        }
      }
      assert forall i :: OccursAt(s, sub, i) ==> OccursAt(s[1..], sub, i - 1) by {
        forall i | OccursAt(s, sub, i) ensures OccursAt(s[1..], sub, i - 1) {
          assert i != 0;
          assert s[1..][i - 1..i - 1 + |sub|] == s[i..i + |sub|];
        }
      }
    }
  }

  predicate IsDigit(c: char)
  {
    '0' <= c <= '9'
  }

  predicate AllDigits(s: string)
  {
    forall i :: 0 <= i < |s| ==> IsDigit(s[i])
  }

  function DigitValue(c: char): nat
    requires IsDigit(c)
  {
    c as int - '0' as int
  }

  function DigitChar(d: nat): (c: char)
    requires d < 10
    ensures IsDigit(c) && DigitValue(c) == d
  {
    ('0' as int + d) as char
  }

  /** `parseInt(s, 10)` on a string of decimal digits, unbounded. */
  function DigitsValue(s: string): nat
    requires AllDigits(s)
  {
    if |s| == 0 then 0 else DigitsValue(s[..|s| - 1]) * 10 + DigitValue(s[|s| - 1])
  }

  /** The canonical decimal form: digits only, no leading zero unless the
      number itself is zero. */
  predicate IsCanonical(s: string)
  {
    |s| >= 1 && AllDigits(s) && (s[0] != '0' || |s| == 1)
  }

  /** `${n}`: the decimal rendering of a natural number. */
  function NatToString(n: nat): (r: string)
    ensures IsCanonical(r)
    ensures DigitsValue(r) == n
    ensures n < 10 <==> |r| == 1
  {
    if n < 10 then [DigitChar(n)]
    else
      var r := NatToString(n / 10) + [DigitChar(n % 10)];
      assert r[..|r| - 1] == NatToString(n / 10);
      r
  }

  /** `${n}` for any integer: a minus sign before the magnitude. */
  function IntToString(n: int): (r: string)
    ensures |r| > 0
    ensures (n < 0) <==> r[0] == '-'
  {
    if n < 0 then "-" + NatToString(-n) else NatToString(n)
  }

  /** The digits that remain once leading zeros are dropped, keeping the
      last digit when every digit is zero. */
  function StripLeadingZeros(s: string): (r: string)
    requires |s| >= 1 && AllDigits(s)
    ensures IsCanonical(r)
    ensures |r| <= |s| && r == s[|s| - |r|..]
    ensures forall i :: 0 <= i < |s| - |r| ==> s[i] == '0'
  {
    if |s| > 1 && s[0] == '0' then StripLeadingZeros(s[1..]) else s
  }

  lemma {:induction false} DigitsValueOfZeroPrefix(s: string)
    requires |s| >= 1 && AllDigits(s) && s[0] == '0'
    ensures DigitsValue(s) == DigitsValue(s[1..])
    decreases |s|
  {
    if |s| > 1 {
      assert s[1..][..|s[1..]| - 1] == s[..|s| - 1][1..];
      DigitsValueOfZeroPrefix(s[..|s| - 1]);
    } else {
      assert s[..0] == [];
    }
  }

  lemma {:induction false} StripKeepsValue(s: string)
    requires |s| >= 1 && AllDigits(s)
    ensures DigitsValue(StripLeadingZeros(s)) == DigitsValue(s)
    decreases |s|
  {
    if |s| > 1 && s[0] == '0' {
      DigitsValueOfZeroPrefix(s);
      StripKeepsValue(s[1..]);
    }
  }

  lemma {:induction false} DigitsValueBound(s: string)
    requires AllDigits(s) && |s| >= 1 && s[0] != '0'
    ensures DigitsValue(s) >= 1
    ensures |s| >= 2 ==> DigitsValue(s) >= 10
    decreases |s|
  {
    if |s| >= 2 {
      DigitsValueBound(s[..|s| - 1]);
    }
  }

  /** A canonical digit string is the rendering of its own value. */
  lemma {:induction false} CanonicalRoundTrip(s: string)
    requires IsCanonical(s)
    ensures NatToString(DigitsValue(s)) == s
    decreases |s|
  {
    var n := DigitsValue(s);
    if |s| == 1 {
      assert s[..0] == [];
      assert n == DigitValue(s[0]) < 10;
    } else {
      var p := s[..|s| - 1];
      DigitsValueBound(s);
      DigitsValueBound(p);
      assert n / 10 == DigitsValue(p);
      assert n % 10 == DigitValue(s[|s| - 1]);
      CanonicalRoundTrip(p);
      assert s == p + [s[|s| - 1]];
    }
  }

  /** `parseInt` followed by rendering strips leading zeros: "007" becomes
      "7" and "000" becomes "0". */
  lemma RenderParsedStripsZeros(s: string)
    requires |s| >= 1 && AllDigits(s)
    ensures NatToString(DigitsValue(s)) == StripLeadingZeros(s)
  {
    StripKeepsValue(s);
    CanonicalRoundTrip(StripLeadingZeros(s));
  }
}

=== FILE: task_routes.dfy ===
/** The task routes under `/:projectId/tasks`, all behind `requireAuth`:
    list, get, create, update, delete, assign and unassign. Every handler
    runs the same ladder first: ids of length 24, then the project must
    exist (404), then the caller must own it or be a member (403). */
module TaskRoutes {
  import opened Wrappers
  import opened Strings
  import opened ProjectAccess
  import FrontendTypes

  type TaskId = string

  /** A stored task (the `Task` schema). `priority` is kept so that the
      two persistence functions below can be compared. */
  datatype TaskRec = TaskRec(
    project: ProjectId,
    title: string,
    description: Option<string>,
    status: string,
    priority: Option<string>,
    assignee: Option<UserId>,
    order: int,
    deadline: Option<int>)

  /** Projects by id, the ids of existing users, tasks by id. */
  datatype TaskDb = TaskDb(projects: map<ProjectId, ProjectRec>, users: set<UserId>, tasks: map<TaskId, TaskRec>)

  datatype Body =
    | Message(text: string)
    | TaskList(ids: set<TaskId>)
    | TaskView(id: TaskId, task: TaskRec)
    | Assigned(assignee: UserId)
    | NoContent

  datatype Reply = Reply(status: int, body: Body, db: TaskDb)

  /** What the foreign calls of one request produce: the `datetime()` check
      of the request schema, `new Date(s)` (None for an invalid date), and
      the id the store gives a new task. */
  datatype Env = Env(isDatetime: string -> bool, parseDate: string -> Option<int>, newTaskId: TaskId)

  /** Where the shared prelude stopped, or the project it admitted. */
  datatype Gate = Pass(project: ProjectRec) | Stop(status: int, message: string)

  /** The project lookup and the owner-or-member check. A project id that
      does not cast makes the lookup throw, which the handler's `catch`
      turns into 500 with its own `failure` message. */
  function Admit(db: TaskDb, user: UserId, projectId: ProjectId, failure: string): (g: Gate)
    ensures g.Pass? <==> Castable(projectId) && projectId in db.projects && CanAccess(db.projects[projectId], user)
    ensures g.Pass? ==> g.project == db.projects[projectId]
    ensures g == Stop(404, "Project not found") <==> Castable(projectId) && projectId !in db.projects
    ensures g == Stop(403, "Access denied") <==>
              Castable(projectId) && projectId in db.projects && !CanAccess(db.projects[projectId], user)
    ensures !Castable(projectId) ==> g == Stop(500, failure)
  {
    if !Castable(projectId) then Stop(500, failure)
    else if projectId !in db.projects then Stop(404, "Project not found")
    else
      var project := db.projects[projectId];
      if !CanAccess(project, user) then Stop(403, "Access denied")
      else Pass(project)
  }

  /** The assignee checks: the user must exist and own or belong to the
      project; an id that does not cast throws (500). */
  function AssigneeProblem(db: TaskDb, project: ProjectRec, assignee: UserId, failure: string): (r: Option<(int, string)>)
    ensures r.None? <==> Castable(assignee) && assignee in db.users && CanAccess(project, assignee)
    ensures r.Some? && Castable(assignee) ==> r.value.0 == 400
  {
    if !Castable(assignee) then Some((500, failure))
    else if assignee !in db.users then Some((400, "Assignee not found"))
    else if !CanAccess(project, assignee) then Some((400, "Assignee must be a member of the project"))
    else None
  }

  /** The optional deadline: absent, a valid instant, or an invalid date. */
  function Deadline(env: Env, deadline: Option<string>): (r: Result<Option<int>, string>)
    ensures deadline.None? ==> r == Ok(None)
    ensures r.Err? <==> deadline.Some? && env.parseDate(deadline.value).None?
    ensures r.Ok? && deadline.Some? ==> r.value == env.parseDate(deadline.value)
  {
    match deadline
    case None => Ok(None)
    case Some(s) =>
      match env.parseDate(s)
      case None => Err("Invalid deadline format")
      case Some(t) => Ok(Some(t))
  }

  predicate IsPriority(p: string)
  {
    p == "low" || p == "medium" || p == "high"
  }

  // ----- list and get -----

  /** `GET /:projectId/tasks`: the tasks of the project. */
  function ListTasks(db: TaskDb, user: UserId, projectId: ProjectId): (r: Reply)
    ensures r.db == db
    ensures Utf16Length(projectId) != 24 ==> r.status == 400
    ensures r.status == 200 <==> Utf16Length(projectId) == 24 && Admit(db, user, projectId, "Failed to fetch tasks").Pass?
    ensures r.status == 200 ==> r.body.TaskList? && forall t :: t in r.body.ids <==> t in db.tasks && db.tasks[t].project == projectId
  {
    if Utf16Length(projectId) != 24 then Reply(400, Message("Invalid projectId"), db)
    else
      match Admit(db, user, projectId, "Failed to fetch tasks")
      case Stop(status, message) => Reply(status, Message(message), db)
      case Pass(_) => Reply(200, TaskList(set t | t in db.tasks && db.tasks[t].project == projectId), db)
  }

  /** `GET /:projectId/tasks/:taskId` as written. The task is loaded with
      its project populated, so `task.project` is the project document and
      its `toString()` is a printout of that document, never the 24-digit
      id: every task whose project still exists is refused with 400, and
      one whose project is gone (populated as null) throws, giving 500. */
  function GetTaskAsWritten(db: TaskDb, user: UserId, projectId: ProjectId, taskId: TaskId): (r: Reply)
    ensures r.db == db
    ensures r.status != 200
    ensures Utf16Length(projectId) == 24 && Utf16Length(taskId) == 24 && Admit(db, user, projectId, "Failed to fetch task").Pass?
            && Castable(taskId) && taskId in db.tasks ==>
              r.status == (if db.tasks[taskId].project in db.projects then 400 else 500)
    ensures r.status == 404 <==>
              || (Utf16Length(projectId) == 24 && Utf16Length(taskId) == 24 && Admit(db, user, projectId, "Failed to fetch task") == Stop(404, "Project not found"))
              || (Utf16Length(projectId) == 24 && Utf16Length(taskId) == 24 && Admit(db, user, projectId, "Failed to fetch task").Pass?
                  && Castable(taskId) && taskId !in db.tasks)
  {
    if Utf16Length(projectId) != 24 || Utf16Length(taskId) != 24 then Reply(400, Message("Invalid ids"), db)
    else
      match Admit(db, user, projectId, "Failed to fetch task")
      case Stop(status, message) => Reply(status, Message(message), db)
      case Pass(_) =>
        if !Castable(taskId) then Reply(500, Message("Failed to fetch task"), db)
        else if taskId !in db.tasks then Reply(404, Message("Task not found"), db)
        else if db.tasks[taskId].project !in db.projects then Reply(500, Message("Failed to fetch task"), db)
        else Reply(400, Message("Task does not belong to this project"), db)
  }

  /** `GET /:projectId/tasks/:taskId` as intended: the populated project's
      id is compared, so a task of another project is 400, not 404, and a
      task of this project is shown. */
  function GetTask(db: TaskDb, user: UserId, projectId: ProjectId, taskId: TaskId): (r: Reply)
    ensures r.db == db
    ensures Utf16Length(projectId) != 24 || Utf16Length(taskId) != 24 ==> r == Reply(400, Message("Invalid ids"), db)
    ensures r.status == 200 <==>
              && Utf16Length(projectId) == 24 && Utf16Length(taskId) == 24 && Admit(db, user, projectId, "Failed to fetch task").Pass?
              && Castable(taskId) && taskId in db.tasks && db.tasks[taskId].project == projectId
    ensures r.status == 200 ==> r.body == TaskView(taskId, db.tasks[taskId])
    ensures Utf16Length(projectId) == 24 && Utf16Length(taskId) == 24 && Admit(db, user, projectId, "Failed to fetch task").Pass?
            && Castable(taskId) && taskId in db.tasks && db.tasks[taskId].project != projectId ==>
              r == Reply(400, Message("Task does not belong to this project"), db)
  {
    if Utf16Length(projectId) != 24 || Utf16Length(taskId) != 24 then Reply(400, Message("Invalid ids"), db)
    else
      match Admit(db, user, projectId, "Failed to fetch task")
      case Stop(status, message) => Reply(status, Message(message), db)
      case Pass(_) =>
        if !Castable(taskId) then Reply(500, Message("Failed to fetch task"), db)
        else if taskId !in db.tasks then Reply(404, Message("Task not found"), db)
        else if db.tasks[taskId].project != projectId then Reply(400, Message("Task does not belong to this project"), db)
        else Reply(200, TaskView(taskId, db.tasks[taskId]), db)
  }

  /** Twelve characters outside the Basic Multilingual Plane are 24 UTF-16
      units, so they pass the `length(24)` check, but they are no ObjectId:
      the project lookup throws and the route answers 500, not 400. */
  lemma AstralIdIsCastFailure(db: TaskDb, user: UserId, projectId: ProjectId, taskId: TaskId)
    requires |projectId| == 12 && forall i :: 0 <= i < |projectId| ==> projectId[i] as int >= 0x1_0000
    requires Utf16Length(taskId) == 24
    ensures Utf16Length(projectId) == 24 && !Castable(projectId)
    ensures ListTasks(db, user, projectId).status == 500
    ensures GetTask(db, user, projectId, taskId) == Reply(500, Message("Failed to fetch task"), db)
  {
    Utf16LengthOfAstral(projectId);
    assert !(projectId[0] as int < 0x80);
  }

  // ----- create -----

  datatype CreateRequest = CreateRequest(
    title: string,
    description: Option<string>,
    status: Option<string>,
    priority: Option<string>,
    assigneeId: Option<UserId>,
    order: Option<int>,
    deadline: Option<string>)

  /** `createSchema`. */
  predicate ValidCreate(req: CreateRequest, env: Env)
  {
    && 1 <= Utf16Length(req.title) <= 200
    && (req.description.Some? ==> Utf16Length(req.description.value) <= 1000)
    && (req.status.Some? ==> req.status.value in FrontendTypes.StatusNames)
    && (req.priority.Some? ==> IsPriority(req.priority.value))
    && (req.assigneeId.Some? ==> Utf16Length(req.assigneeId.value) == 24)
    && (req.order.Some? ==> req.order.value >= 0)
    && (req.deadline.Some? ==> env.isDatetime(req.deadline.value))
  }

  /** `max(200)` counts UTF-16 units: a title of more than a hundred
      characters outside the Basic Multilingual Plane is refused, though it
      has at most 200 characters. */
  lemma AstralTitleTooLong(req: CreateRequest, env: Env)
    requires |req.title| > 100 && forall i :: 0 <= i < |req.title| ==> req.title[i] as int >= 0x1_0000
    ensures !ValidCreate(req, env)
  {
    Utf16LengthOfAstral(req.title);
  }

  /** The object handed to `Task.create`: the request spread over the
      project, the parsed deadline, and the status and priority defaults. */
  datatype Document = Document(
    project: ProjectId,
    title: string,
    description: Option<string>,
    status: string,
    priority: string,
    assigneeId: Option<UserId>,
    order: Option<int>,
    deadline: Option<int>)

  function CreateDocument(projectId: ProjectId, req: CreateRequest, deadline: Option<int>): (d: Document)
    ensures d.status == if req.status.Some? then req.status.value else "todo"
    ensures d.priority == if req.priority.Some? then req.priority.value else "medium"
    ensures d.project == projectId && d.title == req.title && d.assigneeId == req.assigneeId && d.deadline == deadline
  {
    Document(projectId, req.title, req.description, req.status.GetOr("todo"), req.priority.GetOr("medium"),
             req.assigneeId, req.order, deadline)
  }

  function TrimmedOpt(s: Option<string>): Option<string>
  {
    match s
    case None => None
    case Some(v) => Some(Trim(v))
  }

  /** What the store keeps of a document AS WRITTEN: the schema trims
      title and description and defaults order to 0, and strict mode drops
      `priority` and `assigneeId`, which are not schema paths. */
  function PersistAsWritten(d: Document): (t: TaskRec)
    ensures t.assignee.None? && t.priority.None?
  {
    TaskRec(d.project, Trim(d.title), TrimmedOpt(d.description), d.status, None, None, d.order.GetOr(0), d.deadline)
  }

  /** What the store keeps once the schema declares the two fields the
      handler sends: the validated assignee and the priority are stored. */
  function Persist(d: Document): (t: TaskRec)
    ensures t.assignee == d.assigneeId && t.priority == Some(d.priority)
    ensures t.title == Trim(d.title) && t.status == d.status && t.project == d.project
    ensures t.order == if d.order.Some? then d.order.value else 0
  {
    TaskRec(d.project, Trim(d.title), TrimmedOpt(d.description), d.status, Some(d.priority), d.assigneeId,
            d.order.GetOr(0), d.deadline)
  }

  /** A create that names an assignee passes the membership check and
      still stores no assignee, and its priority is lost. */
  lemma CreateDropsAssignee(projectId: ProjectId, req: CreateRequest, deadline: Option<int>)
    requires req.assigneeId.Some?
    ensures PersistAsWritten(CreateDocument(projectId, req, deadline)).assignee.None?
    ensures Persist(CreateDocument(projectId, req, deadline)).assignee == req.assigneeId
    ensures PersistAsWritten(CreateDocument(projectId, req, deadline)).priority.None?
  {
  }

  /** `POST /:projectId/tasks`. The checks run in order: project id, project
      exists, access, body, assignee, deadline; each stops the request. A
      success adds exactly one task, under the new id. A title that is
      only white space passes the schema but fails the model's `required`
      after trimming: 500. */
  function CreateTask(db: TaskDb, user: UserId, projectId: ProjectId, req: CreateRequest, env: Env): (r: Reply)
    ensures r.status != 201 ==> r.db == db
    ensures Utf16Length(projectId) != 24 ==> r == Reply(400, Message("Invalid projectId"), db)
    ensures Utf16Length(projectId) == 24 && Admit(db, user, projectId, "Failed to create task").Stop? ==>
              r.status == Admit(db, user, projectId, "Failed to create task").status
    ensures Utf16Length(projectId) == 24 && Admit(db, user, projectId, "Failed to create task").Pass? && !ValidCreate(req, env) ==>
              r == Reply(400, Message("Invalid input"), db)
    ensures r.status == 201 ==>
              && Utf16Length(projectId) == 24 && Admit(db, user, projectId, "Failed to create task").Pass? && ValidCreate(req, env)
              && (req.assigneeId.Some? ==> req.assigneeId.value in db.users
                                           && CanAccess(db.projects[projectId], req.assigneeId.value))
              && env.newTaskId !in db.tasks
              && r.body.TaskView?
              && r.db == db.(tasks := db.tasks[env.newTaskId := r.body.task])
              && r.body.id == env.newTaskId
              && r.body.task.project == projectId
              && r.body.task.status == (if req.status.Some? then req.status.value else "todo")
              && r.body.task.priority == Some(if req.priority.Some? then req.priority.value else "medium")
              && r.body.task.assignee == req.assigneeId
              && r.body.task.title == Trim(req.title) && r.body.task.title != ""
  {
    if Utf16Length(projectId) != 24 then Reply(400, Message("Invalid projectId"), db)
    else
      match Admit(db, user, projectId, "Failed to create task")
      case Stop(status, message) => Reply(status, Message(message), db)
      case Pass(project) =>
        if !ValidCreate(req, env) then Reply(400, Message("Invalid input"), db)
        else
          var problem := if req.assigneeId.Some? then AssigneeProblem(db, project, req.assigneeId.value, "Failed to create task") else None;
          if problem.Some? then Reply(problem.value.0, Message(problem.value.1), db)
          else
            match Deadline(env, req.deadline)
            case Err(e) => Reply(400, Message(e), db)
            case Ok(deadline) =>
              var t := Persist(CreateDocument(projectId, req, deadline));
              if t.title == "" || env.newTaskId in db.tasks then Reply(500, Message("Failed to create task"), db)
              else Reply(201, TaskView(env.newTaskId, t), db.(tasks := db.tasks[env.newTaskId := t]))
  }

  // ----- update -----

  datatype UpdateRequest = UpdateRequest(
    title: Option<string>,
    description: Option<string>,
    status: Option<string>,
    priority: Option<string>,
    assigneeId: Option<UserId>,
    order: Option<int>,
    deadline: Option<string>)

  /** `updateSchema`: every field optional, with the create rules. */
  predicate ValidUpdate(req: UpdateRequest, env: Env)
  {
    && (req.title.Some? ==> 1 <= Utf16Length(req.title.value) <= 200)
    && (req.description.Some? ==> Utf16Length(req.description.value) <= 1000)
    && (req.status.Some? ==> req.status.value in FrontendTypes.StatusNames)
    && (req.priority.Some? ==> IsPriority(req.priority.value))
    && (req.assigneeId.Some? ==> Utf16Length(req.assigneeId.value) == 24)
    && (req.order.Some? ==> req.order.value >= 0)
    && (req.deadline.Some? ==> env.isDatetime(req.deadline.value))
  }

  /** `$set` of the request's present fields. Setters (trim) run on the
      update, validators do not. Like `Persist`, the assignee and the
      priority are stored; as written strict mode drops both. */
  function ApplyUpdate(t: TaskRec, req: UpdateRequest, deadline: Option<int>): (u: TaskRec)
    ensures u.project == t.project
    ensures req.title.Some? ==> u.title == Trim(req.title.value)
    ensures req.title.None? ==> u.title == t.title
    ensures req.description.Some? ==> u.description == Some(Trim(req.description.value))
    ensures req.description.None? ==> u.description == t.description
    ensures u.status == if req.status.Some? then req.status.value else t.status
    ensures u.priority == if req.priority.Some? then req.priority else t.priority
    ensures u.assignee == if req.assigneeId.Some? then req.assigneeId else t.assignee
    ensures u.order == if req.order.Some? then req.order.value else t.order
    ensures u.deadline == if deadline.Some? then deadline else t.deadline
  {
    TaskRec(
      t.project,
      if req.title.Some? then Trim(req.title.value) else t.title,
      if req.description.Some? then Some(Trim(req.description.value)) else t.description,
      req.status.GetOr(t.status),
      if req.priority.Some? then req.priority else t.priority,
      if req.assigneeId.Some? then req.assigneeId else t.assignee,
      req.order.GetOr(t.order),
      if deadline.Some? then deadline else t.deadline)
  }

  /** Applying the same update twice is applying it once. */
  lemma UpdateIdempotent(t: TaskRec, req: UpdateRequest, deadline: Option<int>)
    ensures ApplyUpdate(ApplyUpdate(t, req, deadline), req, deadline) == ApplyUpdate(t, req, deadline)
  {
    var once := ApplyUpdate(t, req, deadline);
    var twice := ApplyUpdate(once, req, deadline);
    if req.title.Some? {
      TrimIdempotent(req.title.value);
    }
    if req.description.Some? {
      TrimIdempotent(req.description.value);
    }
    assert twice.title == once.title;
    assert twice.description == once.description;
  }

  /** The task `findOneAndUpdate({_id, project})` finds: only one with
      both the id and the project. */
  predicate InProject(db: TaskDb, projectId: ProjectId, taskId: TaskId)
  {
    taskId in db.tasks && db.tasks[taskId].project == projectId
  }

  /** `PATCH /:projectId/tasks/:taskId`: a task of another project is as
      missing as an unknown one (404); a success changes that task only. */
  function UpdateTask(db: TaskDb, user: UserId, projectId: ProjectId, taskId: TaskId, req: UpdateRequest, env: Env): (r: Reply)
    ensures r.status != 200 ==> r.db == db
    ensures Utf16Length(projectId) != 24 || Utf16Length(taskId) != 24 ==> r == Reply(400, Message("Invalid ids"), db)
    ensures r.status == 200 ==>
              && Admit(db, user, projectId, "Failed to update task").Pass? && ValidUpdate(req, env)
              && InProject(db, projectId, taskId)
              && r.body.TaskView?
              && (req.assigneeId.Some? ==> req.assigneeId.value in db.users
                                           && CanAccess(db.projects[projectId], req.assigneeId.value))
              && r.db == db.(tasks := db.tasks[taskId := r.body.task])
              && r.body.id == taskId
    ensures Utf16Length(projectId) == 24 && Utf16Length(taskId) == 24 && Admit(db, user, projectId, "Failed to update task").Pass?
            && ValidUpdate(req, env) && Castable(taskId) && !InProject(db, projectId, taskId)
            && (req.assigneeId.Some? ==> AssigneeProblem(db, db.projects[projectId], req.assigneeId.value, "Failed to update task").None?)
            && Deadline(env, req.deadline).Ok? ==>
              r == Reply(404, Message("Task not found"), db)
  {
    if Utf16Length(projectId) != 24 || Utf16Length(taskId) != 24 then Reply(400, Message("Invalid ids"), db)
    else
      match Admit(db, user, projectId, "Failed to update task")
      case Stop(status, message) => Reply(status, Message(message), db)
      case Pass(project) =>
        if !ValidUpdate(req, env) then Reply(400, Message("Invalid input"), db)
        else
          var problem := if req.assigneeId.Some? then AssigneeProblem(db, project, req.assigneeId.value, "Failed to update task") else None;
          if problem.Some? then Reply(problem.value.0, Message(problem.value.1), db)
          else
            match Deadline(env, req.deadline)
            case Err(e) => Reply(400, Message(e), db)
            case Ok(deadline) =>
              if !Castable(taskId) then Reply(500, Message("Failed to update task"), db)
              else if !InProject(db, projectId, taskId) then Reply(404, Message("Task not found"), db)
              else
                var u := ApplyUpdate(db.tasks[taskId], req, deadline);
                Reply(200, TaskView(taskId, u), db.(tasks := db.tasks[taskId := u]))
  }

  // ----- delete -----

  /** `DELETE /:projectId/tasks/:taskId`: removes exactly that task when it
      belongs to the project, else 404. */
  function DeleteTask(db: TaskDb, user: UserId, projectId: ProjectId, taskId: TaskId): (r: Reply)
    ensures r.status != 204 ==> r.db == db
    ensures r.status == 204 <==>
              Utf16Length(projectId) == 24 && Utf16Length(taskId) == 24 && Admit(db, user, projectId, "Failed to delete task").Pass?
              && Castable(taskId) && InProject(db, projectId, taskId)
    ensures r.status == 204 ==> r.db == db.(tasks := db.tasks - {taskId}) && r.body == NoContent
    ensures Utf16Length(projectId) == 24 && Utf16Length(taskId) == 24 && Admit(db, user, projectId, "Failed to delete task").Pass?
            && Castable(taskId) && !InProject(db, projectId, taskId) ==>
              r == Reply(404, Message("Task not found"), db)
  {
    if Utf16Length(projectId) != 24 || Utf16Length(taskId) != 24 then Reply(400, Message("Invalid ids"), db)
    else
      match Admit(db, user, projectId, "Failed to delete task")
      case Stop(status, message) => Reply(status, Message(message), db)
      case Pass(_) =>
        if !Castable(taskId) then Reply(500, Message("Failed to delete task"), db)
        else if !InProject(db, projectId, taskId) then Reply(404, Message("Task not found"), db)
        else Reply(204, NoContent, db.(tasks := db.tasks - {taskId}))
  }

  // ----- assign and unassign -----

  /** `POST /:projectId/tasks/:taskId/assign`. A missing or empty
      `assigneeId` is rejected before any lookup, even of the project. The
      change is written with `task.save()`, which validates the loaded
      document: a title that an update trimmed to nothing fails the
      schema's `required`, and the `catch` answers 500. */
  function AssignTask(db: TaskDb, user: UserId, projectId: ProjectId, taskId: TaskId, assigneeId: Option<UserId>): (r: Reply)
    ensures r.status != 200 ==> r.db == db
    ensures Utf16Length(projectId) == 24 && Utf16Length(taskId) == 24 && (assigneeId.None? || assigneeId == Some("")) ==>
              r == Reply(400, Message("Assignee ID is required"), db)
    ensures r.status == 200 <==>
              && Utf16Length(projectId) == 24 && Utf16Length(taskId) == 24 && assigneeId.Some? && assigneeId.value != ""
              && Admit(db, user, projectId, "Failed to assign task").Pass?
              && AssigneeProblem(db, db.projects[projectId], assigneeId.value, "Failed to assign task").None?
              && Castable(taskId) && InProject(db, projectId, taskId) && db.tasks[taskId].title != ""
    ensures Utf16Length(projectId) == 24 && Utf16Length(taskId) == 24 && assigneeId.Some? && assigneeId.value != ""
            && Admit(db, user, projectId, "Failed to assign task").Pass?
            && AssigneeProblem(db, db.projects[projectId], assigneeId.value, "Failed to assign task").None?
            && Castable(taskId) && InProject(db, projectId, taskId) && db.tasks[taskId].title == "" ==>
              r == Reply(500, Message("Failed to assign task"), db)
    ensures r.status == 200 ==>
              && r.db == db.(tasks := db.tasks[taskId := db.tasks[taskId].(assignee := assigneeId)])
              && r.body == Assigned(assigneeId.value)
  {
    if Utf16Length(projectId) != 24 || Utf16Length(taskId) != 24 then Reply(400, Message("Invalid ids"), db)
    else if assigneeId.None? || assigneeId.value == "" then Reply(400, Message("Assignee ID is required"), db)
    else
      match Admit(db, user, projectId, "Failed to assign task")
      case Stop(status, message) => Reply(status, Message(message), db)
      case Pass(project) =>
        match AssigneeProblem(db, project, assigneeId.value, "Failed to assign task")
        case Some((status, message)) => Reply(status, Message(message), db)
        case None =>
          if !Castable(taskId) then Reply(500, Message("Failed to assign task"), db)
          else if taskId !in db.tasks then Reply(404, Message("Task not found"), db)
          else if db.tasks[taskId].project != projectId then Reply(400, Message("Task does not belong to this project"), db)
          else if db.tasks[taskId].title == "" then Reply(500, Message("Failed to assign task"), db)
          else Reply(200, Assigned(assigneeId.value), db.(tasks := db.tasks[taskId := db.tasks[taskId].(assignee := assigneeId)]))
  }

  /** `DELETE /:projectId/tasks/:taskId/assign`: clears the assignee. Like
      assign, it goes through `task.save()`, whose validation refuses a
      stored title that an update trimmed to nothing. */
  function UnassignTask(db: TaskDb, user: UserId, projectId: ProjectId, taskId: TaskId): (r: Reply)
    ensures r.status != 200 ==> r.db == db
    ensures r.status == 200 <==>
              Utf16Length(projectId) == 24 && Utf16Length(taskId) == 24 && Admit(db, user, projectId, "Failed to unassign task").Pass?
              && Castable(taskId) && InProject(db, projectId, taskId) && db.tasks[taskId].title != ""
    ensures Utf16Length(projectId) == 24 && Utf16Length(taskId) == 24 && Admit(db, user, projectId, "Failed to unassign task").Pass?
            && Castable(taskId) && InProject(db, projectId, taskId) && db.tasks[taskId].title == "" ==>
              r == Reply(500, Message("Failed to unassign task"), db)
    ensures r.status == 200 ==> r.db == db.(tasks := db.tasks[taskId := db.tasks[taskId].(assignee := None)])
  {
    if Utf16Length(projectId) != 24 || Utf16Length(taskId) != 24 then Reply(400, Message("Invalid ids"), db)
    else
      match Admit(db, user, projectId, "Failed to unassign task")
      case Stop(status, message) => Reply(status, Message(message), db)
      case Pass(_) =>
        if !Castable(taskId) then Reply(500, Message("Failed to unassign task"), db)
        else if taskId !in db.tasks then Reply(404, Message("Task not found"), db)
        else if db.tasks[taskId].project != projectId then Reply(400, Message("Task does not belong to this project"), db)
        else if db.tasks[taskId].title == "" then Reply(500, Message("Failed to unassign task"), db)
        else Reply(200, Message("Task unassigned successfully"), db.(tasks := db.tasks[taskId := db.tasks[taskId].(assignee := None)]))
  }

  // ----- properties across handlers -----

  /** The whole ladder for an outsider: with well-formed ids, a missing
      project is 404 and an existing one the caller neither owns nor
      belongs to is 403, on every route, before the body is looked at,
      and nothing changes. */
  lemma OutsidersAreTurnedAway(db: TaskDb, user: UserId, projectId: ProjectId, taskId: TaskId,
                               create: CreateRequest, update: UpdateRequest, assignee: UserId, env: Env)
    requires Utf16Length(projectId) == 24 && Utf16Length(taskId) == 24 && Castable(projectId) && assignee != ""
    requires projectId in db.projects ==> !CanAccess(db.projects[projectId], user)
    ensures var status := if projectId in db.projects then 403 else 404;
            && ListTasks(db, user, projectId) == Reply(status, Message(if status == 403 then "Access denied" else "Project not found"), db)
            && GetTask(db, user, projectId, taskId).status == status
            && CreateTask(db, user, projectId, create, env).status == status
            && UpdateTask(db, user, projectId, taskId, update, env).status == status
            && DeleteTask(db, user, projectId, taskId).status == status
            && AssignTask(db, user, projectId, taskId, Some(assignee)).status == status
            && UnassignTask(db, user, projectId, taskId).status == status
            && CreateTask(db, user, projectId, create, env).db == db
            && UpdateTask(db, user, projectId, taskId, update, env).db == db
            && DeleteTask(db, user, projectId, taskId).db == db
  {
  }

  /** Every stored assignee exists and owns or belongs to its task's
      project. */
  predicate AssigneesAreMembers(db: TaskDb)
  {
    forall t :: t in db.tasks && db.tasks[t].assignee.Some? ==>
      db.tasks[t].assignee.value in db.users
      && db.tasks[t].project in db.projects
      && CanAccess(db.projects[db.tasks[t].project], db.tasks[t].assignee.value)
  }

  /** Create, update and assign check the assignee before they store it,
      so no route can attach a stranger to a task; unassign and delete
      cannot break the invariant either. */
  lemma CreateKeepsAssignees(db: TaskDb, user: UserId, projectId: ProjectId, req: CreateRequest, env: Env)
    requires AssigneesAreMembers(db)
    ensures AssigneesAreMembers(CreateTask(db, user, projectId, req, env).db)
  {
    var r := CreateTask(db, user, projectId, req, env);
    if r.status == 201 {
      var after := r.db;
      forall t | t in after.tasks && after.tasks[t].assignee.Some?
        ensures after.tasks[t].assignee.value in after.users
                && after.tasks[t].project in after.projects
                && CanAccess(after.projects[after.tasks[t].project], after.tasks[t].assignee.value)
      {
        if t != env.newTaskId {
          assert after.tasks[t] == db.tasks[t];
        }
      }
    }
  }

  lemma UpdateKeepsAssignees(db: TaskDb, user: UserId, projectId: ProjectId, taskId: TaskId, req: UpdateRequest, env: Env)
    requires AssigneesAreMembers(db)
    ensures AssigneesAreMembers(UpdateTask(db, user, projectId, taskId, req, env).db)
  {
    var r := UpdateTask(db, user, projectId, taskId, req, env);
    if r.status == 200 {
      var u := r.body.task;
      assert u == ApplyUpdate(db.tasks[taskId], req, Deadline(env, req.deadline).value);
      assert u.project == projectId;
    }
  }

  lemma AssignKeepsAssignees(db: TaskDb, user: UserId, projectId: ProjectId, taskId: TaskId, assignee: Option<UserId>)
    requires AssigneesAreMembers(db)
    ensures AssigneesAreMembers(AssignTask(db, user, projectId, taskId, assignee).db)
  {
  }

  lemma UnassignKeepsAssignees(db: TaskDb, user: UserId, projectId: ProjectId, taskId: TaskId)
    requires AssigneesAreMembers(db)
    ensures AssigneesAreMembers(UnassignTask(db, user, projectId, taskId).db)
    ensures AssigneesAreMembers(DeleteTask(db, user, projectId, taskId).db)
  {
  }

  /** A created task can be read back by its creator under its new id. */
  lemma CreatedTaskIsReadable(db: TaskDb, user: UserId, projectId: ProjectId, req: CreateRequest, env: Env)
    requires CreateTask(db, user, projectId, req, env).status == 201
    requires Utf16Length(env.newTaskId) == 24 && Castable(env.newTaskId)
    ensures var after := CreateTask(db, user, projectId, req, env);
            GetTask(after.db, user, projectId, env.newTaskId) == Reply(200, after.body, after.db)
  {
  }

  /** As written, the same round trip fails: the task just created in the
      project is refused as not belonging to it, while the corrected route
      shows it. */
  lemma CreatedTaskIsRefusedAsWritten(db: TaskDb, user: UserId, projectId: ProjectId, req: CreateRequest, env: Env)
    requires CreateTask(db, user, projectId, req, env).status == 201
    requires Utf16Length(env.newTaskId) == 24 && Castable(env.newTaskId)
    ensures var after := CreateTask(db, user, projectId, req, env);
            && GetTaskAsWritten(after.db, user, projectId, env.newTaskId)
               == Reply(400, Message("Task does not belong to this project"), after.db)
            && GetTask(after.db, user, projectId, env.newTaskId).status == 200
  {
  }

  /** An update whose title is only white space is accepted and stores an
      empty title; from then on the task can be neither unassigned nor
      assigned, because `save()` validates the title. */
  lemma BlankedTitleBlocksAssign(db: TaskDb, user: UserId, projectId: ProjectId, taskId: TaskId,
                                 req: UpdateRequest, env: Env, assignee: UserId)
    requires UpdateTask(db, user, projectId, taskId, req, env).status == 200
    requires req.title.Some? && Trim(req.title.value) == ""
    ensures var after := UpdateTask(db, user, projectId, taskId, req, env).db;
            && after.tasks[taskId].title == ""
            && UnassignTask(after, user, projectId, taskId) == Reply(500, Message("Failed to unassign task"), after)
            && AssignTask(after, user, projectId, taskId, Some(assignee)).status != 200
  {
  }

  /** Three spaces pass the update schema's `min(1)` and trim to nothing,
      so the lemma above applies to a real request. */
  lemma SpacesPassAndTrimAway(env: Env)
    ensures ValidUpdate(UpdateRequest(Some("   "), None, None, None, None, None, None), env)
    ensures Trim("   ") == ""
  {
    TrimIgnoresPadding("   ", "", "");
    assert "   " + "" + "" == "   ";
    assert Trim("") == "";
  }

  /** A deleted task is gone for every later request on it. */
  lemma DeletedTaskIsGone(db: TaskDb, user: UserId, projectId: ProjectId, taskId: TaskId)
    requires DeleteTask(db, user, projectId, taskId).status == 204
    ensures var after := DeleteTask(db, user, projectId, taskId).db;
            && GetTask(after, user, projectId, taskId) == Reply(404, Message("Task not found"), after)
            && DeleteTask(after, user, projectId, taskId) == Reply(404, Message("Task not found"), after)
  {
  }

  /** Unassigning after assigning leaves the task as if it never had an
      assignee; every other task is untouched throughout. */
  lemma AssignThenUnassign(db: TaskDb, user: UserId, projectId: ProjectId, taskId: TaskId, assignee: UserId)
    requires AssignTask(db, user, projectId, taskId, Some(assignee)).status == 200
    ensures var mid := AssignTask(db, user, projectId, taskId, Some(assignee)).db;
            && UnassignTask(mid, user, projectId, taskId).status == 200
            && UnassignTask(mid, user, projectId, taskId).db
               == db.(tasks := db.tasks[taskId := db.tasks[taskId].(assignee := None)])
  {
  }
}

=== FILE: task_store.dfy ===
/** The client-side task store (`useTaskStore`): a task list, a project
    list and the selected project, changed only through its six actions.
    `Date.now()` and `new Date()` are the parameters `newId` and `now`. */
module TaskStore {
  import opened Wrappers
  import opened FrontendTypes

  datatype State = State(tasks: seq<Task>, projects: seq<Project>, selected: Option<Project>)

  /** `Omit<Task, 'id' | 'createdAt' | 'updatedAt'>`: what `addTask` is given. */
  datatype TaskDraft = TaskDraft(
    title: string,
    description: string,
    status: string,
    priority: string,
    assigneeId: string,
    projectId: string,
    deadline: Option<int>)

  /** `Partial<Task>`: every field may be absent (`None`). A present
      `deadline` may itself be `undefined`, hence the nested option. */
  datatype TaskPatch = TaskPatch(
    id: Option<TaskId>,
    title: Option<string>,
    description: Option<string>,
    status: Option<string>,
    priority: Option<string>,
    assigneeId: Option<string>,
    projectId: Option<string>,
    deadline: Option<Option<int>>,
    createdAt: Option<int>)

  /** `Omit<Project, 'id' | 'createdAt' | 'updatedAt'>`. */
  datatype ProjectDraft = ProjectDraft(name: string, description: string, ownerId: string, members: seq<string>)

  /** The patch that sets only the status, as `moveTask` builds it. */
  function StatusPatch(status: string): TaskPatch
  {
    TaskPatch(None, None, None, Some(status), None, None, None, None, None)
  }

  const EmptyPatch: TaskPatch := TaskPatch(None, None, None, None, None, None, None, None, None)

  /** `{ ...task, ...updates, updatedAt: now }`: a present field replaces
      the task's own, an absent one keeps it, `updatedAt` is always now. */
  function Merge(t: Task, p: TaskPatch, now: int): (r: Task)
  {
    Task(
      p.id.GetOr(t.id),
      p.title.GetOr(t.title),
      p.description.GetOr(t.description),
      p.status.GetOr(t.status),
      p.priority.GetOr(t.priority),
      p.assigneeId.GetOr(t.assigneeId),
      p.projectId.GetOr(t.projectId),
      p.deadline.GetOr(t.deadline),
      p.createdAt.GetOr(t.createdAt),
      now)
  }

  /** Merging the same patch twice is merging it once. */
  lemma MergeIdempotent(t: Task, p: TaskPatch, now: int)
    ensures Merge(Merge(t, p, now), p, now) == Merge(t, p, now)
  {
  }

  /** The empty patch only refreshes the timestamp. */
  lemma MergeEmpty(t: Task, now: int)
    ensures Merge(t, EmptyPatch, now) == t.(updatedAt := now)
  {
  }

  /** `addTask`: one new task at the end, built from the draft. */
  function AddTask(s: State, draft: TaskDraft, newId: TaskId, now: int): (r: State)
    ensures |r.tasks| == |s.tasks| + 1 && r.tasks[..|s.tasks|] == s.tasks
    ensures var t := r.tasks[|s.tasks|];
            && t.id == newId && t.createdAt == now && t.updatedAt == now
            && t.title == draft.title && t.description == draft.description && t.status == draft.status
            && t.priority == draft.priority && t.assigneeId == draft.assigneeId
            && t.projectId == draft.projectId && t.deadline == draft.deadline
    ensures r.projects == s.projects && r.selected == s.selected
  {
    var t := Task(newId, draft.title, draft.description, draft.status, draft.priority,
                  draft.assigneeId, draft.projectId, draft.deadline, now, now);
    s.(tasks := s.tasks + [t])
  }

  /** The task list after `updateTask(id, p)`. */
  function UpdateAll(tasks: seq<Task>, id: TaskId, p: TaskPatch, now: int): (r: seq<Task>)
    ensures |r| == |tasks|
    ensures forall i :: 0 <= i < |tasks| ==> r[i] == if tasks[i].id == id then Merge(tasks[i], p, now) else tasks[i]
  {
    seq(|tasks|, i requires 0 <= i < |tasks| => if tasks[i].id == id then Merge(tasks[i], p, now) else tasks[i])
  }

  /** `updateTask`: every task with the id is merged with the patch, the
      others are kept, length and positions do not change. */
  function UpdateTask(s: State, id: TaskId, p: TaskPatch, now: int): (r: State)
    ensures |r.tasks| == |s.tasks|
    ensures forall i :: 0 <= i < |s.tasks| && s.tasks[i].id != id ==> r.tasks[i] == s.tasks[i]
    ensures forall i :: 0 <= i < |s.tasks| && s.tasks[i].id == id ==>
              && r.tasks[i].updatedAt == now
              && (p.status.Some? ==> r.tasks[i].status == p.status.value)
              && (p.status.None? ==> r.tasks[i].status == s.tasks[i].status)
              && (p.title.None? ==> r.tasks[i].title == s.tasks[i].title)
              && (p.id.None? ==> r.tasks[i].id == id)
    ensures r.projects == s.projects && r.selected == s.selected
  {
    s.(tasks := UpdateAll(s.tasks, id, p, now))
  }

  /** Updating an id no task carries changes nothing. */
  lemma UpdateUnknownId(s: State, id: TaskId, p: TaskPatch, now: int)
    requires forall i :: 0 <= i < |s.tasks| ==> s.tasks[i].id != id
    ensures UpdateTask(s, id, p, now) == s
  {
    assert UpdateTask(s, id, p, now).tasks == s.tasks;
  }

  /** Applying the same update twice is applying it once, even when the
      patch renames the task. */
  lemma UpdateIdempotent(s: State, id: TaskId, p: TaskPatch, now: int)
    ensures UpdateTask(UpdateTask(s, id, p, now), id, p, now) == UpdateTask(s, id, p, now)
  {
    var once := UpdateTask(s, id, p, now);
    var twice := UpdateTask(once, id, p, now);
    forall i | 0 <= i < |s.tasks| ensures twice.tasks[i] == once.tasks[i] {
      if s.tasks[i].id == id {
        MergeIdempotent(s.tasks[i], p, now);
      }
    }
    assert twice.tasks == once.tasks;
  }

  /** `tasks.filter(task => task.id !== id)`. */
  function Without(tasks: seq<Task>, id: TaskId): (r: seq<Task>)
    ensures forall t :: t in r <==> t in tasks && t.id != id
    ensures |r| <= |tasks|
  {
    if tasks == [] then []
    else (if tasks[0].id != id then [tasks[0]] else []) + Without(tasks[1..], id)
  }

  /** `deleteTask`: exactly the tasks with the id are removed. */
  function DeleteTask(s: State, id: TaskId): (r: State)
    ensures forall t :: t in r.tasks <==> t in s.tasks && t.id != id
    ensures r.projects == s.projects && r.selected == s.selected
  {
    s.(tasks := Without(s.tasks, id))
  }

  /** The filter keeps the survivors in their order: it works piecewise on
      a split list. */
  lemma {:induction false} WithoutSplits(a: seq<Task>, b: seq<Task>, id: TaskId)
    ensures Without(a + b, id) == Without(a, id) + Without(b, id)
    decreases |a|
  {
    if a == [] {
      assert a + b == b;
    } else {
      assert (a + b)[1..] == a[1..] + b;
      WithoutSplits(a[1..], b, id);
    }
  }

  /** Deleting an id no task carries changes nothing. */
  lemma {:induction false} WithoutAbsent(tasks: seq<Task>, id: TaskId)
    requires forall i :: 0 <= i < |tasks| ==> tasks[i].id != id
    ensures Without(tasks, id) == tasks
    decreases |tasks|
  {
    if tasks != [] {
      WithoutAbsent(tasks[1..], id);
    }
  }

  /** Deleting twice is deleting once. */
  lemma DeleteIdempotent(s: State, id: TaskId)
    ensures DeleteTask(DeleteTask(s, id), id) == DeleteTask(s, id)
  {
    var once := DeleteTask(s, id).tasks;
    forall i | 0 <= i < |once| ensures once[i].id != id {
      assert once[i] in once;
    }
    WithoutAbsent(once, id);
  }

  /** `moveTask`: `updateTask` with a patch holding only the status. */
  function MoveTask(s: State, id: TaskId, status: string, now: int): (r: State)
    ensures |r.tasks| == |s.tasks|
    ensures forall i :: 0 <= i < |s.tasks| ==>
              r.tasks[i] == if s.tasks[i].id == id then s.tasks[i].(status := status, updatedAt := now) else s.tasks[i]
    ensures r.projects == s.projects && r.selected == s.selected
  {
    UpdateTask(s, id, StatusPatch(status), now)
  }

  /** `addProject`: one new project at the end; the selection stays. */
  function AddProject(s: State, draft: ProjectDraft, newId: string, now: int): (r: State)
    ensures |r.projects| == |s.projects| + 1 && r.projects[..|s.projects|] == s.projects
    ensures r.projects[|s.projects|] == Project(newId, draft.name, draft.description, now, now, draft.ownerId, draft.members)
    ensures r.tasks == s.tasks && r.selected == s.selected
  {
    s.(projects := s.projects + [Project(newId, draft.name, draft.description, now, now, draft.ownerId, draft.members)])
  }

  /** `projects.find(p => p.id === id)`: the first project with the id. */
  function FindProject(projects: seq<Project>, id: string): (r: Option<nat>)
    ensures r.None? <==> forall i :: 0 <= i < |projects| ==> projects[i].id != id
    ensures r.Some? ==> r.value < |projects| && projects[r.value].id == id
                        && forall i :: 0 <= i < r.value ==> projects[i].id != id
  {
    if projects == [] then None
    else if projects[0].id == id then Some(0)
    else match FindProject(projects[1..], id)
      case None => None
      case Some(k) => Some(k + 1)
  }

  /** `selectProject`: selects the first project with the id; an unknown id
      leaves the selection as it was. */
  function SelectProject(s: State, id: string): (r: State)
    ensures (forall i :: 0 <= i < |s.projects| ==> s.projects[i].id != id) ==> r == s
    ensures (exists i :: 0 <= i < |s.projects| && s.projects[i].id == id) ==>
              exists k :: 0 <= k < |s.projects| && r.selected == Some(s.projects[k]) && s.projects[k].id == id
                          && forall i :: 0 <= i < k ==> s.projects[i].id != id
    ensures r.tasks == s.tasks && r.projects == s.projects
  {
    match FindProject(s.projects, id)
    case None => s
    case Some(k) => s.(selected := Some(s.projects[k]))
  }

  /** A project just added under a fresh id can be selected by that id. */
  lemma SelectAdded(s: State, draft: ProjectDraft, newId: string, now: int)
    requires forall i :: 0 <= i < |s.projects| ==> s.projects[i].id != newId
    ensures SelectProject(AddProject(s, draft, newId, now), newId).selected ==
              Some(Project(newId, draft.name, draft.description, now, now, draft.ownerId, draft.members))
  {
    var t := AddProject(s, draft, newId, now);
    assert t.projects[|s.projects|].id == newId;
  }
}

=== FILE: use_auth.dfy ===
/** The current-user query of the frontend's auth hook: the cached user
    first, the API second, the tokens cleared on an authentication
    failure, and the retry policy with its exponential back-off. */
module UseAuth {
  import opened Wrappers
  import opened Strings

  /** The three `localStorage` entries the hook reads and clears. */
  datatype LocalStore = LocalStore(token: Option<string>, refreshToken: Option<string>, user: Option<string>)

  /** A failed request as the hook sees it: `error.message`, possibly
      absent. */
  datatype ApiError = ApiError(message: Option<string>)

  datatype ApiResult<U> = ApiOk(user: U) | ApiFail(error: ApiError)

  /** The query's answer and the storage after it; `called` says whether
      the API was asked. */
  datatype Answer<U> = Answer(result: Result<U, ApiError>, store: LocalStore, called: bool)

  /** `error.message?.includes(needle)`: false when there is no message. */
  predicate Mentions(e: ApiError, needle: string)
  {
    e.message.Some? && Contains(e.message.value, needle)
  }

  /** The two messages the query function takes as a rejected token. */
  predicate IsUnauthorized(e: ApiError)
  {
    Mentions(e, "401") || Mentions(e, "Unauthorized")
  }

  /** The three messages the retry policy takes as an authentication error. */
  predicate IsAuthError(e: ApiError)
  {
    IsUnauthorized(e) || Mentions(e, "No token found")
  }

  /** `enabled: !!localStorage.getItem('token')`. */
  predicate Enabled(store: LocalStore)
  {
    store.token.Some? && store.token.value != ""
  }

  /** The query function. `parse` is `JSON.parse` (None where it throws)
      and `api` is the answer `getCurrentUser` would give. A non-empty
      cached user that parses is returned without a request; otherwise the
      API answers, and an unauthorized failure clears all three entries
      before the error is rethrown. */
  function CurrentUser<U>(store: LocalStore, parse: string -> Option<U>, api: ApiResult<U>): (r: Answer<U>)
    ensures !r.called <==> store.user.Some? && store.user.value != "" && parse(store.user.value).Some?
    ensures !r.called ==> r.result == Ok(parse(store.user.value).value) && r.store == store
    ensures r.called && api.ApiOk? ==> r.result == Ok(api.user) && r.store == store
    ensures r.called && api.ApiFail? ==> r.result == Err(api.error)
    ensures r.called && api.ApiFail? && IsUnauthorized(api.error) ==> r.store == LocalStore(None, None, None)
    ensures r.called && api.ApiFail? && !IsUnauthorized(api.error) ==> r.store == store
  {
    if store.user.Some? && store.user.value != "" && parse(store.user.value).Some? then
      Answer(Ok(parse(store.user.value).value), store, false)
    else
      match api
      case ApiOk(u) => Answer(Ok(u), store, true)
      case ApiFail(e) =>
        if IsUnauthorized(e) then Answer(Err(e), LocalStore(None, None, None), true)
        else Answer(Err(e), store, true)
  }

  /** `retry`: never after an authentication error, otherwise while fewer
      than two failures came before. */
  predicate ShouldRetry(failureCount: nat, e: ApiError)
  {
    !IsAuthError(e) && failureCount < 2
  }

  function Pow2(n: nat): (r: nat)
    ensures r >= 1
  {
    if n == 0 then 1 else 2 * Pow2(n - 1)
  }

  /** `retryDelay`: `Math.min(1000 * 2 ** attemptIndex, 30000)`, in
      milliseconds. */
  function RetryDelay(attemptIndex: nat): (r: nat)
    ensures 1000 <= r <= 30000
    ensures r == 1000 * Pow2(attemptIndex) || r == 30000
    ensures r < 30000 ==> r == 1000 * Pow2(attemptIndex)
  {
    if 1000 * Pow2(attemptIndex) < 30000 then 1000 * Pow2(attemptIndex) else 30000
  }

  lemma {:induction false} Pow2Monotone(m: nat, n: nat)
    requires m <= n
    ensures Pow2(m) <= Pow2(n)
    decreases n
  {
    if m < n {
      Pow2Monotone(m, n - 1);
    }
  }

  /** The back-off never shrinks from one attempt to a later one. */
  lemma DelayMonotone(m: nat, n: nat)
    requires m <= n
    ensures RetryDelay(m) <= RetryDelay(n)
  {
    Pow2Monotone(m, n);
  }

  /** From the sixth attempt on (2^5 seconds is past the cap) the delay is
      the 30-second cap. */
  lemma DelayCappedFromFive(n: nat)
    requires n >= 5
    ensures RetryDelay(n) == 30000
  {
    assert Pow2(5) == 32;
    Pow2Monotone(5, n);
  }

  /** The query library's retry loop, given the errors the successive
      attempts would raise: after each failure it asks `retry` with the
      number of earlier failures, and waits `retryDelay` of that number
      before trying again. The result is the number of attempts made and
      the total time waited. `start` is the number of failures so far. */
  function Attempts(errors: seq<ApiError>, start: nat): (r: (nat, nat))
    requires |errors| >= 1
    decreases |errors|
  {
    if |errors| == 1 || !ShouldRetry(start, errors[0]) then (1, 0)
    else
      var rest := Attempts(errors[1..], start + 1);
      (rest.0 + 1, rest.1 + RetryDelay(start))
  }

  /** A query that keeps failing is tried at most three times and waits at
      most three seconds in all (1 s, then 2 s). */
  lemma {:induction false} AttemptsBounded(errors: seq<ApiError>)
    requires |errors| >= 1
    ensures 1 <= Attempts(errors, 0).0 <= 3
    ensures Attempts(errors, 0).1 <= 3000
  {
    if |errors| > 1 && ShouldRetry(0, errors[0]) {
      var e1 := errors[1..];
      if |e1| > 1 && ShouldRetry(1, e1[0]) {
        var e2 := e1[1..];
        assert !ShouldRetry(2, e2[0]);
        assert Attempts(e2, 2) == (1, 0);
        assert RetryDelay(0) == 1000 && RetryDelay(1) == 2000;
      } else {
        assert Attempts(e1, 1) == (1, 0);
      }
    }
  }

  /** An authentication error ends the query at once, without a wait. */
  lemma AuthErrorIsFinal(errors: seq<ApiError>, start: nat)
    requires |errors| >= 1 && IsAuthError(errors[0])
    ensures Attempts(errors, start) == (1, 0)
  {
  }

  /** A failure that is not an authentication error is retried twice when
      it persists: three attempts, 1 s and 2 s apart. */
  lemma {:induction false} PersistentFailureTriedThrice(errors: seq<ApiError>)
    requires |errors| >= 3
    requires forall i :: 0 <= i < |errors| ==> !IsAuthError(errors[i])
    ensures Attempts(errors, 0) == (3, 3000)
  {
    var e1 := errors[1..];
    var e2 := e1[1..];
    assert !IsAuthError(e1[0]) && !IsAuthError(e2[0]);
    assert Attempts(e2, 2) == (1, 0);
    assert RetryDelay(0) == 1000 && RetryDelay(1) == 2000;
  }

  /** A cached user that parses keeps the hook off the network, and an
      unauthorized failure leaves no token behind, so the query is then
      disabled. */
  lemma UnauthorizedDisablesQuery<U>(store: LocalStore, parse: string -> Option<U>, api: ApiResult<U>)
    requires api.ApiFail? && IsUnauthorized(api.error)
    requires store.user.None?
    ensures !Enabled(CurrentUser(store, parse, api).store)
    ensures CurrentUser(store, parse, api).result.Err?
  {
  }
}

=== FILE: user_routes.dfy ===
/** The user routes, all behind `requireAuth`: viewing another user,
    searching users, listing a project's users, the caller's project
    summary and account deletion. Collections are sequences in the
    store's natural order, because the responses list them in that
    order. */
module UserRoutes {
  import opened Wrappers
  import opened Strings
  import opened ProjectAccess

  datatype UserRec = UserRec(id: UserId, name: string, email: string)

  datatype ProjectEntry = ProjectEntry(id: ProjectId, rec: ProjectRec)

  datatype UserDb = UserDb(users: seq<UserRec>, projects: seq<ProjectEntry>)

  datatype Body =
    | Message(text: string)
    | Profile(user: UserRec)
    | Users(users: seq<UserRec>)
    | ProjectUsers(listing: seq<(UserRec, bool)>)
    | Summary(total: nat, owned: nat, member: nat, entries: seq<(ProjectId, bool)>)
    | OwnsProjects(count: nat)

  datatype Reply = Reply(status: int, body: Body, db: UserDb)

  /** The elements of `xs` that satisfy `p`, in order. */
  function Filter<T(!new)>(xs: seq<T>, p: T -> bool): (r: seq<T>)
    ensures |r| <= |xs|
    ensures forall x :: x in r <==> x in xs && p(x)
    decreases |xs|
  {
    if xs == [] then []
    else (if p(xs[0]) then [xs[0]] else []) + Filter(xs[1..], p)
  }

  /** The elements of `xs` that do not satisfy `p`, in order. */
  function FilterOut<T(!new)>(xs: seq<T>, p: T -> bool): (r: seq<T>)
    ensures |r| <= |xs|
    ensures forall x :: x in r <==> x in xs && !p(x)
    decreases |xs|
  {
    if xs == [] then []
    else (if p(xs[0]) then [] else [xs[0]]) + FilterOut(xs[1..], p)
  }

  /** The two filters split the sequence: together they keep every element
      once. */
  lemma {:induction false} FilterPartition<T(!new)>(xs: seq<T>, p: T -> bool)
    ensures |Filter(xs, p)| + |FilterOut(xs, p)| == |xs|
    decreases |xs|
  {
    if xs != [] {
      FilterPartition(xs[1..], p);
    }
  }

  /** A filter that no element passes keeps nothing. */
  lemma {:induction false} NoneKept<T(!new)>(xs: seq<T>, p: T -> bool)
    requires forall x :: x in xs ==> !p(x)
    ensures Filter(xs, p) == []
    decreases |xs|
  {
    if xs != [] {
      assert xs[0] in xs;
      assert forall x :: x in xs[1..] ==> x in xs;
      NoneKept(xs[1..], p);
    }
  }

  /** The first user with the id (`User.findById`). */
  function FindUser(users: seq<UserRec>, id: UserId): (r: Option<UserRec>)
    ensures r.Some? <==> exists i :: 0 <= i < |users| && users[i].id == id
    ensures r.Some? ==> r.value in users && r.value.id == id
  {
    if users == [] then None
    else if users[0].id == id then Some(users[0])
    else FindUser(users[1..], id)
  }

  /** The first project with the id (`Project.findById`). */
  function FindProject(projects: seq<ProjectEntry>, id: ProjectId): (r: Option<ProjectRec>)
    ensures r.Some? <==> exists i :: 0 <= i < |projects| && projects[i].id == id
    ensures r.Some? ==> ProjectEntry(id, r.value) in projects
  {
    if projects == [] then None
    else if projects[0].id == id then Some(projects[0].rec)
    else FindProject(projects[1..], id)
  }

  // ----- viewing another user -----

  /** The `$or` filter of `GET /:userId` AS WRITTEN. Its third clause is
      an object literal with two `owner` keys; the second one wins, so the
      clause matches every project the viewed user owns. */
  predicate SharesAsWritten(p: ProjectRec, current: UserId, target: UserId)
  {
    || (p.owner == current && target in p.members)
    || (p.owner == target && current in p.members)
    || p.owner == target
  }

  /** The filter as the comment above it describes it: a project that one
      of the two owns and the other belongs to, or that both own. */
  predicate Shares(p: ProjectRec, current: UserId, target: UserId)
  {
    || (p.owner == current && target in p.members)
    || (p.owner == target && current in p.members)
    || (p.owner == current && p.owner == target)
  }

  predicate AnySharedAsWritten(db: UserDb, current: UserId, target: UserId)
  {
    exists i :: 0 <= i < |db.projects| && SharesAsWritten(db.projects[i].rec, current, target)
  }

  predicate AnyShared(db: UserDb, current: UserId, target: UserId)
  {
    exists i :: 0 <= i < |db.projects| && Shares(db.projects[i].rec, current, target)
  }

  /** `GET /:userId` as written: an id that does not cast makes the
      project query throw (500); no matching project and another user is
      403; an unknown user is 404. */
  function ViewUserAsWritten(db: UserDb, current: UserId, target: UserId): (r: Reply)
    ensures r.db == db
    ensures r.status == 200 <==>
              Castable(target) && (AnySharedAsWritten(db, current, target) || current == target)
              && FindUser(db.users, target).Some?
    ensures r.status == 200 ==> r.body == Profile(FindUser(db.users, target).value)
  {
    if !Castable(target) then Reply(500, Message("Failed to fetch user"), db)
    else if !AnySharedAsWritten(db, current, target) && current != target then Reply(403, Message("Access denied"), db)
    else
      match FindUser(db.users, target)
      case None => Reply(404, Message("User not found"), db)
      case Some(u) => Reply(200, Profile(u), db)
  }

  /** `GET /:userId` with the intended filter: the caller may view
      themselves and the users they share a project with. */
  function ViewUser(db: UserDb, current: UserId, target: UserId): (r: Reply)
    ensures r.db == db
    ensures Castable(target) && current != target && !AnyShared(db, current, target) ==> r == Reply(403, Message("Access denied"), db)
    ensures r.status == 200 <==>
              Castable(target) && (AnyShared(db, current, target) || current == target)
              && FindUser(db.users, target).Some?
    ensures r.status == 200 ==> r.body == Profile(FindUser(db.users, target).value)
  {
    if !Castable(target) then Reply(500, Message("Failed to fetch user"), db)
    else if !AnyShared(db, current, target) && current != target then Reply(403, Message("Access denied"), db)
    else
      match FindUser(db.users, target)
      case None => Reply(404, Message("User not found"), db)
      case Some(u) => Reply(200, Profile(u), db)
  }

  /** With the intended filter, visibility is mutual: if `a` may view `b`
      (and both exist), `b` may view `a`. */
  lemma ViewIsMutual(db: UserDb, a: UserId, b: UserId)
    requires Castable(a) && Castable(b)
    requires FindUser(db.users, a).Some? && FindUser(db.users, b).Some?
    ensures ViewUser(db, a, b).status == 200 <==> ViewUser(db, b, a).status == 200
  {
    if AnyShared(db, a, b) {
      var i :| 0 <= i < |db.projects| && Shares(db.projects[i].rec, a, b);
      assert Shares(db.projects[i].rec, b, a);
    }
    if AnyShared(db, b, a) {
      var i :| 0 <= i < |db.projects| && Shares(db.projects[i].rec, b, a);
      assert Shares(db.projects[i].rec, a, b);
    }
  }

  /** The as-written rule admits every user who owns a project: here `a`
      and `b` share nothing, `b` owns a project without members, and `a`
      is shown `b`'s profile all the same; the intended rule refuses. */
  lemma OwnerVisibleToEveryone(db: UserDb, a: UserId, b: UserId)
    requires a == "aaaaaaaaaaaa" && b == "bbbbbbbbbbbb"
    requires db == UserDb([UserRec(a, "A", "a@x.io"), UserRec(b, "B", "b@x.io")],
                          [ProjectEntry("pppppppppppp", ProjectRec("P", b, []))])
    ensures ViewUserAsWritten(db, a, b).status == 200
    ensures ViewUser(db, a, b).status == 403
    ensures ViewUserAsWritten(db, b, a).status == 403
  {
    assert SharesAsWritten(db.projects[0].rec, a, b);
    assert db.users[1].id == b;
    assert !Shares(db.projects[0].rec, a, b);
    assert !SharesAsWritten(db.projects[0].rec, b, a);
  }

  // ----- search -----

  /** The case-insensitive match of the query on e-mail or name. */
  predicate Matches(u: UserRec, query: string)
  {
    Contains(Lower(u.email), Lower(query)) || Contains(Lower(u.name), Lower(query))
  }

  /** `GET /search/:query`: a query shorter than two characters is 400;
      a query the database refuses as a regular expression (`compiles`
      false, say "((") makes the find throw, which is 500; otherwise the
      first ten matching users in store order, never the caller. */
  function SearchUsers(db: UserDb, current: UserId, query: string, compiles: bool): (r: Reply)
    ensures r.db == db
    ensures r.status == 400 <==> Utf16Length(query) < 2
    ensures Utf16Length(query) >= 2 && !compiles ==> r == Reply(500, Message("Failed to search users"), db)
    ensures r.status == 200 <==> Utf16Length(query) >= 2 && compiles
    ensures r.status == 200 ==>
              && r.body.Users?
              && |r.body.users| <= 10
              && (forall u :: u in r.body.users ==> u in db.users && u.id != current && Matches(u, query))
              && (|r.body.users| < 10 ==>
                    forall u :: u in db.users && u.id != current && Matches(u, query) ==> u in r.body.users)
  {
    if Utf16Length(query) < 2 then Reply(400, Message("Search query must be at least 2 characters"), db)
    else if !compiles then Reply(500, Message("Failed to search users"), db)
    else
      var found := Filter(db.users, (u: UserRec) => u.id != current && Matches(u, query));
      var shown := if |found| <= 10 then found else found[..10];
      assert forall u :: u in shown ==> u in found;
      Reply(200, Users(shown), db)
  }

  /** `query.length` counts UTF-16 units: one character outside the Basic
      Multilingual Plane is long enough to search for. */
  lemma AstralCharIsSearched(db: UserDb, current: UserId, c: char)
    requires c as int >= 0x1_0000
    ensures SearchUsers(db, current, [c], true).status == 200
  {
    assert Utf16Length([c]) == 2 + Utf16Length([c][1..]);
  }

  // ----- the users of a project -----

  /** `GET /project/:projectId`: after the 404 and 403 checks, the stored
      users among the owner and the members, in store order, each marked
      `isOwner` exactly when it is the owner. */
  function ListProjectUsers(db: UserDb, current: UserId, projectId: ProjectId): (r: Reply)
    ensures r.db == db
    ensures Castable(projectId) && FindProject(db.projects, projectId).None? ==> r == Reply(404, Message("Project not found"), db)
    ensures r.status == 200 <==>
              Castable(projectId) && FindProject(db.projects, projectId).Some?
              && CanAccess(FindProject(db.projects, projectId).value, current)
    ensures r.status == 200 ==>
              var p := FindProject(db.projects, projectId).value;
              && r.body.ProjectUsers?
              && (forall e :: e in r.body.listing ==>
                    e.0 in db.users && (e.0.id == p.owner || e.0.id in p.members) && (e.1 <==> e.0.id == p.owner))
              && (forall u :: u in db.users && (u.id == p.owner || u.id in p.members) ==> (u, u.id == p.owner) in r.body.listing)
  {
    if !Castable(projectId) then Reply(500, Message("Failed to fetch project users"), db)
    else
      match FindProject(db.projects, projectId)
      case None => Reply(404, Message("Project not found"), db)
      case Some(p) =>
        if !CanAccess(p, current) then Reply(403, Message("Access denied"), db)
        else
          var inProject := Filter(db.users, (u: UserRec) => u.id == p.owner || u.id in p.members);
          var listing := UserListing(inProject, p.owner);
          Reply(200, ProjectUsers(listing), db)
  }

  /** Each user paired with whether it is `owner`, in the same order. */
  function UserListing(users: seq<UserRec>, owner: UserId): (r: seq<(UserRec, bool)>)
    ensures forall e :: e in r ==> e.0 in users && (e.1 <==> e.0.id == owner)
    ensures forall u :: u in users ==> (u, u.id == owner) in r
  {
    var listing := seq(|users|, i requires 0 <= i < |users| => (users[i], users[i].id == owner));
    assert forall u :: u in users ==> (u, u.id == owner) in listing by {
      forall u | u in users ensures (u, u.id == owner) in listing {
        var i :| 0 <= i < |users| && users[i] == u;
        assert listing[i] == (u, u.id == owner);
      }
    }
    assert forall i :: 0 <= i < |users| ==> users[i] in users;
    listing
  }

  // ----- the caller's project summary -----

  predicate Involves(e: ProjectEntry, user: UserId)
  {
    e.rec.owner == user || user in e.rec.members
  }

  /** `GET /profile/projects` as written. The query selects only `name`,
      `description` and `createdAt`, so `owner` is not loaded and
      `p.owner.toString()` throws on the first project found: a caller
      with any project gets 500, one with none an empty summary. */
  function ProfileProjectsAsWritten(db: UserDb, user: UserId): (r: Reply)
    ensures r.db == db
    ensures r.status == 200 <==> forall e :: e in db.projects ==> !Involves(e, user)
    ensures r.status != 200 ==> r == Reply(500, Message("Failed to fetch user projects"), db)
    ensures r.status == 200 ==> r.body == Summary(0, 0, 0, [])
  {
    var mine := Filter(db.projects, (e: ProjectEntry) => Involves(e, user));
    if |mine| > 0 then
      assert mine[0] in mine;
      Reply(500, Message("Failed to fetch user projects"), db)
    else Reply(200, Summary(0, 0, 0, []), db)
  }

  /** `GET /profile/projects` with `owner` among the selected fields: the
      projects the caller owns or belongs to, split into owned and
      member-only; the two counts add up to the total and each entry's
      `isOwner` says which side it is on. */
  function ProfileProjects(db: UserDb, user: UserId): (r: Reply)
    ensures r.db == db && r.status == 200 && r.body.Summary?
    ensures r.body.owned + r.body.member == r.body.total
    ensures r.body.total == |r.body.entries|
    ensures forall e :: e in db.projects && Involves(e, user) ==> (e.id, e.rec.owner == user) in r.body.entries
    ensures forall i :: 0 <= i < |r.body.entries| ==>
              exists e :: e in db.projects && Involves(e, user) && r.body.entries[i] == (e.id, e.rec.owner == user)
  {
    var mine := Filter(db.projects, (e: ProjectEntry) => Involves(e, user));
    var isOwner := (e: ProjectEntry) => e.rec.owner == user;
    FilterPartition(mine, isOwner);
    var listing := OwnerListing(mine, user);
    assert forall i :: 0 <= i < |listing| ==>
             exists e :: e in db.projects && Involves(e, user) && listing[i] == (e.id, e.rec.owner == user) by {
      forall i | 0 <= i < |listing|
        ensures exists e :: e in db.projects && Involves(e, user) && listing[i] == (e.id, e.rec.owner == user)
      {
        var e := mine[i];
        assert e in mine;
        assert e in db.projects && Involves(e, user);
      }
    }
    Reply(200, Summary(|mine|, |Filter(mine, isOwner)|, |FilterOut(mine, isOwner)|, listing), db)
  }

  /** The two versions agree only for a caller without projects: one
      project owned or joined turns the written route's answer into 500,
      where the corrected one lists it. */
  lemma ProfileFailsWithAnyProject(db: UserDb, user: UserId, e: ProjectEntry)
    requires e in db.projects && Involves(e, user)
    ensures ProfileProjectsAsWritten(db, user) == Reply(500, Message("Failed to fetch user projects"), db)
    ensures ProfileProjects(db, user).status == 200 && ProfileProjects(db, user).body.total >= 1
    ensures (e.id, e.rec.owner == user) in ProfileProjects(db, user).body.entries
  {
  }

  lemma ProfileAgreesWhenEmpty(db: UserDb, user: UserId)
    requires forall e :: e in db.projects ==> !Involves(e, user)
    ensures ProfileProjectsAsWritten(db, user) == ProfileProjects(db, user)
  {
    var involves := (e: ProjectEntry) => Involves(e, user);
    NoneKept(db.projects, involves);
    var mine := Filter(db.projects, involves);
    var isOwner := (e: ProjectEntry) => e.rec.owner == user;
    assert Filter(mine, isOwner) == [] && FilterOut(mine, isOwner) == [];
    assert OwnerListing(mine, user) == [];
  }

  /** Each project paired with whether `user` owns it, in the same order. */
  function OwnerListing(mine: seq<ProjectEntry>, user: UserId): (r: seq<(ProjectId, bool)>)
    ensures |r| == |mine|
    ensures forall i :: 0 <= i < |r| ==> r[i] == (mine[i].id, mine[i].rec.owner == user)
    ensures forall e :: e in mine ==> (e.id, e.rec.owner == user) in r
  {
    var listing := seq(|mine|, i requires 0 <= i < |mine| => (mine[i].id, mine[i].rec.owner == user));
    assert forall e :: e in mine ==> (e.id, e.rec.owner == user) in listing by {
      forall e | e in mine ensures (e.id, e.rec.owner == user) in listing {
        var i :| 0 <= i < |mine| && mine[i] == e;
        assert listing[i] == (e.id, e.rec.owner == user);
      }
    }
    listing
  }

  // ----- deleting the account -----

  /** `$pull: { members: user }` on one project: every occurrence goes. */
  function PullMember(e: ProjectEntry, user: UserId): (r: ProjectEntry)
    ensures r.id == e.id && r.rec.owner == e.rec.owner && r.rec.name == e.rec.name
    ensures user !in r.rec.members
    ensures forall m :: m in r.rec.members <==> m in e.rec.members && m != user
  {
    e.(rec := e.rec.(members := Filter(e.rec.members, (m: UserId) => m != user)))
  }

  /** `DELETE /profile`: refused with the count while the caller owns a
      project, changing nothing; otherwise the caller leaves every project
      and the user record is deleted. */
  function DeleteAccount(db: UserDb, user: UserId): (r: Reply)
    ensures var owned := Filter(db.projects, (e: ProjectEntry) => e.rec.owner == user);
            |owned| > 0 ==> r == Reply(400, OwnsProjects(|owned|), db)
    ensures r.status == 200 <==> forall i :: 0 <= i < |db.projects| ==> db.projects[i].rec.owner != user
    ensures r.status == 200 ==>
              && |r.db.projects| == |db.projects|
              && (forall i :: 0 <= i < |db.projects| ==> r.db.projects[i] == PullMember(db.projects[i], user))
              && (forall u :: u in r.db.users <==> u in db.users && u.id != user)
  {
    var owned := Filter(db.projects, (e: ProjectEntry) => e.rec.owner == user);
    if |owned| > 0 then
      assert owned[0] in owned;
      Reply(400, OwnsProjects(|owned|), db)
    else
      assert forall i :: 0 <= i < |db.projects| ==> db.projects[i] in db.projects;
      var projects := seq(|db.projects|, i requires 0 <= i < |db.projects| => PullMember(db.projects[i], user));
      Reply(200, Message("Account deleted successfully"), UserDb(FilterOut(db.users, (u: UserRec) => u.id == user), projects))
  }

  /** After a successful deletion the user is in no project: a fresh
      summary for that id is empty, and no one can find the user. */
  lemma DeletedUserIsGone(db: UserDb, user: UserId)
    requires DeleteAccount(db, user).status == 200
    ensures ProfileProjects(DeleteAccount(db, user).db, user).body.total == 0
    ensures ProfileProjectsAsWritten(DeleteAccount(db, user).db, user).status == 200
    ensures FindUser(DeleteAccount(db, user).db.users, user).None?
  {
  }
}

=== FILE: wrappers.dfy ===
/** Failure-compatible wrappers shared by every module of the model. */
module Wrappers {

  /** A value that may be absent: JavaScript's `undefined`, an optional
      request field, a query that found nothing. */
  datatype Option<+T> = None | Some(value: T)
  {
    function GetOr(default: T): T
    {
      match this
      case Some(v) => v
      case None => default
    }
  }

  /** The outcome of an operation that can fail (a thrown error, a
      rejected database write). */
  datatype Result<+T, +E> = Ok(value: T) | Err(error: E)
}
